=== FILE: README.md ===
# FinancialConnectionsLite core, modelled in Dafny

FinancialConnectionsLite is a small iOS SDK. An integrator hands it a Link
Account Session client secret and a return URL. The SDK then runs the
hosted bank-linking flow in a web view and finally reports a `FlowResult`:
success with the session, cancel, or failure. This project models the
pure logic inside that SDK and proves properties of it:

- **Parameter encoding** (`URLEncoder`).
  - A nested dictionary, array or scalar tree is flattened to bracket paths: `k`, `p[k]`, `p[i]`.
  - Each key and value is percent-escaped, and the pairs are joined as `k=v&...`.
  - Modules: `URLEncoder`, `FlattenProperties`, `PercentEncoding`, `QueryStringProperties`, `QueryDecoding`.
- **Request construction** (`FinancialConnectionsApiClient.post` and `generateHostedUrl`, module `ApiClient`).
  - Covers the URL, method, headers and form body of the one request the client sends.
- **Response decoding** (`Session.swift`, modules `Json`, `SessionModel` and `SessionCodec`).
  - An abstract JSON tree is decoded into `Session`, `AccountList`, `Account`, `Balance`, `BalanceRefresh` and the raw-value enums.
  - Decoding follows the synthesized `Decodable` rules for required and optional keys.
- **Flow-result mapping** (`Controllers/ContainerViewController.swift`, module `ContainerFlow`).
  - `fetchHostedUrl` and `completeFlow` are modelled as the sequence of actions each performs.
- **New-window handling** (`AuthFlowViewController.swift`, module `AuthFlow`).
  - Covers the decision to try a universal link, the fallback to an ephemeral secure browser, and the browser's completion.

Shared modules:
- `Wrappers`: `Option` and `Result`.
- `Sequences`.
- `Decimal`: the text of integers.
- `Utf8`: UTF-8 encoding of strings.
- `Urls`: a URL is its absolute string, and its scheme is read off that string.

Foundation is abstract in two places, carried as a `Platform` value:
- `.urlQueryAllowed` is a set of characters. As in Foundation, only its 7-bit ASCII members are written unescaped.
  - The properties that depend on it say which characters they need in or out of the set.
- String interpolation of a value that is none of the recognised scalars is an uninterpreted function `describe`.
  - Only an array nested in an array reaches it.

A Swift dictionary has no fixed enumeration order. It is modelled as a sequence of entries in the order the dictionary happens to enumerate them. Likewise, `queryString` takes the enumeration order of the flattened dictionary as a parameter. Every property is stated for all orders, except the two lemmas about the unit test's expected string and the counterexample lemmas `QueryDecoding.SeparatorsLeftUnescapedAreAmbiguous` and `FlattenProperties.CollidingPathsDependOnOrder`, which fix the orders they exhibit.

Behaviour of the code worth noting, which the model follows:
- The request URL is always the `generateHostedUrl` endpoint. The `endpoint` argument of `post` is ignored; `Endpoint` has a single case, so this cannot show.
- The encoded body has no fixed key order.
- A synchronize failure shows an alert and delivers no `FlowResult`.
- No account pagination and no return-URL redirect detection exist in these files.
- `Controllers/ContainerViewController.swift` and `AuthFlowViewController.swift` come from different revisions. The former builds the auth controller with a manifest and a completion. The latter takes a hosted URL and a return URL and has no completion. Each file is modelled as written.

## Model

| member | source | states |
|---|---|---|
| URLEncoder.StringFromValue | Sources/FinancialConnectionsLite/Helpers/URLEncoder.swift:52-63 | A Bool renders as "true"/"false" (checked before NSNumber); an integer renders as its decimal text; a URL as its absolute string; a string as itself; a container as the platform's description |
| URLEncoder.NumberTextReadsBack | Sources/FinancialConnectionsLite/Helpers/URLEncoder.swift:56-57 | The text of an integral number parses back to the same number, and is all digits exactly when the number is non-negative |
| URLEncoder.EncodedPairs | Sources/FinancialConnectionsLite/Helpers/URLEncoder.swift:13-17 | One `key=value` pair per enumerated key, each the escaped key and escaped value of that key's flattened entry |
| FlattenProperties.EntriesAreLastWins | Sources/FinancialConnectionsLite/Helpers/URLEncoder.swift:21-50 | Flattening is the map of the tree's (path, text) leaves in which a later leaf overwrites an earlier one with the same path |
| FlattenProperties.LastWins | Sources/FinancialConnectionsLite/Helpers/URLEncoder.swift:29-45 | The keys of the merged map are exactly the paths that occur among the leaves |
| FlattenProperties.LastWinsLastOccurrence | Sources/FinancialConnectionsLite/Helpers/URLEncoder.swift:30-38 | A leaf that no later leaf overrides keeps its value in the merged map (`merge { (_, new) in new }`) |
| FlattenProperties.LastWinsSize | Sources/FinancialConnectionsLite/Helpers/URLEncoder.swift:21-50 | Without repeated paths, the flattened map has one entry per leaf |
| FlattenProperties.FlattenKeepsEveryLeaf | Sources/FinancialConnectionsLite/Helpers/URLEncoder.swift:21-50 | When no two leaves share a path, every leaf appears with its own text and the map has exactly as many entries as there are leaves |
| FlattenProperties.LaterEntryOverwrites | Sources/FinancialConnectionsLite/Helpers/URLEncoder.swift:24-30 | An entry merged after others overrides them on each path it produces and leaves every other path unchanged |
| FlattenProperties.CollidingPathsDependOnOrder | Sources/FinancialConnectionsLite/Helpers/URLEncoder.swift:24-30 | The top-level key `a[b]` and key `b` nested under `a` collide; the one enumerated last wins, so the result depends on dictionary order |
| FlattenProperties.EmptyContainersContributeNothing | Sources/FinancialConnectionsLite/Helpers/URLEncoder.swift:27-42 | An empty dictionary or empty array adds no entry; an empty parameter dictionary flattens to the empty map |
| FlattenProperties.KeyPathInjective | Sources/FinancialConnectionsLite/Helpers/URLEncoder.swift:25 | Under one prefix, different keys give different key paths |
| FlattenProperties.IndexPathsPrefixFree | Sources/FinancialConnectionsLite/Helpers/URLEncoder.swift:34 | Paths of different array indices are never prefixes of each other (`p[1]` does not begin `p[12]`) |
| FlattenProperties.EntriesUnderPrefix | Sources/FinancialConnectionsLite/Helpers/URLEncoder.swift:25-29 | Every path produced under a non-empty prefix `p` begins with `p[` |
| FlattenProperties.EntryUnderKeyPath | Sources/FinancialConnectionsLite/Helpers/URLEncoder.swift:25-45 | Every path an entry produces begins with that entry's key path |
| FlattenProperties.ItemsUnderKeyPath | Sources/FinancialConnectionsLite/Helpers/URLEncoder.swift:33-41 | Every path an array produces begins with `keyPath[` |
| FlattenProperties.FlattenScalarEntries | Sources/FinancialConnectionsLite/Helpers/URLEncoder.swift:24-46 | A dictionary of scalars flattens to exactly one entry per key (the key at top level, `p[key]` under prefix `p`) holding the value's text, in every enumeration order |
| FlattenProperties.FlattenScalarItems | Sources/FinancialConnectionsLite/Helpers/URLEncoder.swift:31-41 | An array without dictionary elements gives exactly one entry per element, element `i` at `keyPath[i]` counted from 0, holding its text (a nested array's platform description) |
| FlattenProperties.ArrayElementsSurvive | Sources/FinancialConnectionsLite/Helpers/URLEncoder.swift:33-41 | Each array element's contribution, including a dictionary element's recursive flattening under `keyPath[i]`, survives in the array's result unchanged |
| PercentEncoding.Escape | Sources/FinancialConnectionsLite/Helpers/URLEncoder.swift:14-15 | Escaped text contains only allowed 7-bit ASCII characters, `%` and hex digits; text made only of allowed ASCII characters is left unchanged; escaping never shortens |
| PercentEncoding.EscapeNonAscii | Sources/FinancialConnectionsLite/Helpers/URLEncoder.swift:14-15 | A character outside ASCII is always escaped to its UTF-8 bytes, even when the allowed set holds it |
| PercentEncoding.EncodeBytes | Sources/FinancialConnectionsLite/Helpers/URLEncoder.swift:14-15 | Each UTF-8 byte becomes three characters, `%` and hex digits |
| PercentEncoding.DecodeEscape | Sources/FinancialConnectionsLite/Helpers/URLEncoder.swift:14-15 | When `%` is not allowed, percent-decoding the escaped text gives the UTF-8 bytes of the original |
| PercentEncoding.DecodeEncodedBytes | Sources/FinancialConnectionsLite/Helpers/URLEncoder.swift:14-15 | The escapes of a byte sequence decode back to that byte sequence |
| PercentEncoding.EscapeConcat | Sources/FinancialConnectionsLite/Helpers/URLEncoder.swift:14-15 | Escaping distributes over concatenation |
| PercentEncoding.EscapeSpace | Tests/FinancialConnectionsLiteTests/URLEncoderTests.swift:14-20 | A space that is not allowed becomes `%20` |
| QueryStringProperties.QueryStringEmptyIff | Sources/FinancialConnectionsLite/Helpers/URLEncoder.swift:11-19 | The query string is empty exactly when flattening produced no entry; an empty dictionary encodes to "" |
| QueryStringProperties.PlainPair | Sources/FinancialConnectionsLite/Helpers/URLEncoder.swift:14-16 | A key and value made of letters, digits, `@` and `.` are written as `key=value` unchanged |
| QueryStringProperties.TestParametersFlatten | Tests/FinancialConnectionsLiteTests/URLEncoderTests.swift:13-17 | The test's dictionary flattens to its three scalars under their own keys |
| QueryStringProperties.UnitTestExpectation | Tests/FinancialConnectionsLiteTests/URLEncoderTests.swift:12-21 | In sorted enumeration order the encoder produces the test's expected `age=30&email=john@example.com&name=John%20Doe` |
| QueryStringProperties.UnitTestDependsOnOrder | Sources/FinancialConnectionsLite/Helpers/URLEncoder.swift:12-13 | Another enumeration order of the same dictionary produces a different string, so the code does not guarantee the test's expectation |
| QueryStringProperties.PairBytesPermutation | Sources/FinancialConnectionsLite/Helpers/URLEncoder.swift:13-18 | Two duplicate-free listings of the same keys have the same length and the same total encoded byte count |
| QueryStringProperties.BodySizeIndependentOfOrder | Sources/FinancialConnectionsLite/Helpers/URLEncoder.swift:11-19 | The UTF-8 size of the query string is the same for every enumeration order |
| QueryDecoding.SplitJoin | Sources/FinancialConnectionsLite/Helpers/URLEncoder.swift:18 | Joining separator-free pieces with `&` and splitting again returns the pieces |
| QueryDecoding.PairReadsBack | Sources/FinancialConnectionsLite/Helpers/URLEncoder.swift:14-16 | With `&`, `=`, `+` and `%` escaped, one encoded pair reads back as the UTF-8 of its key and value and contains no `&` |
| QueryDecoding.QueryStringReadsBack | Sources/FinancialConnectionsLite/Helpers/URLEncoder.swift:11-19 | With `&`, `=`, `+` and `%` escaped, the query string parses back to exactly the flattened pairs in enumeration order |
| QueryDecoding.QueryStringInjective | Sources/FinancialConnectionsLite/Helpers/URLEncoder.swift:11-19 | With `&`, `=`, `+` and `%` escaped, two parameter trees that give the same body under one order have the same flattened values |
| QueryDecoding.SeparatorsLeftUnescapedAreAmbiguous | Sources/FinancialConnectionsLite/Helpers/URLEncoder.swift:14-18 | If the allowed set keeps `&` and `=`, the single value `x&b=y` under `a` and the two values `a=x`, `b=y` produce the same body |
| QueryDecoding.PlusLeftUnescapedReadsAsSpace | Sources/FinancialConnectionsLite/Helpers/URLEncoder.swift:14-18 | If the allowed set keeps `+`, the value `x+y` under `a` reaches a form reader as `x y` |
| QueryDecoding.FormQueryStringReadsBack | Sources/FinancialConnectionsLite/Helpers/URLEncoder.swift:11-19 | With `&`, `=`, `+` and `%` removed from any allowed set, the body parses back to the flattened pairs in enumeration order, and equal bodies mean equal values |
| ApiClient.AppendingPathComponent | Sources/FinancialConnectionsLite/FinancialConnectionsApiClient.swift:26-28 | The result is the base, then a `/` exactly when the base does not already end with one, then the component: it extends the base, ends with the component after a `/`, and is one character longer than the two together exactly when the base lacks the trailing `/`; stated for the client's one call, a base without query or fragment and a component needing no escaping |
| ApiClient.EndpointUrlText | Sources/FinancialConnectionsLite/FinancialConnectionsApiClient.swift:16-28 | The endpoint URL is `https://api.stripe.com/v1/link_account_sessions/generate_hosted_url`, with scheme `https` |
| ApiClient.ContentLengthValue | Sources/FinancialConnectionsLite/FinancialConnectionsApiClient.swift:62-65 | The header value is decimal digits that read back as the body's byte count, and "0" when there is no body |
| ApiClient.Post | Sources/FinancialConnectionsLite/FinancialConnectionsApiClient.swift:50-69 | The request goes to the `generateHostedUrl` URL by POST, carries exactly the Authorization, Content-Length and Content-Type headers, Authorization `Bearer ` and the publishable key, Content-Type `application/x-www-form-urlencoded`, and as body the UTF-8 of the query string of the parameters |
| ApiClient.AuthorizationCarriesKey | Sources/FinancialConnectionsLite/FinancialConnectionsApiClient.swift:58-61 | The Authorization header is `Bearer ` followed by the publishable key |
| ApiClient.AuthorizationInjective | Sources/FinancialConnectionsLite/FinancialConnectionsApiClient.swift:58-61 | Different publishable keys give different Authorization headers |
| ApiClient.ContentLengthIsBodySize | Sources/FinancialConnectionsLite/FinancialConnectionsApiClient.swift:55-65 | Content-Length reads back as the body's byte count, which is the UTF-8 size of the query string |
| ApiClient.ContentLengthIndependentOfOrder | Sources/FinancialConnectionsLite/FinancialConnectionsApiClient.swift:55-65 | The Content-Length header is the same for every enumeration order of the parameters |
| ApiClient.BodyCarriesParameters | Sources/FinancialConnectionsLite/FinancialConnectionsApiClient.swift:55-56 | With `&`, `=`, `+` and `%` escaped, the body is the UTF-8 of a form string that parses back to the flattened parameters |
| ApiClient.FormBodyCarriesParameters | Sources/FinancialConnectionsLite/FinancialConnectionsApiClient.swift:55-56 | Once `&`, `=`, `+` and `%` are removed from the platform's set, the body is the UTF-8 of a form string that parses back to the flattened parameters, with no condition on the set |
| ApiClient.HostedUrlParametersFlatten | Sources/FinancialConnectionsLite/FinancialConnectionsApiClient.swift:40-45 | In every enumeration order the parameters flatten to exactly `client_secret`, `app_return_url` (the absolute string), `fullscreen=true` and `hide_close_button=true` |
| ApiClient.HostedUrlRequestFields | Sources/FinancialConnectionsLite/FinancialConnectionsApiClient.swift:36-56 | With `&`, `=`, `+` and `%` escaped, the hosted-URL request body parses back to exactly those four fields |
| Json.DecodeInt | Sources/FinancialConnectionsLite/Models/Session.swift:51 | A number decodes as `Int` exactly when it fits in 64 bits; an out-of-range number is corrupted data, a non-number a type mismatch |
| Json.DecodeItems | Sources/FinancialConnectionsLite/Models/Session.swift:61-63 | An array decodes exactly when every element is non-null and decodes, and then element by element |
| Json.DecodeItemsFirstError | Sources/FinancialConnectionsLite/Models/Session.swift:61-63 | A failing array reports the error of its first failing element, value-not-found for a `null` |
| Json.DecodeIntMap | Sources/FinancialConnectionsLite/Models/Session.swift:88-92 | A `[String: Int]` decodes exactly when every value is an in-range integer, keeping the same keys and values |
| Json.Required | Sources/FinancialConnectionsLite/Models/Session.swift:11-112 | A non-optional field fails with key-not-found when its key is absent and value-not-found when it is `null` |
| Json.Optional | Sources/FinancialConnectionsLite/Models/Session.swift:45-61 | An optional field is `nil` when its key is absent or `null`; a present value of the wrong shape still fails |
| SessionModel.AccountStatusFromRaw | Sources/FinancialConnectionsLite/Models/Session.swift:114-118 | Decodes exactly "active", "inactive", "disconnected", each to the case whose raw value it is |
| SessionModel.CategoryFromRaw | Sources/FinancialConnectionsLite/Models/Session.swift:120-125 | Decodes exactly "cash", "credit", "investment", "other" |
| SessionModel.PaymentMethodTypeFromRaw | Sources/FinancialConnectionsLite/Models/Session.swift:127-130 | Decodes exactly "us_bank_account" (usBankAccount) and "link" |
| SessionModel.PermissionFromRaw | Sources/FinancialConnectionsLite/Models/Session.swift:132-138 | Decodes exactly the camelCase case names, "paymentMethod" and "accountNumbers" included |
| SessionModel.SubcategoryFromRaw | Sources/FinancialConnectionsLite/Models/Session.swift:140-147 | Decodes exactly "checking", "credit_card", "line_of_credit", "mortgage", "savings", "other" |
| SessionModel.BalanceTypeFromRaw | Sources/FinancialConnectionsLite/Models/Session.swift:149-152 | Decodes exactly "cash" and "credit" |
| SessionModel.BalanceRefreshStatusFromRaw | Sources/FinancialConnectionsLite/Models/Session.swift:154-158 | Decodes exactly "failed", "pending", "succeeded" |
| SessionModel.DecodeBalanceRefresh | Sources/FinancialConnectionsLite/Models/Session.swift:103-112 | A decoded refresh holds the `status` and `last_attempted_at` keys' values |
| SessionModel.DecodeBalance | Sources/FinancialConnectionsLite/Models/Session.swift:82-101 | A decoded balance holds `as_of`, `type` and `current` (required) and `cash`, `credit` (optional) |
| SessionModel.DecodeAccount | Sources/FinancialConnectionsLite/Models/Session.swift:40-80 | A decoded account holds each key's value under the snake_case names; only display_name, last4, balance, balance_refresh and permissions may be absent |
| SessionModel.DecodeAccountList | Sources/FinancialConnectionsLite/Models/Session.swift:29-38 | A decoded list holds `data` and `has_more` |
| SessionModel.DecodeSession | Sources/FinancialConnectionsLite/Models/Session.swift:11-27 | A decoded session holds `id`, `client_secret`, `livemode` and `accounts` |
| SessionCodec.RawEnumsRoundTrip | Sources/FinancialConnectionsLite/Models/Session.swift:114-158 | In every enum the raw value of a case decodes to that case (raw values are distinct) |
| SessionCodec.ItemsRoundTrip | Sources/FinancialConnectionsLite/Models/Session.swift:61-63 | Arrays of non-null encodings decode back element by element |
| SessionCodec.IntMapRoundTrip | Sources/FinancialConnectionsLite/Models/Session.swift:88-92 | A `[String: Int]` of in-range values decodes back from its JSON object |
| SessionCodec.BalanceRefreshRoundTrip | Sources/FinancialConnectionsLite/Models/Session.swift:103-112 | An encoded refresh decodes back |
| SessionCodec.BalanceRoundTrip | Sources/FinancialConnectionsLite/Models/Session.swift:82-101 | An encoded balance, cash and credit present or absent, decodes back |
| SessionCodec.OptionalRoundTrip | Sources/FinancialConnectionsLite/Models/Session.swift:45-61 | An optional written as a present-or-absent key decodes back |
| SessionCodec.AccountRoundTrip | Sources/FinancialConnectionsLite/Models/Session.swift:40-80 | An encoded account decodes back |
| SessionCodec.AccountListRoundTrip | Sources/FinancialConnectionsLite/Models/Session.swift:29-38 | An encoded account list decodes back |
| SessionCodec.SessionRoundTrip | Sources/FinancialConnectionsLite/Models/Session.swift:11-27 | A session whose integers fit in `Int` decodes back from its JSON |
| SessionCodec.SessionMissingKey | Sources/FinancialConnectionsLite/Models/Session.swift:11-27 | Removing any one of `id`, `client_secret`, `livemode`, `accounts` fails decoding with that key not found |
| SessionCodec.DecodeAccountAgrees | Sources/FinancialConnectionsLite/Models/Session.swift:40-80 | Account objects that agree on the eight required keys, and on the five optional keys once `null` reads as absent, decode alike, whatever other keys they hold |
| SessionCodec.AccountIgnoresUnknownKeys | Sources/FinancialConnectionsLite/Models/Session.swift:40-80 | A key the account does not declare, such as `object`, makes no difference to decoding, added with any value or removed |
| SessionCodec.AccountNullIsAbsent | Sources/FinancialConnectionsLite/Models/Session.swift:45-61 | An optional account key set to `null` decodes exactly as the key left out |
| SessionCodec.AccountWithoutBalance | Sources/FinancialConnectionsLite/Models/Session.swift:53 | An account's balance left out or `null` decodes to the same account with no balance |
| ContainerFlow.CompleteFlow | Sources/FinancialConnectionsLite/Controllers/ContainerViewController.swift:80-108 | Completion runs exactly once; a web failure is delivered at once with no fetch and no spinner; otherwise the spinner starts first, then the one fetch, then the completion, and the spinner stops last |
| ContainerFlow.CompleteFlowDelivers | Sources/FinancialConnectionsLite/Controllers/ContainerViewController.swift:81-102 | Success(s) exactly when the web flow succeeded and the fetched `s` has accounts; canceled exactly when the fetched session has none; failure(e) exactly when the web flow or the fetch failed with `e` |
| ContainerFlow.WebFailureSkipsFetch | Sources/FinancialConnectionsLite/Controllers/ContainerViewController.swift:81-84 | A web-flow failure never fetches the session and never starts the spinner |
| ContainerFlow.OnlyEmptinessMatters | Sources/FinancialConnectionsLite/Controllers/ContainerViewController.swift:92-96 | Only emptiness of `accounts.data` decides success versus cancel (`hasMore` is never read); a success carries the fetched session unmodified |
| ContainerFlow.FetchHostedUrl | Sources/FinancialConnectionsLite/Controllers/ContainerViewController.swift:56-78 | One spinner start and stop, stop last; the manifest is shown on success and no alert, an alert on failure and no web view; no completion |
| ContainerFlow.ControllerCompletesPerReport | Sources/FinancialConnectionsLite/Controllers/ContainerViewController.swift:56-129 | Over the controller's life completion runs once for every call of the web flow's completion closure that finds the weakly held container alive, duplicates included, when the web flow was shown, and never when synchronize failed |
| ContainerFlow.ReleasedContainerIgnoresReport | Sources/FinancialConnectionsLite/Controllers/ContainerViewController.swift:114-115 | A call of the completion closure after the container is released (`guard let self = self else { return }`) pops nothing and runs no `completeFlow` |
| ContainerFlow.SynchronizeFailureAlerts | Sources/FinancialConnectionsLite/Controllers/ContainerViewController.swift:71-77 | A synchronize failure shows an alert and delivers no result |
| AuthFlow.NewWindowCases | Sources/FinancialConnectionsLite/AuthFlowViewController.swift:61 | A navigation is new-window exactly when it has no target frame or its target frame is not the main frame |
| AuthFlow.CreateWebView | Sources/FinancialConnectionsLite/AuthFlowViewController.swift:53-83 | A universal-links-only open of exactly the request URL is made iff the navigation is new-window and has a URL; no child web view is ever returned |
| AuthFlow.NoOpenCases | Sources/FinancialConnectionsLite/AuthFlowViewController.swift:61-63 | No open is attempted exactly for main-frame navigations and navigations without a URL |
| AuthFlow.LaunchInSecureBrowser | Sources/FinancialConnectionsLite/AuthFlowViewController.swift:85-112 | The kept session opens the given URL with the return URL's scheme as callback scheme and an ephemeral browser; the controller's URLs are unchanged |
| AuthFlow.OnOpenCompleted | Sources/FinancialConnectionsLite/AuthFlowViewController.swift:69-79 | Nothing happens once the controller is gone; a successful open leaves it unchanged; a failed one launches a browser on the same URL |
| AuthFlow.NewWindowFallsBackToSecureBrowser | Sources/FinancialConnectionsLite/AuthFlowViewController.swift:61-112 | A new-window navigation to `u` whose universal-link open fails ends with an ephemeral secure browser on `u` whose callback scheme is the return URL's |
| AuthFlow.BankAppLaunchesNoBrowser | Sources/FinancialConnectionsLite/AuthFlowViewController.swift:71-74 | A successful universal-link open launches no secure browser |
| AuthFlow.CallbackSchemeOfReturnUrl | Sources/FinancialConnectionsLite/AuthFlowViewController.swift:88 | With return URL `scheme:rest`, the callback scheme is `scheme` |
| AuthFlow.OnBrowserCompleted | Sources/FinancialConnectionsLite/AuthFlowViewController.swift:89-107 | The browser's outcome is only logged: a cancel from the session's own domain, any other error, or the redirect URL text; the controller is unchanged |
| AuthFlow.RedirectNoticeNamesUrl | Sources/FinancialConnectionsLite/AuthFlowViewController.swift:105 | The redirect line ends with the redirect URL's absolute string, or "null" without one, and two lines agree exactly when those texts do |
| AuthFlow.ErrorIgnoresRedirect | Sources/FinancialConnectionsLite/AuthFlowViewController.swift:90-98 | When an error is present the redirect URL does not matter |
| AuthFlow.CancelNeedsDomain | Sources/FinancialConnectionsLite/AuthFlowViewController.swift:91-95 | The cancel code counts as the user's cancel only in the authentication session's error domain |
| Urls.Scheme | Sources/FinancialConnectionsLite/AuthFlowViewController.swift:88 | A scheme, when present, is a well-formed scheme name followed by `:` at the start of the URL |
| Decimal.ParseIntToDecimal | Sources/FinancialConnectionsLite/FinancialConnectionsApiClient.swift:63 | The decimal text of an integer reads back as that integer |
| Utf8.AsciiByteCount | Sources/FinancialConnectionsLite/FinancialConnectionsApiClient.swift:55 | An ASCII string's UTF-8 encoding has one byte per character, equal to its code point |

## Findings

| source | as written | input that shows it | evidently intended | confidence | as-written member | corrected member |
|---|---|---|---|---|---|---|
| Sources/FinancialConnectionsLite/Helpers/URLEncoder.swift:14-15 | keys and values are escaped with `.urlQueryAllowed`, which keeps `&` and `=` | the value `x&b=y` under `a` gives the body `a=x&b=y`, the same body as `a=x` with `b=y`; an `app_return_url` with a query such as `myapp://done?a=1&b=2` arrives as extra fields | the form body reads back as the flattened parameters | high, not executed | QueryDecoding.SeparatorsLeftUnescapedAreAmbiguous | QueryDecoding.FormQueryStringReadsBack |
| Sources/FinancialConnectionsLite/Helpers/URLEncoder.swift:14-15 | the same set keeps `+`, which a form reader takes for a space | the value `x+y` under `a` is read as `x y` | a `+` in a value arrives as `+` | high, not executed | QueryDecoding.PlusLeftUnescapedReadsAsSpace | QueryDecoding.FormQueryStringReadsBack |

The corrected encoding is `QueryDecoding.FormQueryString`: the same `queryString` with `&`, `=`, `+` and `%` taken out of the allowed set. `ApiClient.FormBodyCarriesParameters` states the request it gives. `ApiClient.Post` itself keeps the call as written, so its read-back lemmas carry the condition that the set escapes those characters.

## Left out

- UIKit presentation is not modelled: view layout, the spinner's animation, the alert's contents, navigation pushes and pops, `viewDidLoad`, the presentation anchor, `ModalPresentationWrapperViewController`, `FinancialConnectionsLite.present` and the older root `ContainerViewController.swift`. The spinner, alert, push and pop appear only as events in the controller's action sequence.
- Concurrency is not modelled: `Task`, `DispatchQueue.main.async` and main-actor hops. The controller's actions are listed in program order. A block dispatched to the main queue may in fact run after the completion that follows it.
- Network and JSON parsing are not modelled. `URLSession`, `synchronize`, `fetchSession` and `JSONDecoder`'s byte-level parsing are foreign. Their outcomes are inputs, and decoding works on an abstract JSON tree.
- Decoding errors carry only their kind, plus the key for a missing key. Coding paths and debug descriptions are dropped.
- Json.DecodeIntMap: a failing dictionary value is reported as a type mismatch. Which value Swift reports first depends on enumeration order, so the exact error is left unspecified.
- JSON numbers are integers only. The schema has no floating-point field.
- `NSNumber.stringValue` is modelled for integers only. Floating-point numbers are left out.
- The Foundation `.urlQueryAllowed` set is abstract. The properties that depend on it state the characters they need in or out of it.
- Swift's description of a nested array is the uninterpreted `describe`.
- The `?? key` fallbacks in `queryString` and the failing `.data(using: .utf8)` are absent. A Dafny string is a sequence of Unicode scalar values, so escaping and UTF-8 conversion never fail.
- Decoding of the synchronize payload and its manifest is not modelled, from either `LinkAccountSessionManifest.swift` file. Those files declare fields only. The controller model carries the manifest as a record of the four fields in `Models/LinkAccountSessionManifest.swift` and only passes it on.
- `AuthFlowViewController.WebFlowResult` is not defined in the files modelled. `completeFlow` only tells `.failure(e)` apart from everything else, so the model has one success case and one failure case.
- `UIApplication.open` and `ASWebAuthenticationSession` are not run. The model produces the arguments given to them and takes their answers as inputs. `ASWebAuthenticationSessionErrorDomain` is a flag on the error. `canceledLogin` is its raw value 1.
- The message printed after a bank app opens the link (`AuthFlowViewController.swift:74`) is not modelled: `OnOpenCompleted` returns only the controller. The cancel and error messages are log constructors, not texts, and only the redirect line is spelled out.
- Account pagination, the synchronize endpoint's parameters, return-URL redirect detection and a terminal-state orchestrator are not modelled. None of them is implemented in these files.
- The pagination methods of `API Client/FinancialConnectionsApiClient.swift` are not part of this model.
- ApiClient.AppendingPathComponent: covers Foundation's `appendingPathComponent` only for the client's single call, a base with no query or fragment and a component that needs no escaping. Foundation's percent-escaping of the component and its placement before a `?query` or `#fragment` are left out, because the client never uses them.
- Whether the weakly held container is still alive is an input to each call of the web flow's completion closure (`Report.containerAlive`). Object lifetimes are not modelled, so nothing forces a released container to stay released.

=== FILE: api_client.dfy ===
/** `FinancialConnectionsApiClient`: the one endpoint it knows, the parameters
    `generateHostedUrl` sends, and the `URLRequest` that `post` assembles
    before handing it to the network (which is not modelled). */
module ApiClient {
  import opened Wrappers
  import opened Sequences
  import Decimal
  import Utf8
  import Urls
  import opened URLEncoder
  import QueryDecoding
  import FlattenProperties
  import QueryStringProperties

  // ---------------------------------------------------------------------------
  // Endpoint

  datatype Endpoint = GenerateHostedUrl

  const BaseApiUrl: Urls.Url := Urls.Url("https://api.stripe.com/v1")

  function Path(e: Endpoint): string {
    match e
    case GenerateHostedUrl => "link_account_sessions/generate_hosted_url"
  }

  /** `URL.appendingPathComponent` for the one call the client makes: a
      base without query or fragment and a component of unreserved
      characters and `/`, where a `/` is inserted unless the base already
      ends with one. Foundation's percent-escaping of the component and its
      placement before a `?query` or `#fragment` are not modelled. */
  function AppendingPathComponent(base: Urls.Url, component: string): (r: Urls.Url)
    ensures base.absoluteString <= r.absoluteString
    ensures var n := |r.absoluteString|;
      && n >= |component|
      && r.absoluteString[n - |component|..] == component
      && (n > |component| ==> r.absoluteString[n - |component| - 1] == '/')
    ensures var s, n := base.absoluteString, |r.absoluteString|;
      && |s| + |component| <= n <= |s| + 1 + |component|
      && (n == |s| + |component| <==> |s| > 0 && s[|s| - 1] == '/')
  {
    var s := base.absoluteString;
    if |s| > 0 && s[|s| - 1] == '/' then Urls.Url(s + component)
    else Urls.Url(s + "/" + component)
  }

  function EndpointUrl(e: Endpoint): Urls.Url {
    AppendingPathComponent(BaseApiUrl, Path(e))
  }

  /** The one endpoint's URL: the base, a slash, the path; its scheme is
      `https`. */
  lemma EndpointUrlText()
    ensures EndpointUrl(GenerateHostedUrl).absoluteString
         == "https://api.stripe.com/v1" + "/" + "link_account_sessions/generate_hosted_url"
    ensures Urls.Scheme(EndpointUrl(GenerateHostedUrl)) == Some("https")
  {
    var base, path := BaseApiUrl.absoluteString, Path(GenerateHostedUrl);
    assert base[|base| - 1] == '1';
    var rest := "//api.stripe.com/v1";
    BaseSchemeSplit();
    assert base + "/" + path == "https" + ":" + (rest + "/" + path);
    Urls.SchemeOfComposed("https", rest + "/" + path);
  }

  lemma BaseSchemeSplit()
    ensures BaseApiUrl.absoluteString == "https" + ":" + "//api.stripe.com/v1"
  {
  }

  // ---------------------------------------------------------------------------
  // Request

  datatype Request = Request(
    url: Urls.Url,
    httpMethod: string,
    headers: map<string, string>,
    body: Option<seq<Utf8.Byte>>)

  const BearerPrefix: string := "Bearer "

  /** The `Authorization` value: `Bearer ` and the publishable key. */
  function AuthorizationValue(publishableKey: string): string {
    BearerPrefix + publishableKey
  }

  /** Reads the key back out of an `Authorization` value. */
  function BearerToken(header: string): Option<string> {
    if BearerPrefix <= header then Some(header[|BearerPrefix|..]) else None
  }

  /** `String(format: "%lu", UInt(formData?.count ?? 0))`. */
  function ContentLengthValue(formData: Option<seq<Utf8.Byte>>): (r: string)
    ensures Decimal.AllDigits(r)
    ensures formData.None? ==> r == "0"
    ensures Decimal.ParseInt(r) == Some(if formData.Some? then |formData.value| else 0)
  {
    var count := if formData.Some? then |formData.value| else 0;
    Decimal.ParseIntToDecimal(count);
    Decimal.NatToDecimal(count)
  }

  const FormContentType: string := "application/x-www-form-urlencoded"

  /** `post(endpoint:parameters:)` up to the network call. The URL is the
      `generateHostedUrl` endpoint's, whatever `endpoint` says (with a
      single case, the argument could not make a difference anyway); the
      body is the UTF-8 of the query string, which always converts. */
  function Post(publishableKey: string, endpoint: Endpoint, params: seq<Entry>, platform: Platform, order: seq<string>): (r: Request)
    requires Enumerates(order, Flatten(params, platform.describe).Keys)
    ensures r.url.absoluteString == "https://api.stripe.com/v1" + "/" + "link_account_sessions/generate_hosted_url"
    ensures r.httpMethod == "POST"
    ensures r.headers.Keys == {"Authorization", "Content-Length", "Content-Type"}
    ensures r.headers["Authorization"] == "Bearer " + publishableKey
    ensures r.headers["Content-Type"] == FormContentType
    ensures r.body == Some(Utf8.Encode(QueryString(params, platform, order)))
  {
    var formData := Some(Utf8.Encode(QueryString(params, platform, order)));
    EndpointUrlText();
    Request(
      EndpointUrl(GenerateHostedUrl),
      "POST",
      map[
        "Authorization" := AuthorizationValue(publishableKey),
        "Content-Length" := ContentLengthValue(formData),
        "Content-Type" := FormContentType],
      formData)
  }

  /** The bearer token in the request is the publishable key, and distinct
      keys give distinct headers. */
  lemma AuthorizationCarriesKey(publishableKey: string, params: seq<Entry>, platform: Platform, order: seq<string>)
    requires Enumerates(order, Flatten(params, platform.describe).Keys)
    ensures BearerToken(Post(publishableKey, GenerateHostedUrl, params, platform, order).headers["Authorization"]) == Some(publishableKey)
  {
    var h := AuthorizationValue(publishableKey);
    assert h[..|BearerPrefix|] == BearerPrefix;
    assert h[|BearerPrefix|..] == publishableKey;
  }

  lemma AuthorizationInjective(k1: string, k2: string)
    requires AuthorizationValue(k1) == AuthorizationValue(k2)
    ensures k1 == k2
  {
    assert k1 == AuthorizationValue(k1)[|BearerPrefix|..];
    assert k2 == AuthorizationValue(k2)[|BearerPrefix|..];
  }

  /** `Content-Length` is the decimal byte count of the body, and that count
      is the UTF-8 size of the query string. */
  lemma ContentLengthIsBodySize(publishableKey: string, params: seq<Entry>, platform: Platform, order: seq<string>)
    requires Enumerates(order, Flatten(params, platform.describe).Keys)
    ensures var r := Post(publishableKey, GenerateHostedUrl, params, platform, order);
      && Decimal.ParseInt(r.headers["Content-Length"]) == Some(|r.body.value|)
      && |r.body.value| == |Utf8.Encode(QueryString(params, platform, order))|
  {
  }

  /** Whatever order the dictionary enumerates its entries in, the
      `Content-Length` header is the same. */
  lemma ContentLengthIndependentOfOrder(publishableKey: string, params: seq<Entry>, platform: Platform, o1: seq<string>, o2: seq<string>)
    requires Enumerates(o1, Flatten(params, platform.describe).Keys)
    requires Enumerates(o2, Flatten(params, platform.describe).Keys)
    ensures Post(publishableKey, GenerateHostedUrl, params, platform, o1).headers["Content-Length"]
         == Post(publishableKey, GenerateHostedUrl, params, platform, o2).headers["Content-Length"]
  {
    QueryStringProperties.BodySizeIndependentOfOrder(params, platform, o1, o2);
  }

  /** With `&`, `=`, `+` and `%` escaped, the body is the UTF-8 of a form string
      that reads back as the flattened parameters. */
  lemma BodyCarriesParameters(publishableKey: string, params: seq<Entry>, platform: Platform, order: seq<string>)
    requires Enumerates(order, Flatten(params, platform.describe).Keys)
    requires QueryDecoding.SeparatorsEscaped(platform.urlQueryAllowed)
    ensures var r := Post(publishableKey, GenerateHostedUrl, params, platform, order);
      exists q :: r.body == Some(Utf8.Encode(q))
        && QueryDecoding.ParseQuery(q) == Some(QueryDecoding.Utf8Pairs(Flatten(params, platform.describe), order))
  {
    QueryDecoding.QueryStringReadsBack(params, platform, order);
    var q := QueryString(params, platform, order);
    assert Post(publishableKey, GenerateHostedUrl, params, platform, order).body == Some(Utf8.Encode(q));
  }

  /** With the allowed set stripped of `&`, `=`, `+` and `%`, the body reads
      back as the flattened parameters whatever set the platform started
      from. */
  lemma FormBodyCarriesParameters(publishableKey: string, params: seq<Entry>, platform: Platform, order: seq<string>)
    requires Enumerates(order, Flatten(params, platform.describe).Keys)
    ensures var p := platform.(urlQueryAllowed := QueryDecoding.FormAllowed(platform.urlQueryAllowed));
      var r := Post(publishableKey, GenerateHostedUrl, params, p, order);
      && r.body == Some(Utf8.Encode(QueryDecoding.FormQueryString(params, platform, order)))
      && QueryDecoding.ParseQuery(QueryDecoding.FormQueryString(params, platform, order))
         == Some(QueryDecoding.Utf8Pairs(Flatten(params, platform.describe), order))
  {
    QueryDecoding.FormQueryStringReadsBack(params, params, platform, order);
  }

  // ---------------------------------------------------------------------------
  // generateHostedUrl

  /** The dictionary literal of `generateHostedUrl`, in the order written. */
  function HostedUrlParameters(clientSecret: string, returnUrl: Urls.Url): seq<Entry> {
    [ Entry("client_secret", Str(clientSecret)),
      Entry("app_return_url", Str(returnUrl.absoluteString)),
      Entry("fullscreen", Boolean(true)),
      Entry("hide_close_button", Boolean(true)) ]
  }

  /** The four form fields the endpoint receives. */
  function HostedUrlFields(clientSecret: string, returnUrl: Urls.Url): map<string, string> {
    map[
      "client_secret" := clientSecret,
      "app_return_url" := returnUrl.absoluteString,
      "fullscreen" := "true",
      "hide_close_button" := "true"]
  }

  /** `es` is some enumeration of the dictionary literal's entries. */
  predicate EnumeratesEntries(es: seq<Entry>, literal: seq<Entry>) {
    && Distinct(es)
    && (forall e :: e in es ==> e in literal)
    && (forall e :: e in literal ==> e in es)
  }

  lemma HostedUrlEnumerationKeys(clientSecret: string, returnUrl: Urls.Url, es: seq<Entry>)
    requires EnumeratesEntries(es, HostedUrlParameters(clientSecret, returnUrl))
    ensures FlattenProperties.ScalarEntries(es) && FlattenProperties.DistinctKeys(es)
    ensures |es| == 4
  {
    var lit := HostedUrlParameters(clientSecret, returnUrl);
    forall i | 0 <= i < |es|
      ensures !IsContainer(es[i].value)
    {
      assert es[i] in lit;
    }
    forall i, j | 0 <= i < j < |es|
      ensures es[i].key != es[j].key
    {
      assert es[i] in lit && es[j] in lit && es[i] != es[j];
    }
    SameElementsSameLength(es, lit);
  }

  lemma LiteralEntryIsField(clientSecret: string, returnUrl: Urls.Url, e: Entry, describe: Value -> string)
    requires e in HostedUrlParameters(clientSecret, returnUrl)
    ensures var fields := HostedUrlFields(clientSecret, returnUrl);
      e.key in fields && fields[e.key] == StringFromValue(e.value, describe)
  {
  }

  lemma FieldHasLiteralEntry(clientSecret: string, returnUrl: Urls.Url, k: string)
    requires k in HostedUrlFields(clientSecret, returnUrl)
    ensures exists e :: e in HostedUrlParameters(clientSecret, returnUrl) && e.key == k
  {
    var lit := HostedUrlParameters(clientSecret, returnUrl);
    if k == "client_secret" {
      assert lit[0].key == k;
    } else if k == "app_return_url" {
      assert lit[1].key == k;
    } else if k == "fullscreen" {
      assert lit[2].key == k;
    } else {
      assert lit[3].key == k;
    }
  }

  lemma FieldFlattened(clientSecret: string, returnUrl: Urls.Url, es: seq<Entry>, describe: Value -> string, k: string)
    requires EnumeratesEntries(es, HostedUrlParameters(clientSecret, returnUrl))
    requires k in HostedUrlFields(clientSecret, returnUrl)
    ensures var m := Flatten(es, describe);
      k in m && m[k] == HostedUrlFields(clientSecret, returnUrl)[k]
  {
    HostedUrlEnumerationKeys(clientSecret, returnUrl, es);
    FlattenProperties.FlattenScalarEntries(es, "", describe);
    FieldHasLiteralEntry(clientSecret, returnUrl, k);
    var e :| e in HostedUrlParameters(clientSecret, returnUrl) && e.key == k;
    var i :| 0 <= i < |es| && es[i] == e;
    LiteralEntryIsField(clientSecret, returnUrl, e, describe);
    assert KeyPath("", es[i].key) == k;
  }

  lemma FlattenedIsField(clientSecret: string, returnUrl: Urls.Url, es: seq<Entry>, describe: Value -> string, k: string)
    requires EnumeratesEntries(es, HostedUrlParameters(clientSecret, returnUrl))
    requires k in Flatten(es, describe)
    ensures k in HostedUrlFields(clientSecret, returnUrl)
  {
    HostedUrlEnumerationKeys(clientSecret, returnUrl, es);
    FlattenProperties.FlattenScalarEntries(es, "", describe);
    var i :| 0 <= i < |es| && k == KeyPath("", es[i].key);
    LiteralEntryIsField(clientSecret, returnUrl, es[i], describe);
  }

  /** Whatever order the dictionary is enumerated in, it flattens to exactly
      the four fields, each under its own key. */
  lemma HostedUrlParametersFlatten(clientSecret: string, returnUrl: Urls.Url, es: seq<Entry>, describe: Value -> string)
    requires EnumeratesEntries(es, HostedUrlParameters(clientSecret, returnUrl))
    ensures Flatten(es, describe) == HostedUrlFields(clientSecret, returnUrl)
  {
    var fields := HostedUrlFields(clientSecret, returnUrl);
    var m := Flatten(es, describe);
    forall k | k in fields
      ensures k in m && m[k] == fields[k]
    {
      FieldFlattened(clientSecret, returnUrl, es, describe, k);
    }
    forall k | k in m
      ensures k in fields
    {
      FlattenedIsField(clientSecret, returnUrl, es, describe, k);
    }
  }

  /** `generateHostedUrl(clientSecret:returnUrl:)` up to the network call. */
  function GenerateHostedUrlRequest(
    publishableKey: string, clientSecret: string, returnUrl: Urls.Url,
    platform: Platform, es: seq<Entry>, order: seq<string>): (r: Request)
    requires EnumeratesEntries(es, HostedUrlParameters(clientSecret, returnUrl))
    requires Enumerates(order, Flatten(es, platform.describe).Keys)
  {
    Post(publishableKey, GenerateHostedUrl, es, platform, order)
  }

  /** The hosted-URL request carries exactly the four fields, whatever the
      enumeration orders, once `&`, `=`, `+` and `%` are escaped. */
  lemma HostedUrlRequestFields(
    publishableKey: string, clientSecret: string, returnUrl: Urls.Url,
    platform: Platform, es: seq<Entry>, order: seq<string>)
    requires EnumeratesEntries(es, HostedUrlParameters(clientSecret, returnUrl))
    requires Enumerates(order, Flatten(es, platform.describe).Keys)
    requires QueryDecoding.SeparatorsEscaped(platform.urlQueryAllowed)
    ensures Enumerates(order, HostedUrlFields(clientSecret, returnUrl).Keys)
    ensures var r := GenerateHostedUrlRequest(publishableKey, clientSecret, returnUrl, platform, es, order);
      exists q :: r.body == Some(Utf8.Encode(q))
        && QueryDecoding.ParseQuery(q) == Some(QueryDecoding.Utf8Pairs(HostedUrlFields(clientSecret, returnUrl), order))
  {
    HostedUrlParametersFlatten(clientSecret, returnUrl, es, platform.describe);
    BodyCarriesParameters(publishableKey, es, platform, order);
  }
}

=== FILE: auth_flow.dfy ===
/** The hosted auth flow's web-view delegate: a navigation that asks for a
    new window (a bank's authentication page, typically) is first offered
    to a bank app as a universal link, and when no app takes it, opened in
    an ephemeral secure browser whose callback scheme is the return URL's.
    The browser's outcome is only logged. `UIApplication.open` and
    `ASWebAuthenticationSession` are not run: the model produces the
    requests made to them, and takes their answers as inputs. */
module AuthFlow {
  import opened Wrappers
  import Urls

  /** What the delegate reads off a `WKNavigationAction`: the target
      frame's `isMainFrame` (`None` when there is no target frame) and the
      request's URL. */
  datatype NavigationAction = NavigationAction(targetFrameIsMain: Option<bool>, url: Option<Urls.Url>)

  /** The `UIApplication.open` call the delegate makes, if any. */
  datatype OpenRequest = NoOpen | OpenUrl(url: Urls.Url, universalLinksOnly: bool)

  /** The delegate's answer: the open it requests, and the child web view
      it hands back to WebKit (`None` is Swift's `nil`). */
  datatype CreateWebViewOutcome = CreateWebViewOutcome(open: OpenRequest, childWebView: Option<Urls.Url>)

  /** The parameters `launchInSecureBrowser` gives the authentication
      session. */
  datatype SecureBrowserLaunch = SecureBrowserLaunch(url: Urls.Url, callbackUrlScheme: Option<string>, prefersEphemeral: bool)

  /** The controller's state: the two URLs it is built with and the
      authentication session it keeps alive. */
  datatype AuthFlowController = AuthFlowController(
    hostedAuthUrl: Urls.Url,
    returnUrl: Urls.Url,
    webAuthenticationSession: Option<SecureBrowserLaunch>)

  /** `NSError` as the completion handler tests it: whether its domain is
      `ASWebAuthenticationSessionErrorDomain`, and its code. */
  datatype AuthSessionError = AuthSessionError(inAuthSessionDomain: bool, code: int)

  /** `ASWebAuthenticationSessionError.canceledLogin.rawValue`. */
  const CanceledLoginCode: int := 1

  /** The line the completion handler logs. */
  datatype BrowserLog =
    | CancelNotice
    | ErrorNotice(error: AuthSessionError)
    | RedirectNotice(text: string)

  // ---------------------------------------------------------------------------
  // The new-window decision

  /** `navigationAction.targetFrame?.isMainFrame != true`. */
  predicate IsNewWindow(a: NavigationAction) {
    a.targetFrameIsMain != Some(true)
  }

  /** A navigation is a new-window one exactly when it has no target frame
      or its target frame is not the main frame. */
  lemma NewWindowCases(a: NavigationAction)
    ensures IsNewWindow(a) <==> a.targetFrameIsMain.None? || !a.targetFrameIsMain.value
  {
  }

  /** `webView(_:createWebViewWith:for:windowFeatures:)`. */
  function CreateWebView(a: NavigationAction): (r: CreateWebViewOutcome)
    ensures r.open.OpenUrl? <==> IsNewWindow(a) && a.url.Some?
    ensures r.open.OpenUrl? ==> r.open == OpenUrl(a.url.value, true)
    ensures r.childWebView.None?
  {
    var open := if IsNewWindow(a) && a.url.Some? then OpenUrl(a.url.value, true) else NoOpen;
    CreateWebViewOutcome(open, None)
  }

  /** A main-frame navigation, or one without a URL, opens nothing; the
      converse direction is in `CreateWebView`'s contract. */
  lemma NoOpenCases(frameIsMain: Option<bool>, url: Option<Urls.Url>)
    ensures CreateWebView(NavigationAction(frameIsMain, url)).open == NoOpen
        <==> frameIsMain == Some(true) || url.None?
  {
  }

  // ---------------------------------------------------------------------------
  // The fallback to a secure browser

  /** `launchInSecureBrowser(url:)`: the session is kept by the controller;
      nothing else about it changes. */
  function LaunchInSecureBrowser(c: AuthFlowController, url: Urls.Url): (r: AuthFlowController)
    ensures r.webAuthenticationSession.Some?
    ensures r.webAuthenticationSession.value.url == url
    ensures r.webAuthenticationSession.value.callbackUrlScheme == Urls.Scheme(c.returnUrl)
    ensures r.webAuthenticationSession.value.prefersEphemeral
    ensures r.hostedAuthUrl == c.hostedAuthUrl && r.returnUrl == c.returnUrl
  {
    c.(webAuthenticationSession := Some(SecureBrowserLaunch(url, Urls.Scheme(c.returnUrl), true)))
  }

  /** The completion of the universal-link open. `controller` is the weakly
      captured `self`: `None` once the controller is gone, and then nothing
      happens. */
  function OnOpenCompleted(controller: Option<AuthFlowController>, url: Urls.Url, success: bool): (r: Option<AuthFlowController>)
    ensures r.Some? <==> controller.Some?
    ensures r.Some? && success ==> r == controller
    ensures r.Some? && !success ==> r.value.webAuthenticationSession.Some? && r.value.webAuthenticationSession.value.url == url
  {
    match controller
    case None => None
    case Some(c) => if success then Some(c) else Some(LaunchInSecureBrowser(c, url))
  }

  /** The whole path: a new-window navigation to `u` whose universal-link
      open fails ends with a secure browser on `u`, with the return URL's
      scheme as callback scheme and an ephemeral session. */
  lemma NewWindowFallsBackToSecureBrowser(c: AuthFlowController, a: NavigationAction)
    requires IsNewWindow(a) && a.url.Some?
    ensures var open := CreateWebView(a).open;
      && open.OpenUrl?
      && OnOpenCompleted(Some(c), open.url, false)
         == Some(c.(webAuthenticationSession := Some(SecureBrowserLaunch(a.url.value, Urls.Scheme(c.returnUrl), true))))
  {
  }

  /** A bank app taking the universal link launches no secure browser: the
      controller is left as it was. */
  lemma BankAppLaunchesNoBrowser(c: AuthFlowController, url: Urls.Url)
    ensures OnOpenCompleted(Some(c), url, true) == Some(c)
  {
  }

  /** With a return URL `scheme:rest`, the callback scheme is `scheme`. */
  lemma CallbackSchemeOfReturnUrl(c: AuthFlowController, url: Urls.Url, scheme: string, rest: string)
    requires Urls.IsSchemeName(scheme) && c.returnUrl == Urls.Url(scheme + ":" + rest)
    ensures LaunchInSecureBrowser(c, url).webAuthenticationSession.value.callbackUrlScheme == Some(scheme)
  {
    Urls.SchemeOfComposed(scheme, rest);
  }

  // ---------------------------------------------------------------------------
  // The secure browser's completion

  predicate IsCanceledLogin(e: AuthSessionError) {
    e.inAuthSessionDomain && e.code == CanceledLoginCode
  }

  const RedirectPrefix: string := "Received a redirect URL: "

  /** `redirectURL?.absoluteString ?? "null"`. */
  function RedirectText(redirect: Option<Urls.Url>): string {
    match redirect
    case Some(u) => u.absoluteString
    case None => "null"
  }

  /** The completion handler: an error is logged (a cancel by the user
      separately), otherwise the redirect URL is; the controller is left
      unchanged and nothing reaches the integrator. */
  function OnBrowserCompleted(c: AuthFlowController, redirect: Option<Urls.Url>, error: Option<AuthSessionError>): (r: (AuthFlowController, BrowserLog))
    ensures r.0 == c
    ensures r.1.CancelNotice? <==> error.Some? && IsCanceledLogin(error.value)
    ensures r.1.ErrorNotice? <==> error.Some? && !IsCanceledLogin(error.value)
    ensures r.1.ErrorNotice? ==> r.1.error == error.value
    ensures r.1.RedirectNotice? <==> error.None?
    ensures r.1.RedirectNotice? ==> |RedirectPrefix| <= |r.1.text| && r.1.text[..|RedirectPrefix|] == RedirectPrefix
  {
    var line := match error
      case Some(e) => if IsCanceledLogin(e) then CancelNotice else ErrorNotice(e)
      case None => RedirectNotice(RedirectPrefix + RedirectText(redirect));
    (c, line)
  }

  /** The redirect line names the redirect URL, and "null" only stands for
      a missing one: two redirect lines agree exactly when the redirect
      texts do. */
  lemma RedirectNoticeNamesUrl(c: AuthFlowController, r1: Option<Urls.Url>, r2: Option<Urls.Url>)
    ensures var l1 := OnBrowserCompleted(c, r1, None).1;
      && l1.text[|RedirectPrefix|..] == RedirectText(r1)
      && (l1 == OnBrowserCompleted(c, r2, None).1 <==> RedirectText(r1) == RedirectText(r2))
  {
    var t1, t2 := RedirectText(r1), RedirectText(r2);
    assert (RedirectPrefix + t1)[|RedirectPrefix|..] == t1;
    assert (RedirectPrefix + t2)[|RedirectPrefix|..] == t2;
  }

  /** When an error is present the redirect URL is not looked at. */
  lemma ErrorIgnoresRedirect(c: AuthFlowController, r1: Option<Urls.Url>, r2: Option<Urls.Url>, e: AuthSessionError)
    ensures OnBrowserCompleted(c, r1, Some(e)) == OnBrowserCompleted(c, r2, Some(e))
  {
  }

  /** Only a cancel from the authentication session's own domain counts as
      the user's cancel: the same code from another domain is an error. */
  lemma CancelNeedsDomain(c: AuthFlowController, redirect: Option<Urls.Url>)
    ensures OnBrowserCompleted(c, redirect, Some(AuthSessionError(true, CanceledLoginCode))).1 == CancelNotice
    ensures OnBrowserCompleted(c, redirect, Some(AuthSessionError(false, CanceledLoginCode))).1.ErrorNotice?
  {
  }
}

=== FILE: container_flow.dfy ===
/** The container controller's two decision points, as the sequence of
    things it does in program order: `fetchHostedUrl` (synchronize, then
    either push the web flow or show an error) and `completeFlow` (map the
    web flow's outcome and the fetched session to exactly one call of the
    integrator's completion). Network calls are inputs: the outcome of
    `synchronize` and of `fetchSession` is passed in. */
module ContainerFlow {
  import opened Wrappers
  import opened SessionModel
  import Urls

  /** `FinancialConnectionsLite.FlowResult`. */
  datatype FlowResult<E> = Success(session: Session) | Canceled | Failure(error: E)

  /** The web flow's outcome as `completeFlow` reads it: only `failure` is
      told apart, every other case goes on to fetch the session. */
  datatype WebFlowResult<E> = WebSuccess | WebFailure(error: E)

  /** The `LinkAccountSessionManifest` the synchronize call returns; the
      controller only hands it on to the web flow. */
  datatype Manifest = Manifest(id: string, hostedAuthUrl: Urls.Url, successUrl: Urls.Url, cancelUrl: Urls.Url)

  /** What the controller does, in program order. `E` is an error. */
  datatype Event<E> =
    | StartSpinner
    | StopSpinner
    | Synchronize(clientSecret: string, returnUrl: Urls.Url)
    | ShowWebView(manifest: Manifest)
    | ShowError(error: E)
    | PopToRoot
    | FetchSession(clientSecret: string)
    | Complete(result: FlowResult<E>)

  // ---------------------------------------------------------------------------
  // Counting events

  /** The kinds of event that are counted. */
  datatype Kind = Started | Stopped | Fetched | Completed | Other

  function KindOf<E>(e: Event<E>): Kind {
    match e
    case StartSpinner => Started
    case StopSpinner => Stopped
    case FetchSession(_) => Fetched
    case Complete(_) => Completed
    case _ => Other
  }

  function Tally<E>(e: Event<E>, k: Kind): nat {
    if KindOf(e) == k then 1 else 0
  }

  /** How many events of kind `k` the log holds. */
  function Count<E>(log: seq<Event<E>>, k: Kind): (n: nat)
    ensures n <= |log|
    ensures n == 0 <==> forall i :: 0 <= i < |log| ==> KindOf(log[i]) != k
  {
    if |log| == 0 then 0 else Tally(log[0], k) + Count(log[1..], k)
  }

  /** Counting in a four-event log, event by event. */
  lemma CountFour<E>(a: Event<E>, b: Event<E>, c: Event<E>, d: Event<E>, k: Kind)
    ensures Count([a, b, c, d], k) == Tally(a, k) + Tally(b, k) + Tally(c, k) + Tally(d, k)
  {
    assert [a, b, c, d][1..] == [b, c, d];
    assert [b, c, d][1..] == [c, d];
    assert [c, d][1..] == [d];
    assert [d][1..] == [];
    assert Count([d], k) == Tally(d, k);
    assert Count([c, d], k) == Tally(c, k) + Count([d], k);
    assert Count([b, c, d], k) == Tally(b, k) + Count([c, d], k);
  }

  lemma {:induction false} CountConcat<E>(a: seq<Event<E>>, b: seq<Event<E>>, k: Kind)
    ensures Count(a + b, k) == Count(a, k) + Count(b, k)
    decreases |a|
  {
    if |a| == 0 {
      assert a + b == b;
    } else {
      assert (a + b)[0] == a[0];
      assert (a + b)[1..] == a[1..] + b;
      CountConcat(a[1..], b, k);
    }
  }

  function Completions<E>(log: seq<Event<E>>): nat {
    Count(log, Completed)
  }

  function Fetches<E>(log: seq<Event<E>>): nat {
    Count(log, Fetched)
  }

  function SpinnerStarts<E>(log: seq<Event<E>>): nat {
    Count(log, Started)
  }

  function SpinnerStops<E>(log: seq<Event<E>>): nat {
    Count(log, Stopped)
  }

  /** The result handed to the completion, when there is exactly one. */
  function Delivered<E>(log: seq<Event<E>>): (r: Option<FlowResult<E>>)
    ensures r.Some? ==> Complete(r.value) in log
    ensures r.None? ==> forall i :: 0 <= i < |log| ==> !log[i].Complete?
  {
    if |log| == 0 then None
    else if log[0].Complete? then Some(log[0].result)
    else Delivered(log[1..])
  }

  // ---------------------------------------------------------------------------
  // completeFlow

  /** The result `completeFlow` delivers once the session has been fetched:
      no accounts means the user canceled. `hasMore` is not consulted. */
  function SessionResult<E>(fetched: Result<Session, E>): FlowResult<E> {
    match fetched
    case Ok(session) => if |session.accounts.data| == 0 then Canceled else Success(session)
    case Err(e) => Failure(e)
  }

  /** `completeFlow(result:)`: a web-flow failure is delivered at once;
      otherwise the session is fetched under the spinner and mapped. */
  function CompleteFlow<E>(clientSecret: string, web: WebFlowResult<E>, fetched: Result<Session, E>): (log: seq<Event<E>>)
    ensures Completions(log) == 1
    ensures Fetches(log) == (if web.WebFailure? then 0 else 1)
    ensures SpinnerStarts(log) == SpinnerStops(log)
    ensures web.WebFailure? ==> log == [Complete(Failure(web.error))]
    ensures web.WebSuccess? ==>
      && |log| == 4
      && log[0] == StartSpinner && log[3] == StopSpinner
      && log[1] == FetchSession(clientSecret) && log[2].Complete?
  {
    if web.WebFailure? then [Complete(Failure(web.error))]
    else
      var start, fetch, done, stop := StartSpinner, FetchSession(clientSecret), Complete(SessionResult(fetched)), StopSpinner;
      CountFour(start, fetch, done, stop, Completed);
      CountFour(start, fetch, done, stop, Fetched);
      CountFour(start, fetch, done, stop, Started);
      CountFour(start, fetch, done, stop, Stopped);
      [start, fetch, done, stop]
  }

  /** What the integrator receives, case by case, in both directions. */
  lemma CompleteFlowDelivers<E>(clientSecret: string, web: WebFlowResult<E>, fetched: Result<Session, E>)
    ensures var r := Delivered(CompleteFlow<E>(clientSecret, web, fetched));
      && r.Some?
      && (forall s :: r.value == Success(s) <==> web.WebSuccess? && fetched == Ok(s) && |s.accounts.data| > 0)
      && (r.value == Canceled <==> web.WebSuccess? && fetched.Ok? && |fetched.value.accounts.data| == 0)
      && (forall e :: r.value == Failure(e) <==> web == WebFailure(e) || (web.WebSuccess? && fetched == Err(e)))
  {
  }

  /** A web-flow failure never fetches the session and never starts the
      spinner. */
  lemma WebFailureSkipsFetch<E>(clientSecret: string, e: E, fetched: Result<Session, E>)
    ensures var log := CompleteFlow<E>(clientSecret, WebFailure(e), fetched);
      Fetches(log) == 0 && SpinnerStarts(log) == 0
  {
  }

  /** Only the emptiness of `accounts.data` decides between success and
      cancel: `hasMore` and the other fields never change the kind of
      result, and a success carries the fetched session unmodified. */
  lemma OnlyEmptinessMatters<E>(s1: Session, s2: Session)
    requires (|s1.accounts.data| == 0) == (|s2.accounts.data| == 0)
    ensures SessionResult<E>(Ok(s1)).Canceled? == SessionResult<E>(Ok(s2)).Canceled?
    ensures SessionResult<E>(Ok(s1)).Success? ==> SessionResult<E>(Ok(s1)).session == s1
  {
  }

  // ---------------------------------------------------------------------------
  // fetchHostedUrl

  /** `fetchHostedUrl()`: synchronize under the spinner; push the web flow
      for the manifest, or show an error alert. */
  function FetchHostedUrl<E>(clientSecret: string, returnUrl: Urls.Url, synchronized: Result<Manifest, E>): (log: seq<Event<E>>)
    ensures Completions(log) == 0
    ensures SpinnerStarts(log) == 1 && SpinnerStops(log) == 1
    ensures log[|log| - 1] == StopSpinner
    ensures synchronized.Ok? ==>
      ShowWebView(synchronized.value) in log && forall i :: 0 <= i < |log| ==> !log[i].ShowError?
    ensures synchronized.Err? ==>
      ShowError(synchronized.error) in log && forall i :: 0 <= i < |log| ==> !log[i].ShowWebView?
  {
    var shown := match synchronized
      case Ok(manifest) => ShowWebView(manifest)
      case Err(e) => ShowError(e);
    var start, sync, stop := StartSpinner, Synchronize(clientSecret, returnUrl), StopSpinner;
    CountFour(start, sync, shown, stop, Completed);
    CountFour(start, sync, shown, stop, Started);
    CountFour(start, sync, shown, stop, Stopped);
    [start, sync, shown, stop]
  }

  /** One call of the web flow's completion closure: whether the weakly
      held container is still alive, what the web flow reported, and the
      outcome of the `fetchSession` it leads to. */
  datatype Report<E> = Report(containerAlive: bool, web: WebFlowResult<E>, fetched: Result<Session, E>)

  /** How many of the calls find the container alive. */
  function LiveReports<E>(reports: seq<Report<E>>): (n: nat)
    ensures n <= |reports|
  {
    if |reports| == 0 then 0
    else (if reports[0].containerAlive then 1 else 0) + LiveReports(reports[1..])
  }

  /** The completion closure, called once per report: a call that finds
      the container released returns at once; any other pops to the root
      and runs `completeFlow`. Nothing guards against a second call. */
  function Reports<E>(clientSecret: string, reports: seq<Report<E>>): seq<Event<E>>
  {
    if |reports| == 0 then []
    else
      var here := if reports[0].containerAlive
        then [PopToRoot] + CompleteFlow(clientSecret, reports[0].web, reports[0].fetched)
        else [];
      here + Reports(clientSecret, reports[1..])
  }

  /** A call made after the container is released leaves no trace. */
  lemma ReleasedContainerIgnoresReport<E>(clientSecret: string, report: Report<E>, reports: seq<Report<E>>)
    requires !report.containerAlive
    ensures Reports(clientSecret, [report] + reports) == Reports(clientSecret, reports)
  {
    assert ([report] + reports)[1..] == reports;
  }

  lemma {:induction false} ReportsCompletions<E>(clientSecret: string, reports: seq<Report<E>>)
    ensures Completions(Reports(clientSecret, reports)) == LiveReports(reports)
    decreases |reports|
  {
    if |reports| > 0 {
      var rest := Reports(clientSecret, reports[1..]);
      ReportsCompletions(clientSecret, reports[1..]);
      if reports[0].containerAlive {
        var done := CompleteFlow(clientSecret, reports[0].web, reports[0].fetched);
        CountConcat([PopToRoot] + done, rest, Completed);
        CountConcat([PopToRoot], done, Completed);
        assert Count<E>([PopToRoot], Completed) == 0;
      } else {
        assert Reports(clientSecret, reports) == [] + rest == rest;
        assert LiveReports(reports) == LiveReports(reports[1..]);
      }
    }
  }

  /** The controller's whole life: `fetchHostedUrl`, then, when the web
      flow was shown, one pop to the root and `completeFlow` for every time
      the web flow calls back while the container is alive. */
  function ControllerRun<E>(
    clientSecret: string, returnUrl: Urls.Url, synchronized: Result<Manifest, E>,
    reports: seq<Report<E>>): seq<Event<E>>
  {
    FetchHostedUrl(clientSecret, returnUrl, synchronized)
    + if synchronized.Ok? then Reports(clientSecret, reports) else []
  }

  /** The completion runs once for every report the shown web flow makes
      while the container is alive, duplicates included, and never when
      synchronize failed. */
  lemma {:induction false} ControllerCompletesPerReport<E>(
    clientSecret: string, returnUrl: Urls.Url, synchronized: Result<Manifest, E>,
    reports: seq<Report<E>>)
    ensures Completions(ControllerRun(clientSecret, returnUrl, synchronized, reports))
      == (if synchronized.Ok? then LiveReports(reports) else 0)
  {
    var first := FetchHostedUrl<E>(clientSecret, returnUrl, synchronized);
    var log := ControllerRun(clientSecret, returnUrl, synchronized, reports);
    if synchronized.Ok? {
      var rest := Reports(clientSecret, reports);
      assert log == first + rest;
      CountConcat(first, rest, Completed);
      ReportsCompletions(clientSecret, reports);
    } else {
      assert log == first + [];
    }
  }

  /** A synchronize failure ends in an alert, with no result delivered. */
  lemma SynchronizeFailureAlerts<E>(
    clientSecret: string, returnUrl: Urls.Url, e: E, reports: seq<Report<E>>)
    ensures var log := ControllerRun<E>(clientSecret, returnUrl, Err(e), reports);
      ShowError(e) in log && Delivered(log).None?
  {
  }
}

=== FILE: decimal.dfy ===
/** Canonical decimal text of integers, as produced by Swift string
    interpolation of an `Int`, by `NSNumber.stringValue` for an integral
    number, and by `String(format: "%lu", _)`. The parser is the partner
    used to state that the rendering loses nothing. */
module Decimal {
  import opened Wrappers

  predicate IsDigit(c: char) {
    '0' <= c <= '9'
  }

  predicate AllDigits(s: string) {
    forall i :: 0 <= i < |s| ==> IsDigit(s[i])
  }

  function DigitChar(d: nat): (c: char)
    requires d < 10
    ensures IsDigit(c)
  {
    (('0' as int) + d) as char
  }

  function DigitValue(c: char): (d: nat)
    requires IsDigit(c)
    ensures d < 10
  {
    (c as int) - ('0' as int)
  }

  /** Decimal digits of `n`, most significant first, without leading zeros. */
  function NatToDecimal(n: nat): (s: string)
    ensures |s| >= 1
    ensures AllDigits(s)
    ensures s[0] == '0' ==> n == 0 && |s| == 1
    decreases n
  {
    if n < 10 then [DigitChar(n)] else NatToDecimal(n / 10) + [DigitChar(n % 10)]
  }

  /** Optional minus sign followed by the digits of the magnitude. */
  function IntToDecimal(i: int): string {
    if i < 0 then "-" + NatToDecimal(-i) else NatToDecimal(i)
  }

  /** The number a run of digits denotes. */
  function DigitsValue(s: string): nat
    requires AllDigits(s)
  {
    if |s| == 0 then 0 else DigitsValue(s[..|s| - 1]) * 10 + DigitValue(s[|s| - 1])
  }

  /** Reads text of the form `-?[0-9]+`; anything else is rejected. */
  function ParseInt(s: string): (r: Option<int>)
    ensures r.Some? ==> |s| >= 1
  {
    if |s| >= 2 && s[0] == '-' && AllDigits(s[1..]) then Some(0 - DigitsValue(s[1..]) as int)
    else if |s| >= 1 && AllDigits(s) then Some(DigitsValue(s))
    else None
  }

  lemma {:induction false} DigitsValueOfNatToDecimal(n: nat)
    ensures DigitsValue(NatToDecimal(n)) == n
    decreases n
  {
    if n >= 10 {
      var s := NatToDecimal(n);
      DigitsValueOfNatToDecimal(n / 10);
      assert s[..|s| - 1] == NatToDecimal(n / 10);
    }
  }

  /** Rendering an integer and parsing the text back yields the integer. */
  lemma ParseIntToDecimal(i: int)
    ensures ParseInt(IntToDecimal(i)) == Some(i)
  {
    var s := IntToDecimal(i);
    if i < 0 {
      assert s[1..] == NatToDecimal(-i);
      DigitsValueOfNatToDecimal(-i);
    } else {
      assert IsDigit(s[0]);
      DigitsValueOfNatToDecimal(i);
    }
  }

  /** Distinct naturals have distinct decimal texts. */
  lemma NatToDecimalInjective(a: nat, b: nat)
    ensures NatToDecimal(a) == NatToDecimal(b) ==> a == b
  {
    DigitsValueOfNatToDecimal(a);
    DigitsValueOfNatToDecimal(b);
  }
}

=== FILE: flatten_properties.dfy ===
/** Properties of `URLEncoder.flattenParameters`.

    The reference definition is the leaf list: every scalar reached in the
    parameter tree, with its bracket path, in visiting order and with no
    merging. Flattening is proved to be the map that list denotes when a
    later pair overwrites an earlier one with the same path. */
module FlattenProperties {
  import opened Wrappers
  import opened Sequences
  import Decimal
  import opened URLEncoder

  type Pair = (string, string)

  // ---------------------------------------------------------------------------
  // Reference definition: the leaf list and its last-wins map

  function LeavesOfEntries(es: seq<Entry>, prefix: string, describe: Value -> string): seq<Pair>
  {
    if |es| == 0 then []
    else LeavesOfEntries(es[..|es| - 1], prefix, describe) + LeavesOfEntry(es[|es| - 1], prefix, describe)
  }

  function LeavesOfEntry(e: Entry, prefix: string, describe: Value -> string): seq<Pair>
  {
    var keyPath := KeyPath(prefix, e.key);
    match e.value
    case Dict(d) => LeavesOfEntries(d, keyPath, describe)
    case Array(items) => LeavesOfItems(items, keyPath, describe)
    case _ => [(keyPath, StringFromValue(e.value, describe))]
  }

  function LeavesOfItems(items: seq<Value>, keyPath: string, describe: Value -> string): seq<Pair>
  {
    if |items| == 0 then []
    else
      var last := |items| - 1;
      LeavesOfItems(items[..last], keyPath, describe) + LeavesOfItem(items[last], IndexPath(keyPath, last), describe)
  }

  function LeavesOfItem(item: Value, itemPath: string, describe: Value -> string): seq<Pair>
  {
    match item
    case Dict(d) => LeavesOfEntries(d, itemPath, describe)
    case _ => [(itemPath, StringFromValue(item, describe))]
  }

  /** The map a list of pairs denotes when later pairs overwrite earlier
      ones: its keys are exactly the paths that occur. */
  function LastWins(pairs: seq<Pair>): (m: map<string, string>)
    ensures forall k :: k in m <==> exists i :: 0 <= i < |pairs| && pairs[i].0 == k
  {
    if |pairs| == 0 then map[]
    else
      var rest := LastWins(pairs[..|pairs| - 1]);
      assert forall i :: 0 <= i < |pairs| - 1 ==> pairs[..|pairs| - 1][i] == pairs[i];
      rest[pairs[|pairs| - 1].0 := pairs[|pairs| - 1].1]
  }

  predicate DistinctPaths(pairs: seq<Pair>) {
    forall i, j :: 0 <= i < j < |pairs| ==> pairs[i].0 != pairs[j].0
  }

  /** A pair that no later pair overrides keeps its value. */
  lemma {:induction false} LastWinsLastOccurrence(pairs: seq<Pair>, i: nat)
    requires i < |pairs|
    requires forall j :: i < j < |pairs| ==> pairs[j].0 != pairs[i].0
    ensures pairs[i].0 in LastWins(pairs) && LastWins(pairs)[pairs[i].0] == pairs[i].1
    decreases |pairs|
  {
    if i < |pairs| - 1 {
      var init := pairs[..|pairs| - 1];
      assert init[i] == pairs[i];
      assert forall j :: i < j < |init| ==> init[j] == pairs[j];
      LastWinsLastOccurrence(init, i);
    }
  }

  /** Without repeated paths the map has one entry per pair. */
  lemma {:induction false} LastWinsSize(pairs: seq<Pair>)
    requires DistinctPaths(pairs)
    ensures |LastWins(pairs)| == |pairs|
    decreases |pairs|
  {
    if |pairs| > 0 {
      var init := pairs[..|pairs| - 1];
      assert DistinctPaths(init) by {
        assert forall i :: 0 <= i < |init| ==> init[i] == pairs[i];
      }
      LastWinsSize(init);
      assert pairs[|pairs| - 1].0 !in LastWins(init) by {
        assert forall i :: 0 <= i < |init| ==> init[i] == pairs[i];
      }
    }
  }

  lemma {:induction false} LastWinsConcat(a: seq<Pair>, b: seq<Pair>)
    ensures LastWins(a + b) == LastWins(a) + LastWins(b)
    decreases |b|
  {
    if |b| == 0 {
      assert a + b == a;
    } else {
      var b' := b[..|b| - 1];
      assert (a + b)[..|a + b| - 1] == a + b';
      LastWinsConcat(a, b');
    }
  }

  /** Flattening is the last-wins map of the leaf list. */
  lemma {:induction false} EntriesAreLastWins(es: seq<Entry>, prefix: string, describe: Value -> string)
    ensures FlattenEntries(es, prefix, describe) == LastWins(LeavesOfEntries(es, prefix, describe))
    decreases es
  {
    if |es| > 0 {
      EntriesAreLastWins(es[..|es| - 1], prefix, describe);
      EntryIsLastWins(es[|es| - 1], prefix, describe);
      LastWinsConcat(LeavesOfEntries(es[..|es| - 1], prefix, describe), LeavesOfEntry(es[|es| - 1], prefix, describe));
    }
  }

  lemma {:induction false} EntryIsLastWins(e: Entry, prefix: string, describe: Value -> string)
    ensures FlattenEntry(e, prefix, describe) == LastWins(LeavesOfEntry(e, prefix, describe))
    decreases e
  {
    var keyPath := KeyPath(prefix, e.key);
    match e.value
    case Dict(d) => EntriesAreLastWins(d, keyPath, describe);
    case Array(items) => ItemsAreLastWins(items, keyPath, describe);
    case _ =>
      assert LastWins([(keyPath, StringFromValue(e.value, describe))]) == map[keyPath := StringFromValue(e.value, describe)];
  }

  lemma {:induction false} ItemsAreLastWins(items: seq<Value>, keyPath: string, describe: Value -> string)
    ensures FlattenItems(items, keyPath, describe) == LastWins(LeavesOfItems(items, keyPath, describe))
    decreases items
  {
    if |items| > 0 {
      var last := |items| - 1;
      ItemsAreLastWins(items[..last], keyPath, describe);
      ItemIsLastWins(items[last], IndexPath(keyPath, last), describe);
      LastWinsConcat(LeavesOfItems(items[..last], keyPath, describe), LeavesOfItem(items[last], IndexPath(keyPath, last), describe));
    }
  }

  lemma {:induction false} ItemIsLastWins(item: Value, itemPath: string, describe: Value -> string)
    ensures FlattenItem(item, itemPath, describe) == LastWins(LeavesOfItem(item, itemPath, describe))
    decreases item
  {
    match item
    case Dict(d) => EntriesAreLastWins(d, itemPath, describe);
    case _ =>
      assert LastWins([(itemPath, StringFromValue(item, describe))]) == map[itemPath := StringFromValue(item, describe)];
  }

  /** When no two leaves share a path nothing is overwritten: every leaf
      appears in the flattened map with its own text, and the map has
      exactly as many entries as the tree has leaves. */
  lemma FlattenKeepsEveryLeaf(params: seq<Entry>, describe: Value -> string)
    requires DistinctPaths(LeavesOfEntries(params, "", describe))
    ensures var leaves := LeavesOfEntries(params, "", describe);
      && |Flatten(params, describe)| == |leaves|
      && forall i :: 0 <= i < |leaves| ==>
           leaves[i].0 in Flatten(params, describe) && Flatten(params, describe)[leaves[i].0] == leaves[i].1
  {
    var leaves := LeavesOfEntries(params, "", describe);
    EntriesAreLastWins(params, "", describe);
    LastWinsSize(leaves);
    forall i | 0 <= i < |leaves|
      ensures leaves[i].0 in LastWins(leaves) && LastWins(leaves)[leaves[i].0] == leaves[i].1
    {
      LastWinsLastOccurrence(leaves, i);
    }
  }

  // ---------------------------------------------------------------------------
  // Merging: later entries overwrite earlier ones

  /** An entry merged after others overrides them on every path it
      produces and leaves every other path as it was. */
  lemma LaterEntryOverwrites(es: seq<Entry>, e: Entry, prefix: string, describe: Value -> string)
    ensures var before, added, after :=
        FlattenEntries(es, prefix, describe), FlattenEntry(e, prefix, describe), FlattenEntries(es + [e], prefix, describe);
      && after.Keys == before.Keys + added.Keys
      && (forall k :: k in added ==> after[k] == added[k])
      && (forall k :: k in before && k !in added ==> after[k] == before[k])
  {
    assert (es + [e])[..|es|] == es;
  }

  /** The top-level key `a[b]` and the key `b` nested under `a` both
      flatten to `a[b]`; whichever the dictionary enumerates last wins, so
      the encoded body depends on the enumeration order. */
  lemma CollidingPathsDependOnOrder(describe: Value -> string)
    ensures var flatKey, nested := Entry("a[b]", Str("x")), Entry("a", Dict([Entry("b", Str("y"))]));
      && Flatten([flatKey, nested], describe) == map["a[b]" := "y"]
      && Flatten([nested, flatKey], describe) == map["a[b]" := "x"]
  {
    var flatKey, nested := Entry("a[b]", Str("x")), Entry("a", Dict([Entry("b", Str("y"))]));
    assert KeyPath("a", "b") == "a[b]";
    assert [Entry("b", Str("y"))][..0] == [];
    assert FlattenEntry(nested, "", describe) == map["a[b]" := "y"];
    assert FlattenEntry(flatKey, "", describe) == map["a[b]" := "x"];
    assert [flatKey][..0] == [] && [nested][..0] == [];
    assert FlattenEntries([flatKey], "", describe) == map["a[b]" := "x"];
    assert FlattenEntries([nested], "", describe) == map["a[b]" := "y"];
    assert [flatKey, nested][..1] == [flatKey];
    assert [nested, flatKey][..1] == [nested];
  }

  /** Empty dictionaries and empty arrays contribute no entries, and an
      empty parameter dictionary flattens to nothing. */
  lemma EmptyContainersContributeNothing(es: seq<Entry>, key: string, prefix: string, describe: Value -> string)
    ensures FlattenEntries(es + [Entry(key, Dict([]))], prefix, describe) == FlattenEntries(es, prefix, describe)
    ensures FlattenEntries(es + [Entry(key, Array([]))], prefix, describe) == FlattenEntries(es, prefix, describe)
    ensures Flatten([], describe) == map[]
  {
    assert (es + [Entry(key, Dict([]))])[..|es|] == es;
    assert (es + [Entry(key, Array([]))])[..|es|] == es;
    assert FlattenEntry(Entry(key, Dict([])), prefix, describe) == map[];
    assert FlattenEntry(Entry(key, Array([])), prefix, describe) == map[];
  }

  // ---------------------------------------------------------------------------
  // Paths

  lemma KeyPathInjective(prefix: string, k1: string, k2: string)
    requires KeyPath(prefix, k1) == KeyPath(prefix, k2)
    ensures k1 == k2
  {
    if prefix != "" {
      var p1, p2 := KeyPath(prefix, k1), KeyPath(prefix, k2);
      assert k1 == p1[|prefix| + 1..|p1| - 1];
      assert k2 == p2[|prefix| + 1..|p2| - 1];
    }
  }

  /** Two different indices give paths neither of which is a prefix of the
      other: `p[1]` does not begin `p[12]`. */
  lemma IndexPathsPrefixFree(keyPath: string, i: nat, j: nat)
    requires i != j
    ensures !(IndexPath(keyPath, i) <= IndexPath(keyPath, j))
  {
    var di, dj := Decimal.NatToDecimal(i), Decimal.NatToDecimal(j);
    var a, b := IndexPath(keyPath, i), IndexPath(keyPath, j);
    var n := |keyPath| + 1;
    assert a == keyPath + "[" + di + "]";
    assert b == keyPath + "[" + dj + "]";
    if |di| == |dj| {
      Decimal.NatToDecimalInjective(i, j);
      var t :| 0 <= t < |di| && di[t] != dj[t];
      assert a[n + t] == di[t] && b[n + t] == dj[t];
    } else if |di| < |dj| {
      assert a[n + |di|] == ']';
      assert b[n + |di|] == dj[|di|];
    }
  }

  /** Every path an entry produces begins with the entry's own key path;
      every path produced under a non-empty prefix `p` begins with `p[`. */
  lemma {:induction false} EntriesUnderPrefix(es: seq<Entry>, prefix: string, describe: Value -> string)
    requires prefix != ""
    ensures forall k :: k in FlattenEntries(es, prefix, describe) ==> prefix + "[" <= k
    decreases es
  {
    if |es| > 0 {
      var e := es[|es| - 1];
      EntriesUnderPrefix(es[..|es| - 1], prefix, describe);
      EntryUnderKeyPath(e, prefix, describe);
      assert prefix + "[" <= KeyPath(prefix, e.key);
    }
  }

  lemma {:induction false} EntryUnderKeyPath(e: Entry, prefix: string, describe: Value -> string)
    ensures forall k :: k in FlattenEntry(e, prefix, describe) ==> KeyPath(prefix, e.key) <= k
    decreases e
  {
    var keyPath := KeyPath(prefix, e.key);
    match e.value
    case Dict(d) =>
      if keyPath != "" {
        EntriesUnderPrefix(d, keyPath, describe);
      }
    case Array(items) => ItemsUnderKeyPath(items, keyPath, describe);
    case _ =>
  }

  lemma {:induction false} ItemsUnderKeyPath(items: seq<Value>, keyPath: string, describe: Value -> string)
    ensures forall k :: k in FlattenItems(items, keyPath, describe) ==> keyPath + "[" <= k
    decreases items
  {
    if |items| > 0 {
      var last := |items| - 1;
      ItemsUnderKeyPath(items[..last], keyPath, describe);
      ItemUnderPath(items[last], IndexPath(keyPath, last), describe);
      assert keyPath + "[" <= IndexPath(keyPath, last);
    }
  }

  lemma {:induction false} ItemUnderPath(item: Value, itemPath: string, describe: Value -> string)
    requires itemPath != ""
    ensures forall k :: k in FlattenItem(item, itemPath, describe) ==> itemPath <= k
    decreases item
  {
    match item
    case Dict(d) => EntriesUnderPrefix(d, itemPath, describe);
    case _ =>
  }

  // ---------------------------------------------------------------------------
  // Flat dictionaries and arrays of scalars

  predicate DistinctKeys(es: seq<Entry>) {
    forall i, j :: 0 <= i < j < |es| ==> es[i].key != es[j].key
  }

  predicate ScalarEntries(es: seq<Entry>) {
    forall i :: 0 <= i < |es| ==> !IsContainer(es[i].value)
  }

  predicate NonDictItems(items: seq<Value>) {
    forall i :: 0 <= i < |items| ==> !items[i].Dict?
  }

  lemma {:induction false} ScalarEntryPaths(es: seq<Entry>, prefix: string, describe: Value -> string)
    requires ScalarEntries(es)
    ensures forall k :: k in FlattenEntries(es, prefix, describe) ==> exists i :: 0 <= i < |es| && k == KeyPath(prefix, es[i].key)
    decreases |es|
  {
    if |es| > 0 {
      var init, e := es[..|es| - 1], es[|es| - 1];
      assert forall i :: 0 <= i < |init| ==> init[i] == es[i];
      ScalarEntryPaths(init, prefix, describe);
      var kp := KeyPath(prefix, e.key);
      assert FlattenEntry(e, prefix, describe) == map[kp := StringFromValue(e.value, describe)];
      assert FlattenEntries(es, prefix, describe) == FlattenEntries(init, prefix, describe) + map[kp := StringFromValue(e.value, describe)];
      forall k | k in FlattenEntries(es, prefix, describe)
        ensures exists i :: 0 <= i < |es| && k == KeyPath(prefix, es[i].key)
      {
        if k != kp {
          assert k in FlattenEntries(init, prefix, describe);
          var i :| 0 <= i < |init| && k == KeyPath(prefix, init[i].key);
          assert init[i] == es[i];
        }
      }
    }
  }

  lemma {:induction false} ScalarEntryTexts(es: seq<Entry>, prefix: string, describe: Value -> string)
    requires ScalarEntries(es) && DistinctKeys(es)
    ensures var m := FlattenEntries(es, prefix, describe);
      forall i :: 0 <= i < |es| ==>
        KeyPath(prefix, es[i].key) in m && m[KeyPath(prefix, es[i].key)] == StringFromValue(es[i].value, describe)
    decreases |es|
  {
    if |es| > 0 {
      var init, e := es[..|es| - 1], es[|es| - 1];
      assert forall i :: 0 <= i < |init| ==> init[i] == es[i];
      ScalarEntryTexts(init, prefix, describe);
      var before := FlattenEntries(init, prefix, describe);
      var kp, text := KeyPath(prefix, e.key), StringFromValue(e.value, describe);
      assert FlattenEntry(e, prefix, describe) == map[kp := text];
      var m := FlattenEntries(es, prefix, describe);
      assert m == before + map[kp := text];
      forall i | 0 <= i < |es|
        ensures KeyPath(prefix, es[i].key) in m && m[KeyPath(prefix, es[i].key)] == StringFromValue(es[i].value, describe)
      {
        if i == |es| - 1 {
          assert m[kp] == text;
        } else {
          assert init[i] == es[i];
          var k := KeyPath(prefix, init[i].key);
          assert k in before && before[k] == StringFromValue(init[i].value, describe);
          if k == kp {
            KeyPathInjective(prefix, init[i].key, e.key);
          }
          assert m[k] == before[k];
        }
      }
    }
  }

  lemma {:induction false} ScalarEntryCount(es: seq<Entry>, prefix: string, describe: Value -> string)
    requires ScalarEntries(es) && DistinctKeys(es)
    ensures |FlattenEntries(es, prefix, describe)| == |es|
    decreases |es|
  {
    if |es| > 0 {
      var init, e := es[..|es| - 1], es[|es| - 1];
      assert forall i :: 0 <= i < |init| ==> init[i] == es[i];
      ScalarEntryCount(init, prefix, describe);
      var before := FlattenEntries(init, prefix, describe);
      var kp, text := KeyPath(prefix, e.key), StringFromValue(e.value, describe);
      assert FlattenEntry(e, prefix, describe) == map[kp := text];
      LastKeyFresh(es, prefix, describe);
      assert FlattenEntries(es, prefix, describe) == before + map[kp := text];
      UnionWithFreshKey(before, kp, text);
    }
  }

  /** With distinct keys, the last entry's path is not among the earlier ones. */
  lemma LastKeyFresh(es: seq<Entry>, prefix: string, describe: Value -> string)
    requires ScalarEntries(es) && DistinctKeys(es) && |es| > 0
    ensures KeyPath(prefix, es[|es| - 1].key) !in FlattenEntries(es[..|es| - 1], prefix, describe)
  {
    var init, e := es[..|es| - 1], es[|es| - 1];
    assert forall i :: 0 <= i < |init| ==> init[i] == es[i];
    ScalarEntryPaths(init, prefix, describe);
    var kp := KeyPath(prefix, e.key);
    if kp in FlattenEntries(init, prefix, describe) {
      var i :| 0 <= i < |init| && kp == KeyPath(prefix, init[i].key);
      KeyPathInjective(prefix, init[i].key, e.key);
    }
  }

  lemma UnionWithFreshKey(m: map<string, string>, k: string, v: string)
    requires k !in m
    ensures |m + map[k := v]| == |m| + 1
  {
    assert m + map[k := v] == m[k := v];
  }

  /** A dictionary of scalars (a Swift dictionary: keys distinct) flattens
      to one entry per key: the key itself at top level, `p[key]` under a
      prefix `p`, holding the value's text. This holds whatever order the
      dictionary enumerates its entries in. */
  lemma FlattenScalarEntries(es: seq<Entry>, prefix: string, describe: Value -> string)
    requires ScalarEntries(es) && DistinctKeys(es)
    ensures var m := FlattenEntries(es, prefix, describe);
      && |m| == |es|
      && (forall i :: 0 <= i < |es| ==>
            KeyPath(prefix, es[i].key) in m && m[KeyPath(prefix, es[i].key)] == StringFromValue(es[i].value, describe))
      && (forall k :: k in m ==> exists i :: 0 <= i < |es| && k == KeyPath(prefix, es[i].key))
  {
    ScalarEntryPaths(es, prefix, describe);
    ScalarEntryTexts(es, prefix, describe);
    ScalarEntryCount(es, prefix, describe);
  }

  lemma {:induction false} ScalarItemPaths(items: seq<Value>, keyPath: string, describe: Value -> string)
    requires NonDictItems(items)
    ensures forall k :: k in FlattenItems(items, keyPath, describe) ==> exists i :: 0 <= i < |items| && k == IndexPath(keyPath, i)
    decreases |items|
  {
    if |items| > 0 {
      var last := |items| - 1;
      var init := items[..last];
      assert forall i :: 0 <= i < |init| ==> init[i] == items[i];
      ScalarItemPaths(init, keyPath, describe);
      var ip := IndexPath(keyPath, last);
      assert FlattenItem(items[last], ip, describe) == map[ip := StringFromValue(items[last], describe)];
      assert FlattenItems(items, keyPath, describe) == FlattenItems(init, keyPath, describe) + map[ip := StringFromValue(items[last], describe)];
      forall k | k in FlattenItems(items, keyPath, describe)
        ensures exists i :: 0 <= i < |items| && k == IndexPath(keyPath, i)
      {
        if k != ip {
          assert k in FlattenItems(init, keyPath, describe);
          var i :| 0 <= i < |init| && k == IndexPath(keyPath, i);
        }
      }
    }
  }

  lemma {:induction false} ScalarItemTexts(items: seq<Value>, keyPath: string, describe: Value -> string)
    requires NonDictItems(items)
    ensures var m := FlattenItems(items, keyPath, describe);
      forall i :: 0 <= i < |items| ==>
        IndexPath(keyPath, i) in m && m[IndexPath(keyPath, i)] == StringFromValue(items[i], describe)
    decreases |items|
  {
    if |items| > 0 {
      var last := |items| - 1;
      var init := items[..last];
      assert forall i :: 0 <= i < |init| ==> init[i] == items[i];
      ScalarItemTexts(init, keyPath, describe);
      var before := FlattenItems(init, keyPath, describe);
      var ip, text := IndexPath(keyPath, last), StringFromValue(items[last], describe);
      assert FlattenItem(items[last], ip, describe) == map[ip := text];
      var m := FlattenItems(items, keyPath, describe);
      assert m == before + map[ip := text];
      forall i | 0 <= i < |items|
        ensures IndexPath(keyPath, i) in m && m[IndexPath(keyPath, i)] == StringFromValue(items[i], describe)
      {
        if i == last {
          assert m[ip] == text;
        } else {
          assert init[i] == items[i];
          var k := IndexPath(keyPath, i);
          assert k in before && before[k] == StringFromValue(init[i], describe);
          IndexPathsPrefixFree(keyPath, i, last);
          assert m[k] == before[k];
        }
      }
    }
  }

  lemma {:induction false} ScalarItemCount(items: seq<Value>, keyPath: string, describe: Value -> string)
    requires NonDictItems(items)
    ensures |FlattenItems(items, keyPath, describe)| == |items|
    decreases |items|
  {
    if |items| > 0 {
      var last := |items| - 1;
      var init := items[..last];
      assert forall i :: 0 <= i < |init| ==> init[i] == items[i];
      ScalarItemCount(init, keyPath, describe);
      ScalarItemPaths(init, keyPath, describe);
      var before := FlattenItems(init, keyPath, describe);
      var ip, text := IndexPath(keyPath, last), StringFromValue(items[last], describe);
      assert FlattenItem(items[last], ip, describe) == map[ip := text];
      assert ip !in before by {
        if ip in before {
          var i :| 0 <= i < |init| && ip == IndexPath(keyPath, i);
          IndexPathsPrefixFree(keyPath, i, last);
        }
      }
      assert FlattenItems(items, keyPath, describe) == before + map[ip := text];
      UnionWithFreshKey(before, ip, text);
    }
  }

  /** An array whose elements are not dictionaries, nested arrays
      included, yields exactly one entry per element: element `i` at
      `keyPath[i]`, counting from 0, holding the element's text (for a
      nested array, the platform's description of it). */
  lemma FlattenScalarItems(items: seq<Value>, keyPath: string, describe: Value -> string)
    requires NonDictItems(items)
    ensures var m := FlattenItems(items, keyPath, describe);
      && |m| == |items|
      && (forall i :: 0 <= i < |items| ==>
            IndexPath(keyPath, i) in m && m[IndexPath(keyPath, i)] == StringFromValue(items[i], describe))
      && (forall k :: k in m ==> exists i :: 0 <= i < |items| && k == IndexPath(keyPath, i))
  {
    ScalarItemPaths(items, keyPath, describe);
    ScalarItemTexts(items, keyPath, describe);
    ScalarItemCount(items, keyPath, describe);
  }

  /** Different elements of one array never produce the same path, so each
      element's contribution, a dictionary's recursive flattening under
      `keyPath[i]` included, survives the merge intact. */
  lemma {:induction false} ArrayElementsSurvive(items: seq<Value>, keyPath: string, describe: Value -> string, i: nat)
    requires i < |items|
    ensures var whole, part := FlattenItems(items, keyPath, describe), FlattenItem(items[i], IndexPath(keyPath, i), describe);
      forall k :: k in part ==> k in whole && whole[k] == part[k]
    decreases |items|
  {
    var last := |items| - 1;
    var init := items[..last];
    var part := FlattenItem(items[i], IndexPath(keyPath, i), describe);
    var tailPart := FlattenItem(items[last], IndexPath(keyPath, last), describe);
    if i < last {
      assert init[i] == items[i];
      ArrayElementsSurvive(init, keyPath, describe, i);
      ItemUnderPath(items[i], IndexPath(keyPath, i), describe);
      ItemUnderPath(items[last], IndexPath(keyPath, last), describe);
      forall k | k in part
        ensures k !in tailPart
      {
        if k in tailPart {
          PrefixesOfOneString(IndexPath(keyPath, i), IndexPath(keyPath, last), k);
          IndexPathsPrefixFree(keyPath, i, last);
          IndexPathsPrefixFree(keyPath, last, i);
        }
      }
    }
  }

  /** Two prefixes of one string are comparable. */
  lemma PrefixesOfOneString(a: string, b: string, s: string)
    requires a <= s && b <= s
    ensures a <= b || b <= a
  {
    if |a| <= |b| {
      assert a == s[..|a|] == b[..|a|];
    } else {
      assert b == s[..|b|] == a[..|b|];
    }
  }
}

=== FILE: json.dfy ===
/** The part of `JSONDecoder` and synthesized `Decodable` conformances the
    response models rely on, over an abstract JSON tree: keyed access with
    `decode` (required) and `decodeIfPresent` (optional), strings, booleans,
    64-bit integers, arrays, string-keyed dictionaries, and `String`-backed
    enums. Coding paths and debug descriptions are not modelled; an error
    is only its kind (and the key, for a missing key). */
module Json {
  import opened Wrappers

  datatype Json =
    | JNull
    | JBool(b: bool)
    | JNumber(n: int)
    | JString(s: string)
    | JArray(items: seq<Json>)
    | JObject(fields: map<string, Json>)

  /** The cases of `DecodingError`. */
  datatype DecodeError =
    | KeyNotFound(key: string)
    | ValueNotFound
    | TypeMismatch
    | DataCorrupted

  type Decoded<T> = Result<T, DecodeError>

  /** Swift's `Int` on a 64-bit platform. */
  const IntMin: int := -0x8000_0000_0000_0000
  const IntMax: int := 0x7FFF_FFFF_FFFF_FFFF

  predicate InIntRange(n: int) {
    IntMin <= n <= IntMax
  }

  function DecodeString(j: Json): (r: Decoded<string>)
    ensures r.Ok? <==> j.JString?
    ensures r.Ok? ==> j == JString(r.value)
    ensures r.Err? ==> r.error == TypeMismatch
  {
    if j.JString? then Ok(j.s) else Err(TypeMismatch)
  }

  function DecodeBool(j: Json): (r: Decoded<bool>)
    ensures r.Ok? <==> j.JBool?
    ensures r.Ok? ==> j == JBool(r.value)
    ensures r.Err? ==> r.error == TypeMismatch
  {
    if j.JBool? then Ok(j.b) else Err(TypeMismatch)
  }

  /** A number that does not fit in `Int` is corrupted data, not a type
      mismatch. */
  function DecodeInt(j: Json): (r: Decoded<int>)
    ensures r.Ok? <==> j.JNumber? && InIntRange(j.n)
    ensures r.Ok? ==> j == JNumber(r.value)
    ensures j.JNumber? && !InIntRange(j.n) ==> r == Err(DataCorrupted)
    ensures !j.JNumber? ==> r == Err(TypeMismatch)
  {
    if !j.JNumber? then Err(TypeMismatch)
    else if InIntRange(j.n) then Ok(j.n)
    else Err(DataCorrupted)
  }

  /** A `String`-backed enum: a string that is no case's raw value is
      corrupted data. */
  function DecodeRaw<T>(j: Json, fromRaw: string -> Option<T>): (r: Decoded<T>)
    ensures r.Ok? <==> j.JString? && fromRaw(j.s).Some?
    ensures r.Ok? ==> fromRaw(j.s) == Some(r.value)
    ensures j.JString? && fromRaw(j.s).None? ==> r == Err(DataCorrupted)
    ensures !j.JString? ==> r == Err(TypeMismatch)
  {
    if !j.JString? then Err(TypeMismatch)
    else match fromRaw(j.s)
      case Some(c) => Ok(c)
      case None => Err(DataCorrupted)
  }

  /** An array whose elements all decode; a `null` element is a missing
      value. The first failing element's error is reported. */
  function DecodeArray<T>(j: Json, dec: Json -> Decoded<T>): (r: Decoded<seq<T>>)
    ensures r.Ok? ==> j.JArray? && |r.value| == |j.items|
    ensures r.Ok? ==> forall i :: 0 <= i < |j.items| ==> dec(j.items[i]) == Ok(r.value[i])
    ensures !j.JArray? ==> r == Err(TypeMismatch)
  {
    if j.JArray? then DecodeItems(j.items, dec) else Err(TypeMismatch)
  }

  /** Whether an array element fails to decode: `null` is a missing value,
      anything else fails as the element decoder says. */
  predicate ItemFails<T>(j: Json, dec: Json -> Decoded<T>) {
    j == JNull || dec(j).Err?
  }

  function ItemError<T>(j: Json, dec: Json -> Decoded<T>): DecodeError
    requires ItemFails(j, dec)
  {
    if j == JNull then ValueNotFound else dec(j).error
  }

  /** Elements in order; the first that fails decides the error. */
  function DecodeItems<T>(items: seq<Json>, dec: Json -> Decoded<T>): (r: Decoded<seq<T>>)
    ensures r.Ok? ==> |r.value| == |items|
    ensures r.Ok? ==> forall i :: 0 <= i < |items| ==> dec(items[i]) == Ok(r.value[i])
    ensures r.Ok? <==> forall i :: 0 <= i < |items| ==> !ItemFails(items[i], dec)
  {
    if |items| == 0 then Ok([])
    else if items[0] == JNull then Err(ValueNotFound)
    else
      var first :- dec(items[0]);
      var rest :- DecodeItems(items[1..], dec);
      assert forall i :: 1 <= i < |items| ==> items[i] == items[1..][i - 1];
      Ok([first] + rest)
  }

  /** A failing array reports the error of its first failing element. */
  lemma {:induction false} DecodeItemsFirstError<T>(items: seq<Json>, dec: Json -> Decoded<T>)
    requires DecodeItems(items, dec).Err?
    ensures exists i ::
      && 0 <= i < |items|
      && ItemFails(items[i], dec)
      && (forall j :: 0 <= j < i ==> !ItemFails(items[j], dec))
      && DecodeItems(items, dec).error == ItemError(items[i], dec)
    decreases |items|
  {
    if ItemFails(items[0], dec) {
      assert DecodeItems(items, dec).error == ItemError(items[0], dec);
    } else {
      var rest := items[1..];
      assert DecodeItems(items, dec).error == DecodeItems(rest, dec).error;
      DecodeItemsFirstError(rest, dec);
      var i :| && 0 <= i < |rest|
               && ItemFails(rest[i], dec)
               && (forall j :: 0 <= j < i ==> !ItemFails(rest[j], dec))
               && DecodeItems(rest, dec).error == ItemError(rest[i], dec);
      assert items[i + 1] == rest[i];
      assert forall j :: 1 <= j < i + 1 ==> items[j] == rest[j - 1];
    }
  }

  /** `[String: Int]`: every value must decode. Which failing value Swift
      reports depends on the dictionary's enumeration order, so a failure is
      reported as a type mismatch. */
  function DecodeIntMap(j: Json): (r: Decoded<map<string, int>>)
    ensures r.Ok? <==> j.JObject? && forall k :: k in j.fields ==> DecodeInt(j.fields[k]).Ok?
    ensures r.Ok? ==> r.value.Keys == j.fields.Keys
    ensures r.Ok? ==> forall k :: k in r.value ==> j.fields[k] == JNumber(r.value[k])
  {
    if j.JObject? && forall k :: k in j.fields ==> DecodeInt(j.fields[k]).Ok? then
      Ok(map k | k in j.fields :: DecodeInt(j.fields[k]).value)
    else Err(TypeMismatch)
  }

  function ObjectFields(j: Json): (r: Decoded<map<string, Json>>)
    ensures r.Ok? <==> j.JObject?
    ensures r.Ok? ==> j == JObject(r.value)
  {
    if j.JObject? then Ok(j.fields) else Err(TypeMismatch)
  }

  /** `container.decode(T.self, forKey: key)`. */
  function Required<T>(fields: map<string, Json>, key: string, dec: Json -> Decoded<T>): (r: Decoded<T>)
    ensures key !in fields ==> r == Err(KeyNotFound(key))
    ensures key in fields && fields[key] == JNull ==> r == Err(ValueNotFound)
    ensures r.Ok? ==> key in fields && fields[key] != JNull && dec(fields[key]) == r
  {
    if key !in fields then Err(KeyNotFound(key))
    else if fields[key] == JNull then Err(ValueNotFound)
    else dec(fields[key])
  }

  /** `container.decodeIfPresent(T.self, forKey: key)`: an absent key and
      an explicit `null` both give `nil`; a present value of the wrong
      shape is still an error. */
  function Optional<T>(fields: map<string, Json>, key: string, dec: Json -> Decoded<T>): (r: Decoded<Option<T>>)
    ensures key !in fields || fields[key] == JNull ==> r == Ok(None)
    ensures key in fields && fields[key] != JNull ==>
      (r.Ok? <==> dec(fields[key]).Ok?) && (r.Ok? ==> r.value == Some(dec(fields[key]).value))
  {
    if key !in fields || fields[key] == JNull then Ok(None)
    else
      var v :- dec(fields[key]);
      Ok(Some(v))
  }
}

=== FILE: percent_encoding.dfy ===
/** Foundation's `addingPercentEncoding(withAllowedCharacters:)`: every
    character outside the allowed set, and every character outside ASCII,
    is replaced by `%XY` escapes of its UTF-8 bytes, with upper-case
    hexadecimal digits. The allowed set is a parameter. The decoder below
    is the partner that shows nothing is lost. */
module PercentEncoding {
  import opened Wrappers
  import Utf8

  const HexAlphabet: string := "0123456789ABCDEF"

  predicate IsHexDigit(c: char) {
    ('0' <= c <= '9') || ('A' <= c <= 'F')
  }

  function HexChar(d: nat): (c: char)
    requires d < 16
    ensures IsHexDigit(c)
  {
    HexAlphabet[d]
  }

  function HexValue(c: char): (d: nat)
    requires IsHexDigit(c)
    ensures d < 16
  {
    if c <= '9' then (c as int) - ('0' as int) else (c as int) - ('A' as int) + 10
  }

  lemma HexRoundTrip(d: nat)
    requires d < 16
    ensures HexValue(HexChar(d)) == d
  {
    assert HexAlphabet == ['0','1','2','3','4','5','6','7','8','9','A','B','C','D','E','F'];
  }

  /** The escape of one byte: `%` and its two hexadecimal digits, high first. */
  function EscapeByte(b: Utf8.Byte): (r: string)
    ensures |r| == 3 && r[0] == '%' && IsHexDigit(r[1]) && IsHexDigit(r[2])
  {
    ['%', HexChar(b / 16), HexChar(b % 16)]
  }

  /** The escapes of each byte in turn. */
  function EncodeBytes(bs: seq<Utf8.Byte>): (r: string)
    ensures |r| == 3 * |bs|
    ensures forall i :: 0 <= i < |r| ==> r[i] == '%' || IsHexDigit(r[i])
  {
    if |bs| == 0 then [] else EscapeByte(bs[0]) + EncodeBytes(bs[1..])
  }

  /** A character is written as itself when it is allowed and 7-bit ASCII:
      Foundation escapes every character outside ASCII, whatever the set
      holds. */
  predicate PassesThrough(c: char, allowed: set<char>) {
    c in allowed && Utf8.IsAscii(c)
  }

  function EscapeChar(c: char, allowed: set<char>): string {
    if PassesThrough(c, allowed) then [c] else EncodeBytes(Utf8.EncodeChar(c))
  }

  /** Output characters are allowed ASCII ones, `%`, or upper-case hex digits. */
  predicate EscapedAlphabet(r: string, allowed: set<char>) {
    forall i :: 0 <= i < |r| ==> PassesThrough(r[i], allowed) || r[i] == '%' || IsHexDigit(r[i])
  }

  /** Each character's escape, in order. */
  function EscapeChars(s: string, allowed: set<char>): string {
    if |s| == 0 then [] else EscapeChar(s[0], allowed) + EscapeChars(s[1..], allowed)
  }

  lemma {:induction false} EscapeCharsProperties(s: string, allowed: set<char>)
    ensures EscapedAlphabet(EscapeChars(s, allowed), allowed)
    ensures (forall i :: 0 <= i < |s| ==> PassesThrough(s[i], allowed)) ==> EscapeChars(s, allowed) == s
    ensures |EscapeChars(s, allowed)| >= |s|
    decreases |s|
  {
    if |s| > 0 {
      EscapeCharsProperties(s[1..], allowed);
      var head, tail := EscapeChar(s[0], allowed), EscapeChars(s[1..], allowed);
      assert EscapedAlphabet(head, allowed);
      assert EscapedAlphabet(head + tail, allowed) by {
        forall i | 0 <= i < |head + tail|
          ensures var c := (head + tail)[i]; PassesThrough(c, allowed) || c == '%' || IsHexDigit(c)
        {
          if i >= |head| {
            assert (head + tail)[i] == tail[i - |head|];
          }
        }
      }
      if forall i :: 0 <= i < |s| ==> PassesThrough(s[i], allowed) {
        assert forall i :: 0 <= i < |s[1..]| ==> PassesThrough(s[1..][i], allowed) by {
          forall i | 0 <= i < |s[1..]|
            ensures PassesThrough(s[1..][i], allowed)
          {
            assert s[1..][i] == s[i + 1];
          }
        }
        assert [s[0]] + s[1..] == s;
      }
    }
  }

  /** The escaped form of `s`. Strings are sequences of Unicode scalar values
      here, so the conversion never fails and the source's `?? key` fallback
      is never taken. */
  function Escape(s: string, allowed: set<char>): (r: string)
    ensures EscapedAlphabet(r, allowed)
    ensures (forall i :: 0 <= i < |s| ==> PassesThrough(s[i], allowed)) ==> r == s
    ensures |r| >= |s|
  {
    EscapeCharsProperties(s, allowed);
    EscapeChars(s, allowed)
  }

  /** Reads `%XY` escapes back into bytes; any other character stands for
      its own UTF-8 bytes. A `%` without two hex digits after it is an error. */
  function Decode(s: string): Option<seq<Utf8.Byte>>
  {
    if |s| == 0 then Some([])
    else if s[0] == '%' then
      if |s| >= 3 && IsHexDigit(s[1]) && IsHexDigit(s[2]) then
        var rest :- Decode(s[3..]);
        Some([HexValue(s[1]) * 16 + HexValue(s[2])] + rest)
      else None
    else
      var rest :- Decode(s[1..]);
      Some(Utf8.EncodeChar(s[0]) + rest)
  }

  /** The two digits of a byte read back as the byte. */
  lemma ByteDigits(b: Utf8.Byte)
    ensures HexValue(HexChar(b / 16)) * 16 + HexValue(HexChar(b % 16)) == b
  {
    HexRoundTrip(b / 16);
    HexRoundTrip(b % 16);
  }

  /** Decoding a string that starts with a well-formed escape. */
  lemma DecodeEscapeStep(x: char, y: char, rest: string)
    requires IsHexDigit(x) && IsHexDigit(y)
    requires Decode(rest).Some?
    ensures Decode(['%', x, y] + rest) == Some([HexValue(x) * 16 + HexValue(y)] + Decode(rest).value)
  {
    var s := ['%', x, y] + rest;
    assert s[0] == '%' && s[1] == x && s[2] == y && s[3..] == rest;
  }

  /** One `%XY` escape reads back as its byte. */
  lemma DecodeOneEscape(b: Utf8.Byte, rest: string, d: seq<Utf8.Byte>)
    requires Decode(rest) == Some(d)
    ensures Decode(EscapeByte(b) + rest) == Some([b] + d)
  {
    var hi, lo := HexChar(b / 16), HexChar(b % 16);
    assert EscapeByte(b) == ['%', hi, lo];
    DecodeEscapeStep(hi, lo, rest);
    ByteDigits(b);
  }

  lemma EncodeBytesFirst(bs: seq<Utf8.Byte>, tail: string)
    requires |bs| > 0
    ensures EncodeBytes(bs) + tail == EscapeByte(bs[0]) + (EncodeBytes(bs[1..]) + tail)
  {
  }

  /** One more escaped byte in front of a decodable string. */
  lemma DecodeEncodedBytesStep(bs: seq<Utf8.Byte>, tail: string, d: seq<Utf8.Byte>)
    requires |bs| > 0
    requires Decode(EncodeBytes(bs[1..]) + tail) == Some(bs[1..] + d)
    ensures Decode(EncodeBytes(bs) + tail) == Some(bs + d)
  {
    var rest := EncodeBytes(bs[1..]) + tail;
    EncodeBytesFirst(bs, tail);
    DecodeOneEscape(bs[0], rest, bs[1..] + d);
    assert [bs[0]] + (bs[1..] + d) == bs + d;
  }

  lemma {:induction false} DecodeEncodedBytes(bs: seq<Utf8.Byte>, tail: string, d: seq<Utf8.Byte>)
    requires Decode(tail) == Some(d)
    ensures Decode(EncodeBytes(bs) + tail) == Some(bs + d)
    decreases |bs|
  {
    if |bs| == 0 {
      assert EncodeBytes(bs) + tail == tail;
      assert bs + d == d;
    } else {
      DecodeEncodedBytes(bs[1..], tail, d);
      DecodeEncodedBytesStep(bs, tail, d);
    }
  }

  /** Decoding an escaped string yields the UTF-8 bytes of the original,
      provided `%` itself is escaped. */
  lemma DecodeEscape(s: string, allowed: set<char>)
    requires '%' !in allowed
    ensures Decode(Escape(s, allowed)) == Some(Utf8.Encode(s))
  {
    DecodeEscapeChars(s, allowed);
  }

  lemma {:induction false} DecodeEscapeChars(s: string, allowed: set<char>)
    requires '%' !in allowed
    ensures Decode(EscapeChars(s, allowed)) == Some(Utf8.Encode(s))
    decreases |s|
  {
    if |s| > 0 {
      DecodeEscapeChars(s[1..], allowed);
      var tail := EscapeChars(s[1..], allowed);
      if PassesThrough(s[0], allowed) {
        assert ([s[0]] + tail)[1..] == tail;
      } else {
        DecodeEncodedBytes(Utf8.EncodeChar(s[0]), tail, Utf8.Encode(s[1..]));
      }
    }
  }

  /** Escaping distributes over concatenation. */
  lemma EscapeConcat(s: string, t: string, allowed: set<char>)
    ensures Escape(s + t, allowed) == Escape(s, allowed) + Escape(t, allowed)
  {
    EscapeCharsConcat(s, t, allowed);
  }

  lemma {:induction false} EscapeCharsConcat(s: string, t: string, allowed: set<char>)
    ensures EscapeChars(s + t, allowed) == EscapeChars(s, allowed) + EscapeChars(t, allowed)
    decreases |s|
  {
    if |s| > 0 {
      var st := s + t;
      assert st[0] == s[0] && st[1..] == s[1..] + t;
      var head, a, b := EscapeChar(s[0], allowed), EscapeChars(s[1..], allowed), EscapeChars(t, allowed);
      EscapeCharsConcat(s[1..], t, allowed);
      assert head + (a + b) == (head + a) + b;
    } else {
      assert s + t == t;
    }
  }

  /** A character outside ASCII is escaped to its UTF-8 bytes even when the
      allowed set holds it: `é` becomes `%C3%A9`. */
  lemma EscapeNonAscii(c: char, allowed: set<char>)
    requires !Utf8.IsAscii(c)
    ensures Escape([c], allowed) == EncodeBytes(Utf8.EncodeChar(c))
    ensures |Escape([c], allowed)| >= 6
  {
    assert [c][1..] == [];
    assert EscapeChars([c], allowed) == EscapeChar(c, allowed) + EscapeChars([], allowed);
  }

  /** A disallowed space becomes `%20`, the fact the encoder's unit test relies on. */
  lemma EscapeSpace(allowed: set<char>)
    requires ' ' !in allowed
    ensures Escape(" ", allowed) == "%20"
  {
    assert Utf8.EncodeChar(' ') == [32];
    assert EncodeBytes([32]) == ['%', HexChar(2), HexChar(0)];
    assert " "[1..] == [];
    assert EscapeChars(" ", allowed) == EscapeChar(' ', allowed) + EscapeChars([], allowed);
  }
}

=== FILE: query_decoding.dfy ===
/** An `application/x-www-form-urlencoded` reader, as the server reads the
    body `URLEncoder.queryString(from:)` writes: split at `&`, split each
    pair at its first `=`, read `+` as a space and undo the percent escapes.
    It is the partner against which the encoder is checked: the body reads
    back as the flattened pairs when the allowed set escapes `&`, `=`, `+`
    and `%`, and two different dictionaries can produce the same body when
    it lets `&` and `=` through. */
module QueryDecoding {
  import opened Wrappers
  import opened Sequences
  import Utf8
  import PercentEncoding
  import opened URLEncoder

  type Bytes = seq<Utf8.Byte>

  /** The pieces of `s` between occurrences of `sep`. */
  function Split(s: string, sep: char): (r: seq<string>)
    ensures |r| >= 1
    ensures forall i :: 0 <= i < |r| ==> sep !in r[i]
    decreases |s|
  {
    match FirstIndexOf(s, sep)
    case None => [s]
    case Some(i) => [s[..i]] + Split(s[i + 1..], sep)
  }

  /** A form field's text with every `+` read as a space. */
  function PlusAsSpace(s: string): (r: string)
    ensures |r| == |s|
    ensures forall i :: 0 <= i < |s| ==> r[i] == (if s[i] == '+' then ' ' else s[i])
  {
    seq(|s|, i requires 0 <= i < |s| => if s[i] == '+' then ' ' else s[i])
  }

  /** Text without `+` is read as written. */
  lemma PlusAsSpaceWithoutPlus(s: string)
    requires '+' !in s
    ensures PlusAsSpace(s) == s
  {
    assert forall i :: 0 <= i < |s| ==> s[i] != '+';
  }

  /** One form field: `+` is a space, then the percent escapes are undone. */
  function FormDecode(s: string): Option<Bytes> {
    PercentEncoding.Decode(PlusAsSpace(s))
  }

  /** One `key=value` piece, both halves unescaped to UTF-8 bytes. */
  function ParsePair(piece: string): Option<(Bytes, Bytes)> {
    var i :- FirstIndexOf(piece, '=');
    var key :- FormDecode(piece[..i]);
    var value :- FormDecode(piece[i + 1..]);
    Some((key, value))
  }

  function ParsePairs(pieces: seq<string>): Option<seq<(Bytes, Bytes)>> {
    if |pieces| == 0 then Some([])
    else
      var first :- ParsePair(pieces[0]);
      var rest :- ParsePairs(pieces[1..]);
      Some([first] + rest)
  }

  /** The empty body holds no pairs. */
  function ParseQuery(q: string): Option<seq<(Bytes, Bytes)>> {
    if q == "" then Some([]) else ParsePairs(Split(q, '&'))
  }

  /** What the body should carry: each flattened key and its value, as
      UTF-8, in the order the dictionary is enumerated. */
  function Utf8Pairs(flat: map<string, string>, order: seq<string>): (r: seq<(Bytes, Bytes)>)
    requires forall k :: k in order ==> k in flat
    ensures |r| == |order|
  {
    if |order| == 0 then []
    else [(Utf8.Encode(order[0]), Utf8.Encode(flat[order[0]]))] + Utf8Pairs(flat, order[1..])
  }

  // ---------------------------------------------------------------------------
  // Splitting undoes joining

  lemma FirstIndexAfterPrefix(a: string, x: char, b: string)
    requires x !in a
    ensures FirstIndexOf(a + [x] + b, x) == Some(|a|)
  {
    var s := a + [x] + b;
    assert s[|a|] == x;
    assert forall j :: 0 <= j < |a| ==> s[j] == a[j];
  }

  lemma SplitAtFirst(a: string, sep: char, rest: string)
    requires sep !in a
    ensures Split(a + [sep] + rest, sep) == [a] + Split(rest, sep)
  {
    var s := a + [sep] + rest;
    FirstIndexAfterPrefix(a, sep, rest);
    assert s[..|a|] == a;
    assert s[|a| + 1..] == rest;
  }

  /** Joining pieces free of `sep` with `sep` and splitting again gives the
      pieces back. */
  lemma {:induction false} SplitJoin(parts: seq<string>, sep: char)
    requires |parts| >= 1
    requires forall i :: 0 <= i < |parts| ==> sep !in parts[i]
    ensures Split(Join(parts, [sep]), sep) == parts
    decreases |parts|
  {
    if |parts| == 1 {
      assert FirstIndexOf(parts[0], sep) == None;
    } else {
      var rest := Join(parts[1..], [sep]);
      SplitJoin(parts[1..], sep);
      SplitAtFirst(parts[0], sep, rest);
      assert parts == [parts[0]] + parts[1..];
    }
  }

  // ---------------------------------------------------------------------------
  // Round trip

  /** A character that is not allowed and is neither `%` nor a hex digit
      never appears in escaped text. */
  lemma EscapeAvoids(s: string, allowed: set<char>, c: char)
    requires c !in allowed && c != '%' && !PercentEncoding.IsHexDigit(c)
    ensures c !in PercentEncoding.Escape(s, allowed)
  {
    var r := PercentEncoding.Escape(s, allowed);
    assert PercentEncoding.EscapedAlphabet(r, allowed);
  }

  /** The characters a form reader gives a meaning of its own. */
  predicate SeparatorsEscaped(allowed: set<char>) {
    '&' !in allowed && '=' !in allowed && '+' !in allowed && '%' !in allowed
  }

  /** One encoded pair reads back as its key and value, and contains no `&`. */
  lemma PairReadsBack(key: string, value: string, allowed: set<char>)
    requires SeparatorsEscaped(allowed)
    ensures ParsePair(EncodePair(key, value, allowed)) == Some((Utf8.Encode(key), Utf8.Encode(value)))
    ensures '&' !in EncodePair(key, value, allowed)
  {
    var k, v := PercentEncoding.Escape(key, allowed), PercentEncoding.Escape(value, allowed);
    EscapeAvoids(key, allowed, '=');
    EscapeAvoids(key, allowed, '&');
    EscapeAvoids(value, allowed, '&');
    EscapeAvoids(key, allowed, '+');
    EscapeAvoids(value, allowed, '+');
    FirstIndexAfterPrefix(k, '=', v);
    var piece := k + ['='] + v;
    assert EncodePair(key, value, allowed) == piece;
    assert piece[..|k|] == k;
    assert piece[|k| + 1..] == v;
    PlusAsSpaceWithoutPlus(k);
    PlusAsSpaceWithoutPlus(v);
    PercentEncoding.DecodeEscape(key, allowed);
    PercentEncoding.DecodeEscape(value, allowed);
  }

  lemma {:induction false} PairsReadBack(flat: map<string, string>, order: seq<string>, allowed: set<char>)
    requires SeparatorsEscaped(allowed)
    requires forall k :: k in order ==> k in flat
    ensures ParsePairs(EncodedPairs(flat, order, allowed)) == Some(Utf8Pairs(flat, order))
    ensures forall i :: 0 <= i < |order| ==> '&' !in EncodedPairs(flat, order, allowed)[i]
    decreases |order|
  {
    var parts := EncodedPairs(flat, order, allowed);
    forall i | 0 <= i < |order|
      ensures '&' !in parts[i]
    {
      PairReadsBack(order[i], flat[order[i]], allowed);
    }
    if |order| > 0 {
      PairReadsBack(order[0], flat[order[0]], allowed);
      PairsReadBack(flat, order[1..], allowed);
      assert parts[1..] == EncodedPairs(flat, order[1..], allowed);
    }
  }

  /** When `&`, `=`, `+` and `%` are escaped, the body reads back as exactly the
      flattened pairs, in enumeration order. */
  lemma QueryStringReadsBack(params: seq<Entry>, platform: Platform, order: seq<string>)
    requires Enumerates(order, Flatten(params, platform.describe).Keys)
    requires SeparatorsEscaped(platform.urlQueryAllowed)
    ensures ParseQuery(QueryString(params, platform, order))
         == Some(Utf8Pairs(Flatten(params, platform.describe), order))
  {
    var flat := Flatten(params, platform.describe);
    var allowed := platform.urlQueryAllowed;
    var parts := EncodedPairs(flat, order, allowed);
    PairsReadBack(flat, order, allowed);
    if |order| > 0 {
      var q := Join(parts, "&");
      assert "&" == ['&'];
      SplitJoin(parts, '&');
      assert parts[0] <= q;
      assert '=' in parts[0] by {
        assert parts[0] == PercentEncoding.Escape(order[0], allowed) + "=" + PercentEncoding.Escape(flat[order[0]], allowed);
      }
      assert q != "";
    }
  }

  /** Two flattened dictionaries with the same enumeration yield the same
      body only if they agree, once `&`, `=`, `+` and `%` are escaped. */
  lemma QueryStringInjective(p1: seq<Entry>, p2: seq<Entry>, platform: Platform, order: seq<string>)
    requires Enumerates(order, Flatten(p1, platform.describe).Keys)
    requires Enumerates(order, Flatten(p2, platform.describe).Keys)
    requires SeparatorsEscaped(platform.urlQueryAllowed)
    requires QueryString(p1, platform, order) == QueryString(p2, platform, order)
    ensures forall i :: 0 <= i < |order| ==>
      Utf8.Encode(Flatten(p1, platform.describe)[order[i]]) == Utf8.Encode(Flatten(p2, platform.describe)[order[i]])
  {
    var f1, f2 := Flatten(p1, platform.describe), Flatten(p2, platform.describe);
    QueryStringReadsBack(p1, platform, order);
    QueryStringReadsBack(p2, platform, order);
    var u1, u2 := Utf8Pairs(f1, order), Utf8Pairs(f2, order);
    assert u1 == u2;
    forall i | 0 <= i < |order|
      ensures Utf8.Encode(f1[order[i]]) == Utf8.Encode(f2[order[i]])
    {
      Utf8PairAt(f1, order, i);
      Utf8PairAt(f2, order, i);
    }
  }

  lemma {:induction false} Utf8PairAt(flat: map<string, string>, order: seq<string>, i: nat)
    requires forall k :: k in order ==> k in flat
    requires i < |order|
    ensures Utf8Pairs(flat, order)[i] == (Utf8.Encode(order[i]), Utf8.Encode(flat[order[i]]))
    decreases i
  {
    if i > 0 {
      Utf8PairAt(flat, order[1..], i - 1);
    }
  }

  // ---------------------------------------------------------------------------
  // Without escaping the separators

  function OneValue(): seq<Entry> {
    [Entry("a", Str("x&b=y"))]
  }

  function TwoValues(): seq<Entry> {
    [Entry("a", Str("x")), Entry("b", Str("y"))]
  }

  lemma AmbiguousFlattenings(describe: Value -> string)
    ensures Flatten(OneValue(), describe) == map["a" := "x&b=y"]
    ensures Flatten(TwoValues(), describe) == map["a" := "x", "b" := "y"]
  {
    var one, two := OneValue(), TwoValues();
    assert one[..0] == [];
    assert FlattenEntry(one[0], "", describe) == map["a" := "x&b=y"];
    assert two[..1] == [two[0]];
    assert two[..1][..0] == [];
    assert FlattenEntry(two[0], "", describe) == map["a" := "x"];
    assert FlattenEntry(two[1], "", describe) == map["b" := "y"];
    assert FlattenEntries(two[..1], "", describe) == map["a" := "x"];
  }

  lemma AmbiguousTexts(allowed: set<char>)
    requires forall c :: c in "abxy&=" ==> c in allowed
    ensures EncodePair("a", "x&b=y", allowed) == "a" + "=" + "x&b=y"
    ensures EncodePair("a", "x", allowed) == "a" + "=" + "x"
    ensures EncodePair("b", "y", allowed) == "b" + "=" + "y"
  {
    assert forall i :: 0 <= i < |"x&b=y"| ==> "x&b=y"[i] in allowed;
  }

  lemma AmbiguousLiterals()
    ensures "a" + "=" + "x&b=y" == "a=x&b=y"
    ensures ("a" + "=" + "x") + "&" + ("b" + "=" + "y") == "a=x&b=y"
  {
  }

  lemma OneValueText(platform: Platform)
    requires forall c :: c in "abxy&=" ==> c in platform.urlQueryAllowed
    ensures Enumerates(["a"], Flatten(OneValue(), platform.describe).Keys)
    ensures QueryString(OneValue(), platform, ["a"]) == "a=x&b=y"
  {
    AmbiguousFlattenings(platform.describe);
    AmbiguousTexts(platform.urlQueryAllowed);
    AmbiguousLiterals();
    var flat := map["a" := "x&b=y"];
    assert Enumerates(["a"], flat.Keys);
    var pairs := EncodedPairs(flat, ["a"], platform.urlQueryAllowed);
    assert pairs == [pairs[0]];
  }

  lemma JoinTwo(parts: seq<string>, sep: string)
    requires |parts| == 2
    ensures Join(parts, sep) == parts[0] + sep + parts[1]
  {
    assert parts[1..][1..] == [];
  }

  lemma TwoValuesEnumerate(describe: Value -> string)
    ensures Flatten(TwoValues(), describe) == map["a" := "x", "b" := "y"]
    ensures Enumerates(["a", "b"], Flatten(TwoValues(), describe).Keys)
  {
    AmbiguousFlattenings(describe);
    assert map["a" := "x", "b" := "y"].Keys == {"a", "b"};
  }

  lemma TwoValuesText(platform: Platform)
    requires forall c :: c in "abxy&=" ==> c in platform.urlQueryAllowed
    ensures Enumerates(["a", "b"], Flatten(TwoValues(), platform.describe).Keys)
    ensures QueryString(TwoValues(), platform, ["a", "b"]) == "a=x&b=y"
  {
    TwoValuesEnumerate(platform.describe);
    AmbiguousTexts(platform.urlQueryAllowed);
    var flat := Flatten(TwoValues(), platform.describe);
    var pairs := EncodedPairs(flat, ["a", "b"], platform.urlQueryAllowed);
    assert pairs[0] == "a" + "=" + "x" && pairs[1] == "b" + "=" + "y";
    JoinTwo(pairs, "&");
    AmbiguousLiterals();
  }

  /** If the allowed set lets `&` and `=` through, the single value
      `x&b=y` under `a` and the two values `x` under `a` and `y` under `b`
      produce the same body. */
  lemma SeparatorsLeftUnescapedAreAmbiguous(platform: Platform)
    requires forall c :: c in "abxy&=" ==> c in platform.urlQueryAllowed
    ensures Enumerates(["a"], Flatten(OneValue(), platform.describe).Keys)
    ensures Enumerates(["a", "b"], Flatten(TwoValues(), platform.describe).Keys)
    ensures OneValue() != TwoValues()
    ensures QueryString(OneValue(), platform, ["a"]) == QueryString(TwoValues(), platform, ["a", "b"])
  {
    OneValueText(platform);
    TwoValuesText(platform);
  }
  // ---------------------------------------------------------------------------
  // A `+` left unescaped

  function PlusValue(): seq<Entry> {
    [Entry("a", Str("x+y"))]
  }

  lemma PlusValueText(platform: Platform)
    requires forall c :: c in "axy+" ==> c in platform.urlQueryAllowed
    ensures Enumerates(["a"], Flatten(PlusValue(), platform.describe).Keys)
    ensures QueryString(PlusValue(), platform, ["a"]) == "a=x+y"
  {
    var one := PlusValue();
    assert one[..0] == [];
    assert FlattenEntry(one[0], "", platform.describe) == map["a" := "x+y"];
    var flat := map["a" := "x+y"];
    assert Flatten(one, platform.describe) == flat;
    assert Enumerates(["a"], flat.Keys);
    assert forall i :: 0 <= i < |"x+y"| ==> "x+y"[i] in platform.urlQueryAllowed;
    assert EncodePair("a", "x+y", platform.urlQueryAllowed) == "a" + "=" + "x+y";
    var pairs := EncodedPairs(flat, ["a"], platform.urlQueryAllowed);
    assert pairs == [pairs[0]];
  }

  lemma PlusFieldsDecode()
    ensures FormDecode("a") == Some(Utf8.Encode("a"))
    ensures FormDecode("x+y") == Some(Utf8.Encode("x y"))
  {
    assert PlusAsSpace("a") == "a";
    assert PlusAsSpace("x+y") == "x y";
    assert "a"[1..] == [] && "x y"[1..] == " y" && " y"[1..] == "y" && "y"[1..] == [];
    assert PercentEncoding.Decode("a") == Some(Utf8.Encode("a"));
    assert PercentEncoding.Decode("x y") == Some(Utf8.Encode("x y"));
  }

  lemma PlusPairParses()
    ensures ParsePair("a=x+y") == Some((Utf8.Encode("a"), Utf8.Encode("x y")))
  {
    var q := "a=x+y";
    assert FirstIndexOf(q, '=') == Some(1);
    assert q[..1] == "a" && q[2..] == "x+y";
    PlusFieldsDecode();
  }

  lemma PlusBodyParses()
    ensures ParseQuery("a=x+y") == Some([(Utf8.Encode("a"), Utf8.Encode("x y"))])
  {
    var q := "a=x+y";
    assert FirstIndexOf(q, '&') == None;
    assert Split(q, '&') == [q];
    PlusPairParses();
    var pieces := [q];
    assert pieces[0] == q && pieces[1..] == [];
    assert ParsePairs(pieces[1..]) == Some([]);
    assert [(Utf8.Encode("a"), Utf8.Encode("x y"))] + [] == [(Utf8.Encode("a"), Utf8.Encode("x y"))];
    assert ParsePairs(pieces) == Some([(Utf8.Encode("a"), Utf8.Encode("x y"))]);
  }

  /** If the allowed set lets `+` through, as Foundation's
      `.urlQueryAllowed` does, a `+` in a value reaches a form reader as a
      space: `x+y` is read as `x y`. */
  lemma PlusLeftUnescapedReadsAsSpace(platform: Platform)
    requires forall c :: c in "axy+" ==> c in platform.urlQueryAllowed
    ensures Enumerates(["a"], Flatten(PlusValue(), platform.describe).Keys)
    ensures ParseQuery(QueryString(PlusValue(), platform, ["a"])) == Some([(Utf8.Encode("a"), Utf8.Encode("x y"))])
    ensures Utf8.Encode("x y") != Utf8.Encode("x+y")
  {
    PlusValueText(platform);
    PlusBodyParses();
    assert Utf8.Encode("x y")[1] == 32;
    assert Utf8.Encode("x+y")[1] == 43;
  }

  // ---------------------------------------------------------------------------
  // The separators escaped

  /** The allowed set without the characters a form reader gives a meaning
      of its own. */
  function FormAllowed(allowed: set<char>): (r: set<char>)
    ensures SeparatorsEscaped(r)
    ensures forall c :: c in r <==> c in allowed && c !in "&=+%"
  {
    allowed - {'&', '=', '+', '%'}
  }

  /** `queryString` written with `FormAllowed` in place of the platform's
      set. */
  function FormQueryString(params: seq<Entry>, platform: Platform, order: seq<string>): string
    requires Enumerates(order, Flatten(params, platform.describe).Keys)
  {
    QueryString(params, platform.(urlQueryAllowed := FormAllowed(platform.urlQueryAllowed)), order)
  }

  /** With the separators taken out of whatever set the platform has, every
      dictionary's body reads back as its flattened pairs, and two
      dictionaries with the same body agree on every value. */
  lemma FormQueryStringReadsBack(params: seq<Entry>, other: seq<Entry>, platform: Platform, order: seq<string>)
    requires Enumerates(order, Flatten(params, platform.describe).Keys)
    requires Enumerates(order, Flatten(other, platform.describe).Keys)
    ensures ParseQuery(FormQueryString(params, platform, order))
         == Some(Utf8Pairs(Flatten(params, platform.describe), order))
    ensures FormQueryString(params, platform, order) == FormQueryString(other, platform, order) ==>
      forall i :: 0 <= i < |order| ==>
        Utf8.Encode(Flatten(params, platform.describe)[order[i]]) == Utf8.Encode(Flatten(other, platform.describe)[order[i]])
  {
    var p := platform.(urlQueryAllowed := FormAllowed(platform.urlQueryAllowed));
    QueryStringReadsBack(params, p, order);
    if FormQueryString(params, platform, order) == FormQueryString(other, platform, order) {
      QueryStringInjective(params, other, p, order);
    }
  }
}

=== FILE: query_string_properties.dfy ===
/** Properties of `URLEncoder.queryString(from:)`: when it is empty, what the
    encoder's unit test expects and under which enumeration order, that the
    encoded byte count does not depend on that order, and that the string
    parses back into the flattened pairs when the allowed set escapes the
    separators. */
module QueryStringProperties {
  import opened Wrappers
  import opened Sequences
  import Utf8
  import Decimal
  import PercentEncoding
  import opened URLEncoder

  // ---------------------------------------------------------------------------
  // Empty input

  /** The query string is empty exactly when flattening produced nothing;
      in particular an empty parameter dictionary encodes to "". */
  lemma QueryStringEmptyIff(params: seq<Entry>, platform: Platform, order: seq<string>)
    requires Enumerates(order, Flatten(params, platform.describe).Keys)
    ensures QueryString(params, platform, order) == "" <==> |Flatten(params, platform.describe)| == 0
    ensures params == [] ==> QueryString(params, platform, order) == ""
  {
    var flat := Flatten(params, platform.describe);
    if |flat| != 0 {
      var k :| k in flat;
      assert k in order;
      var parts := EncodedPairs(flat, order, platform.urlQueryAllowed);
      assert |parts[0]| > 0 by {
        assert parts[0] == EncodePair(order[0], flat[order[0]], platform.urlQueryAllowed);
      }
    }
  }

  // ---------------------------------------------------------------------------
  // The unit test

  predicate IsAsciiAlphanumeric(c: char) {
    ('a' <= c <= 'z') || ('A' <= c <= 'Z') || ('0' <= c <= '9')
  }

  /** What the allowed set is known to contain: letters, digits, `@` and
      `.`, but not the space. */
  predicate KnownQueryAllowed(allowed: set<char>) {
    && (forall c :: IsAsciiAlphanumeric(c) ==> c in allowed)
    && '@' in allowed && '.' in allowed && ' ' !in allowed
  }

  predicate IsPlainWord(s: string) {
    forall i :: 0 <= i < |s| ==> IsAsciiAlphanumeric(s[i]) || s[i] == '@' || s[i] == '.'
  }

  lemma PlainWordUnescaped(s: string, allowed: set<char>)
    requires KnownQueryAllowed(allowed) && IsPlainWord(s)
    ensures PercentEncoding.Escape(s, allowed) == s
  {
    assert forall i :: 0 <= i < |s| ==> PercentEncoding.PassesThrough(s[i], allowed) by {
      forall i | 0 <= i < |s|
        ensures PercentEncoding.PassesThrough(s[i], allowed)
      {
        if IsAsciiAlphanumeric(s[i]) {
        }
      }
    }
  }

  function TestParameters(): seq<Entry> {
    [Entry("name", Str("John Doe")), Entry("age", Number(30)), Entry("email", Str("john@example.com"))]
  }

  function TestFlattened(): map<string, string> {
    map["name" := "John Doe", "age" := "30", "email" := "john@example.com"]
  }

  lemma ThirtyText(describe: Value -> string)
    ensures StringFromValue(Number(30), describe) == "30"
  {
    assert Decimal.NatToDecimal(3) == "3";
    assert Decimal.NatToDecimal(30) == Decimal.NatToDecimal(3) + [Decimal.DigitChar(0)];
  }

  /** The test's dictionary flattens to its three scalars under their own keys. */
  lemma TestParametersFlatten(describe: Value -> string)
    ensures Flatten(TestParameters(), describe) == TestFlattened()
  {
    var es := TestParameters();
    ThirtyText(describe);
    assert FlattenEntry(es[0], "", describe) == map["name" := "John Doe"];
    assert FlattenEntry(es[1], "", describe) == map["age" := "30"];
    assert FlattenEntry(es[2], "", describe) == map["email" := "john@example.com"];
    assert es[..2][..1][..0] == [];
    assert es[..2][..1] == [es[0]];
    assert FlattenEntries(es[..2][..1], "", describe) == map["name" := "John Doe"];
    assert es[..2] == [es[0], es[1]];
    assert FlattenEntries(es[..2], "", describe) == map["name" := "John Doe", "age" := "30"];
  }

  lemma NameValueEscape(allowed: set<char>)
    requires KnownQueryAllowed(allowed)
    ensures PercentEncoding.Escape("John Doe", allowed) == "John%20Doe"
  {
    NameTexts();
    PlainWordUnescaped("John", allowed);
    PlainWordUnescaped("Doe", allowed);
    PercentEncoding.EscapeSpace(allowed);
    PercentEncoding.EscapeConcat(" ", "Doe", allowed);
    PercentEncoding.EscapeConcat("John", " " + "Doe", allowed);
  }

  lemma NameTexts()
    ensures "John Doe" == "John" + (" " + "Doe")
    ensures "John" + ("%20" + "Doe") == "John%20Doe"
  {
  }

  /** A pair of plain words is written as it stands. */
  lemma PlainPair(key: string, value: string, allowed: set<char>)
    requires KnownQueryAllowed(allowed) && IsPlainWord(key) && IsPlainWord(value)
    ensures EncodePair(key, value, allowed) == key + "=" + value
  {
    PlainWordUnescaped(key, allowed);
    PlainWordUnescaped(value, allowed);
  }

  lemma EmailIsPlain()
    ensures IsPlainWord("john@example.com")
  {
    var w := "john@example.com";
    forall i | 0 <= i < |w|
      ensures IsAsciiAlphanumeric(w[i]) || w[i] == '@' || w[i] == '.'
    {
    }
  }

  lemma TestPairs(allowed: set<char>)
    requires KnownQueryAllowed(allowed)
    ensures EncodePair("age", "30", allowed) == "age" + "=" + "30"
    ensures EncodePair("email", "john@example.com", allowed) == "email" + "=" + "john@example.com"
    ensures EncodePair("name", "John Doe", allowed) == "name" + "=" + "John%20Doe"
  {
    assert IsPlainWord("age") && IsPlainWord("30") && IsPlainWord("email") && IsPlainWord("name");
    EmailIsPlain();
    PlainPair("age", "30", allowed);
    PlainPair("email", "john@example.com", allowed);
    PlainWordUnescaped("name", allowed);
    NameValueEscape(allowed);
  }

  lemma TestPairTexts()
    ensures "age" + "=" + "30" == "age=30"
    ensures "email" + "=" + "john@example.com" == "email=john@example.com"
    ensures "name" + "=" + "John%20Doe" == "name=John%20Doe"
  {
  }

  lemma JoinThree(parts: seq<string>, sep: string)
    requires |parts| == 3
    ensures Join(parts, sep) == parts[0] + sep + parts[1] + sep + parts[2]
  {
    assert parts[1..][1..] == [parts[2]];
    assert Join(parts[1..], sep) == parts[1] + sep + parts[2];
    assert parts[0] + sep + (parts[1] + sep + parts[2]) == parts[0] + sep + parts[1] + sep + parts[2];
  }

  /** Both orders used below enumerate the test's flattened keys. */
  lemma TestOrdersEnumerate(describe: Value -> string)
    ensures Enumerates(["age", "email", "name"], Flatten(TestParameters(), describe).Keys)
    ensures Enumerates(["name", "age", "email"], Flatten(TestParameters(), describe).Keys)
  {
    TestParametersFlatten(describe);
  }

  /** The test's flattened dictionary, encoded pair by pair. */
  lemma TestFlatPairs(platform: Platform)
    requires KnownQueryAllowed(platform.urlQueryAllowed)
    ensures var flat := Flatten(TestParameters(), platform.describe);
      && "age" in flat && "email" in flat && "name" in flat
      && EncodePair("age", flat["age"], platform.urlQueryAllowed) == "age=30"
      && EncodePair("email", flat["email"], platform.urlQueryAllowed) == "email=john@example.com"
      && EncodePair("name", flat["name"], platform.urlQueryAllowed) == "name=John%20Doe"
  {
    var flat := Flatten(TestParameters(), platform.describe);
    TestParametersFlatten(platform.describe);
    assert flat["age"] == "30" && flat["email"] == "john@example.com" && flat["name"] == "John Doe";
    TestPairs(platform.urlQueryAllowed);
    TestPairTexts();
  }

  /** The unit test's expectation holds when the flattened dictionary
      happens to enumerate its keys in sorted order. */
  lemma UnitTestExpectation(platform: Platform)
    requires KnownQueryAllowed(platform.urlQueryAllowed)
    ensures Enumerates(["age", "email", "name"], Flatten(TestParameters(), platform.describe).Keys)
    ensures QueryString(TestParameters(), platform, ["age", "email", "name"])
         == "age=30" + "&" + "email=john@example.com" + "&" + "name=John%20Doe"
  {
    var order := ["age", "email", "name"];
    TestOrdersEnumerate(platform.describe);
    TestFlatPairs(platform);
    var flat := Flatten(TestParameters(), platform.describe);
    var parts := EncodedPairs(flat, order, platform.urlQueryAllowed);
    assert parts[0] == "age=30" && parts[1] == "email=john@example.com" && parts[2] == "name=John%20Doe";
    JoinThree(parts, "&");
  }

  /** The code does not fix the order: another enumeration of the same
      dictionary gives a different string, so the test's expectation is not
      guaranteed. */
  lemma UnitTestDependsOnOrder(platform: Platform)
    requires KnownQueryAllowed(platform.urlQueryAllowed)
    ensures Enumerates(["name", "age", "email"], Flatten(TestParameters(), platform.describe).Keys)
    ensures QueryString(TestParameters(), platform, ["name", "age", "email"])
         != "age=30" + "&" + "email=john@example.com" + "&" + "name=John%20Doe"
  {
    var order := ["name", "age", "email"];
    TestOrdersEnumerate(platform.describe);
    TestFlatPairs(platform);
    var flat := Flatten(TestParameters(), platform.describe);
    var parts := EncodedPairs(flat, order, platform.urlQueryAllowed);
    assert parts[0] == "name=John%20Doe";
    var q := QueryString(TestParameters(), platform, order);
    assert parts[0] <= q;
    assert q[0] == 'n';
  }

  // ---------------------------------------------------------------------------
  // Byte count does not depend on the enumeration order

  /** UTF-8 bytes of the encoded pairs, summed over `order`. */
  function PairBytes(flat: map<string, string>, order: seq<string>, allowed: set<char>): nat
    requires forall k :: k in order ==> k in flat
  {
    if |order| == 0 then 0
    else |Utf8.Encode(EncodePair(order[0], flat[order[0]], allowed))| + PairBytes(flat, order[1..], allowed)
  }

  lemma {:induction false} PairBytesConcat(flat: map<string, string>, a: seq<string>, b: seq<string>, allowed: set<char>)
    requires forall k :: k in a ==> k in flat
    requires forall k :: k in b ==> k in flat
    ensures PairBytes(flat, a + b, allowed) == PairBytes(flat, a, allowed) + PairBytes(flat, b, allowed)
    decreases |a|
  {
    if |a| == 0 {
      assert a + b == b;
    } else {
      assert (a + b)[1..] == a[1..] + b;
      PairBytesConcat(flat, a[1..], b, allowed);
    }
  }

  lemma PairBytesWithout(flat: map<string, string>, o: seq<string>, j: nat, allowed: set<char>)
    requires forall k :: k in o ==> k in flat
    requires j < |o|
    ensures PairBytes(flat, o, allowed)
         == |Utf8.Encode(EncodePair(o[j], flat[o[j]], allowed))| + PairBytes(flat, o[..j] + o[j + 1..], allowed)
  {
    assert o == o[..j] + ([o[j]] + o[j + 1..]);
    PairBytesConcat(flat, o[..j], [o[j]] + o[j + 1..], allowed);
    PairBytesConcat(flat, o[..j], o[j + 1..], allowed);
    assert ([o[j]] + o[j + 1..])[1..] == o[j + 1..];
  }

  /** Two duplicate-free listings of the same keys have the same length
      and the same byte total. */
  lemma {:induction false} PairBytesPermutation(flat: map<string, string>, o1: seq<string>, o2: seq<string>, allowed: set<char>)
    requires Distinct(o1) && Distinct(o2)
    requires forall k :: k in o1 <==> k in o2
    requires forall k :: k in o1 ==> k in flat
    ensures |o1| == |o2|
    ensures PairBytes(flat, o1, allowed) == PairBytes(flat, o2, allowed)
    decreases |o1|
  {
    if |o1| != 0 {
      assert o1[0] in o2;
      var j :| 0 <= j < |o2| && o2[j] == o1[0];
      var rest := o2[..j] + o2[j + 1..];
      RemoveMatching(o1, o2, j);
      PairBytesPermutation(flat, o1[1..], rest, allowed);
      PairBytesWithout(flat, o2, j, allowed);
      assert |rest| == |o2| - 1;
    }
  }

  lemma {:induction false} JoinedPairBytes(flat: map<string, string>, order: seq<string>, allowed: set<char>)
    requires forall k :: k in order ==> k in flat
    requires |order| > 0
    ensures |Utf8.Encode(Join(EncodedPairs(flat, order, allowed), "&"))| == PairBytes(flat, order, allowed) + |order| - 1
    decreases |order|
  {
    var parts := EncodedPairs(flat, order, allowed);
    if |order| > 1 {
      assert parts[1..] == EncodedPairs(flat, order[1..], allowed);
      JoinedPairBytes(flat, order[1..], allowed);
      Utf8.EncodeConcat(parts[0] + "&", Join(parts[1..], "&"));
      Utf8.EncodeConcat(parts[0], "&");
      assert Utf8.Encode("&") == [0x26];
    }
  }

  /** The UTF-8 body, and so the Content-Length header, has the same size
      whatever order the flattened dictionary is enumerated in. */
  lemma BodySizeIndependentOfOrder(params: seq<Entry>, platform: Platform, o1: seq<string>, o2: seq<string>)
    requires Enumerates(o1, Flatten(params, platform.describe).Keys)
    requires Enumerates(o2, Flatten(params, platform.describe).Keys)
    ensures |Utf8.Encode(QueryString(params, platform, o1))| == |Utf8.Encode(QueryString(params, platform, o2))|
  {
    var flat := Flatten(params, platform.describe);
    PairBytesPermutation(flat, o1, o2, platform.urlQueryAllowed);
    if |o1| > 0 {
      JoinedPairBytes(flat, o1, platform.urlQueryAllowed);
      JoinedPairBytes(flat, o2, platform.urlQueryAllowed);
    }
  }
}

=== FILE: sequences.dfy ===
/** Small facts about sequences used across the model. */
module Sequences {
  import opened Wrappers

  /** No element occurs twice. */
  predicate Distinct<T(==)>(s: seq<T>) {
    forall i, j :: 0 <= i < j < |s| ==> s[i] != s[j]
  }

  /** Position of the first `x` in `s`, if any. */
  function FirstIndexOf<T(==)>(s: seq<T>, x: T): (r: Option<nat>)
    ensures r.Some? ==> r.value < |s| && s[r.value] == x && forall j :: 0 <= j < r.value ==> s[j] != x
    ensures r.None? ==> forall j :: 0 <= j < |s| ==> s[j] != x
  {
    if |s| == 0 then None
    else if s[0] == x then Some(0)
    else match FirstIndexOf(s[1..], x)
      case None => None
      case Some(i) => Some(i + 1)
  }

  /** Removing the first element of `o1` from both sequences leaves two
      duplicate-free sequences of the same remaining elements. */
  lemma RemoveMatching<T>(o1: seq<T>, o2: seq<T>, j: nat)
    requires Distinct(o1) && Distinct(o2)
    requires forall k :: k in o1 <==> k in o2
    requires |o1| > 0 && j < |o2| && o2[j] == o1[0]
    ensures Distinct(o2[..j] + o2[j + 1..])
    ensures forall k :: k in o1[1..] <==> k in o2[..j] + o2[j + 1..]
  {
    var x := o1[0];
    var rest2 := o2[..j] + o2[j + 1..];
    var rest1 := o1[1..];
    forall a, b | 0 <= a < b < |rest2|
      ensures rest2[a] != rest2[b]
    {
      var a' := if a < j then a else a + 1;
      var b' := if b < j then b else b + 1;
      assert rest2[a] == o2[a'] && rest2[b] == o2[b'];
    }
    forall k
      ensures k in rest1 <==> k in rest2
    {
      if k in rest1 {
        var i :| 0 <= i < |rest1| && rest1[i] == k;
        assert o1[i + 1] == k && k != x;
        assert k in o2;
        var m :| 0 <= m < |o2| && o2[m] == k;
        if m < j {
          assert rest2[m] == k;
        } else {
          assert rest2[m - 1] == k;
        }
      }
      if k in rest2 {
        var m :| 0 <= m < |rest2| && rest2[m] == k;
        var m' := if m < j then m else m + 1;
        assert o2[m'] == k && m' != j;
        assert k in o1;
        var i :| 0 <= i < |o1| && o1[i] == k;
        assert rest1[i - 1] == k;
      }
    }
  }

  /** The set of elements of `s`. */
  function Elements<T>(s: seq<T>): set<T> {
    set x | x in s
  }

  /** A duplicate-free sequence has as many elements as its length. */
  lemma {:induction false} DistinctCardinality<T>(s: seq<T>)
    requires Distinct(s)
    ensures |Elements(s)| == |s|
    decreases |s|
  {
    if |s| > 0 {
      var rest := s[1..];
      assert Distinct(rest) by {
        forall i, j | 0 <= i < j < |rest| ensures rest[i] != rest[j] {
          assert rest[i] == s[i + 1] && rest[j] == s[j + 1];
        }
      }
      DistinctCardinality(rest);
      assert Elements(s) == {s[0]} + Elements(rest);
      assert s[0] !in Elements(rest) by {
        forall i | 0 <= i < |rest| ensures rest[i] != s[0] {
          assert rest[i] == s[i + 1];
        }
      }
    }
  }

  /** Duplicate-free sequences with the same elements have the same length. */
  lemma SameElementsSameLength<T>(a: seq<T>, b: seq<T>)
    requires Distinct(a) && Distinct(b)
    requires forall x :: x in a <==> x in b
    ensures |a| == |b|
  {
    DistinctCardinality(a);
    DistinctCardinality(b);
    assert Elements(a) == Elements(b);
  }
}

=== FILE: session.dfy ===
/** The response models of Models/Session.swift: `Session`, `AccountList`,
    `Account`, `Balance`, `BalanceRefresh` and their `String`-backed enums,
    with the decoders Swift synthesizes for them (fields decoded in
    declaration order, snake_case keys renamed by `CodingKeys`) and, as
    their partner, an encoder that writes each model back as the JSON the
    decoder expects. */
module SessionModel {
  import opened Wrappers
  import opened Json

  // ---------------------------------------------------------------------------
  // Raw-value enums

  datatype AccountStatus = Active | Inactive | Disconnected

  function AccountStatusRaw(c: AccountStatus): string {
    match c
    case Active => "active"
    case Inactive => "inactive"
    case Disconnected => "disconnected"
  }

  /** `AccountStatus(rawValue:)`. */
  function AccountStatusFromRaw(s: string): (r: Option<AccountStatus>)
    ensures forall c :: r == Some(c) <==> AccountStatusRaw(c) == s
    ensures r.Some? <==> s in {"active", "inactive", "disconnected"}
  {
    if s == "active" then Some(Active)
    else if s == "inactive" then Some(Inactive)
    else if s == "disconnected" then Some(Disconnected)
    else None
  }

  datatype Category = CashCategory | CreditCategory | Investment | OtherCategory

  function CategoryRaw(c: Category): string {
    match c
    case CashCategory => "cash"
    case CreditCategory => "credit"
    case Investment => "investment"
    case OtherCategory => "other"
  }

  function CategoryFromRaw(s: string): (r: Option<Category>)
    ensures forall c :: r == Some(c) <==> CategoryRaw(c) == s
    ensures r.Some? <==> s in {"cash", "credit", "investment", "other"}
  {
    if s == "cash" then Some(CashCategory)
    else if s == "credit" then Some(CreditCategory)
    else if s == "investment" then Some(Investment)
    else if s == "other" then Some(OtherCategory)
    else None
  }

  datatype PaymentMethodType = UsBankAccount | Link

  function PaymentMethodTypeRaw(c: PaymentMethodType): string {
    match c
    case UsBankAccount => "us_bank_account"
    case Link => "link"
  }

  function PaymentMethodTypeFromRaw(s: string): (r: Option<PaymentMethodType>)
    ensures forall c :: r == Some(c) <==> PaymentMethodTypeRaw(c) == s
    ensures r.Some? <==> s in {"us_bank_account", "link"}
  {
    if s == "us_bank_account" then Some(UsBankAccount)
    else if s == "link" then Some(Link)
    else None
  }

  /** Declared without explicit raw values, so each raw value is the case
      name as written in Swift, camelCase included. */
  datatype Permission = Balances | Ownership | PaymentMethod | Transactions | AccountNumbers

  function PermissionRaw(c: Permission): string {
    match c
    case Balances => "balances"
    case Ownership => "ownership"
    case PaymentMethod => "paymentMethod"
    case Transactions => "transactions"
    case AccountNumbers => "accountNumbers"
  }

  function PermissionFromRaw(s: string): (r: Option<Permission>)
    ensures forall c :: r == Some(c) <==> PermissionRaw(c) == s
    ensures r.Some? <==> s in {"balances", "ownership", "paymentMethod", "transactions", "accountNumbers"}
  {
    if s == "balances" then Some(Balances)
    else if s == "ownership" then Some(Ownership)
    else if s == "paymentMethod" then Some(PaymentMethod)
    else if s == "transactions" then Some(Transactions)
    else if s == "accountNumbers" then Some(AccountNumbers)
    else None
  }

  datatype Subcategory = Checking | CreditCard | LineOfCredit | Mortgage | Savings | OtherSubcategory

  function SubcategoryRaw(c: Subcategory): string {
    match c
    case Checking => "checking"
    case CreditCard => "credit_card"
    case LineOfCredit => "line_of_credit"
    case Mortgage => "mortgage"
    case Savings => "savings"
    case OtherSubcategory => "other"
  }

  function SubcategoryFromRaw(s: string): (r: Option<Subcategory>)
    ensures forall c :: r == Some(c) <==> SubcategoryRaw(c) == s
    ensures r.Some? <==> s in {"checking", "credit_card", "line_of_credit", "mortgage", "savings", "other"}
  {
    if s == "checking" then Some(Checking)
    else if s == "credit_card" then Some(CreditCard)
    else if s == "line_of_credit" then Some(LineOfCredit)
    else if s == "mortgage" then Some(Mortgage)
    else if s == "savings" then Some(Savings)
    else if s == "other" then Some(OtherSubcategory)
    else None
  }

  datatype BalanceType = CashBalance | CreditBalance

  function BalanceTypeRaw(c: BalanceType): string {
    match c
    case CashBalance => "cash"
    case CreditBalance => "credit"
  }

  function BalanceTypeFromRaw(s: string): (r: Option<BalanceType>)
    ensures forall c :: r == Some(c) <==> BalanceTypeRaw(c) == s
    ensures r.Some? <==> s in {"cash", "credit"}
  {
    if s == "cash" then Some(CashBalance)
    else if s == "credit" then Some(CreditBalance)
    else None
  }

  datatype BalanceRefreshStatus = Failed | Pending | Succeeded

  function BalanceRefreshStatusRaw(c: BalanceRefreshStatus): string {
    match c
    case Failed => "failed"
    case Pending => "pending"
    case Succeeded => "succeeded"
  }

  function BalanceRefreshStatusFromRaw(s: string): (r: Option<BalanceRefreshStatus>)
    ensures forall c :: r == Some(c) <==> BalanceRefreshStatusRaw(c) == s
    ensures r.Some? <==> s in {"failed", "pending", "succeeded"}
  {
    if s == "failed" then Some(Failed)
    else if s == "pending" then Some(Pending)
    else if s == "succeeded" then Some(Succeeded)
    else None
  }

  // ---------------------------------------------------------------------------
  // Models

  datatype Session = Session(id: string, clientSecret: string, livemode: bool, accounts: AccountList)

  datatype AccountList = AccountList(data: seq<Account>, hasMore: bool)

  datatype Account = Account(
    id: string,
    livemode: bool,
    displayName: Option<string>,
    status: AccountStatus,
    institutionName: string,
    last4: Option<string>,
    created: int,
    balance: Option<Balance>,
    balanceRefresh: Option<BalanceRefresh>,
    category: Category,
    subcategory: Subcategory,
    permissions: Option<seq<Permission>>,
    supportedPaymentMethodTypes: seq<PaymentMethodType>)

  datatype Balance = Balance(
    asOf: int,
    balanceType: BalanceType,
    cash: Option<map<string, int>>,
    credit: Option<map<string, int>>,
    current: map<string, int>)

  datatype BalanceRefresh = BalanceRefresh(status: BalanceRefreshStatus, lastAttemptedAt: int)

  // ---------------------------------------------------------------------------
  // Decoding

  function DecodeAccountStatus(j: Json): Decoded<AccountStatus> { DecodeRaw(j, AccountStatusFromRaw) }
  function DecodeCategory(j: Json): Decoded<Category> { DecodeRaw(j, CategoryFromRaw) }
  function DecodeSubcategory(j: Json): Decoded<Subcategory> { DecodeRaw(j, SubcategoryFromRaw) }
  function DecodePermission(j: Json): Decoded<Permission> { DecodeRaw(j, PermissionFromRaw) }
  function DecodePaymentMethodType(j: Json): Decoded<PaymentMethodType> { DecodeRaw(j, PaymentMethodTypeFromRaw) }
  function DecodeBalanceType(j: Json): Decoded<BalanceType> { DecodeRaw(j, BalanceTypeFromRaw) }
  function DecodeBalanceRefreshStatus(j: Json): Decoded<BalanceRefreshStatus> { DecodeRaw(j, BalanceRefreshStatusFromRaw) }

  function DecodePermissions(j: Json): Decoded<seq<Permission>> { DecodeArray(j, DecodePermission) }
  function DecodePaymentMethodTypes(j: Json): Decoded<seq<PaymentMethodType>> { DecodeArray(j, DecodePaymentMethodType) }

  function DecodeBalanceRefresh(j: Json): (r: Decoded<BalanceRefresh>)
    ensures r.Ok? ==> j.JObject?
    ensures r.Ok? ==>
      && Required(j.fields, "status", DecodeBalanceRefreshStatus) == Ok(r.value.status)
      && Required(j.fields, "last_attempted_at", DecodeInt) == Ok(r.value.lastAttemptedAt)
  {
    var fields :- ObjectFields(j);
    var status :- Required(fields, "status", DecodeBalanceRefreshStatus);
    var lastAttemptedAt :- Required(fields, "last_attempted_at", DecodeInt);
    Ok(BalanceRefresh(status, lastAttemptedAt))
  }

  function DecodeBalance(j: Json): (r: Decoded<Balance>)
    ensures r.Ok? ==> j.JObject?
    ensures r.Ok? ==>
      && Required(j.fields, "as_of", DecodeInt) == Ok(r.value.asOf)
      && Required(j.fields, "type", DecodeBalanceType) == Ok(r.value.balanceType)
      && Optional(j.fields, "cash", DecodeIntMap) == Ok(r.value.cash)
      && Optional(j.fields, "credit", DecodeIntMap) == Ok(r.value.credit)
      && Required(j.fields, "current", DecodeIntMap) == Ok(r.value.current)
  {
    var fields :- ObjectFields(j);
    var asOf :- Required(fields, "as_of", DecodeInt);
    var balanceType :- Required(fields, "type", DecodeBalanceType);
    var cash :- Optional(fields, "cash", DecodeIntMap);
    var credit :- Optional(fields, "credit", DecodeIntMap);
    var current :- Required(fields, "current", DecodeIntMap);
    Ok(Balance(asOf, balanceType, cash, credit, current))
  }

  function DecodeAccount(j: Json): (r: Decoded<Account>)
    ensures r.Ok? ==> j.JObject?
    ensures r.Ok? ==>
      && Required(j.fields, "id", DecodeString) == Ok(r.value.id)
      && Required(j.fields, "livemode", DecodeBool) == Ok(r.value.livemode)
      && Optional(j.fields, "display_name", DecodeString) == Ok(r.value.displayName)
      && Required(j.fields, "status", DecodeAccountStatus) == Ok(r.value.status)
      && Required(j.fields, "institution_name", DecodeString) == Ok(r.value.institutionName)
      && Optional(j.fields, "last4", DecodeString) == Ok(r.value.last4)
      && Required(j.fields, "created", DecodeInt) == Ok(r.value.created)
      && Optional(j.fields, "balance", DecodeBalance) == Ok(r.value.balance)
      && Optional(j.fields, "balance_refresh", DecodeBalanceRefresh) == Ok(r.value.balanceRefresh)
      && Required(j.fields, "category", DecodeCategory) == Ok(r.value.category)
      && Required(j.fields, "subcategory", DecodeSubcategory) == Ok(r.value.subcategory)
      && Optional(j.fields, "permissions", DecodePermissions) == Ok(r.value.permissions)
      && Required(j.fields, "supported_payment_method_types", DecodePaymentMethodTypes) == Ok(r.value.supportedPaymentMethodTypes)
  {
    var fields :- ObjectFields(j);
    var id :- Required(fields, "id", DecodeString);
    var livemode :- Required(fields, "livemode", DecodeBool);
    var displayName :- Optional(fields, "display_name", DecodeString);
    var status :- Required(fields, "status", DecodeAccountStatus);
    var institutionName :- Required(fields, "institution_name", DecodeString);
    var last4 :- Optional(fields, "last4", DecodeString);
    var created :- Required(fields, "created", DecodeInt);
    var balance :- Optional(fields, "balance", DecodeBalance);
    var balanceRefresh :- Optional(fields, "balance_refresh", DecodeBalanceRefresh);
    var category :- Required(fields, "category", DecodeCategory);
    var subcategory :- Required(fields, "subcategory", DecodeSubcategory);
    var permissions :- Optional(fields, "permissions", DecodePermissions);
    var supportedPaymentMethodTypes :- Required(fields, "supported_payment_method_types", DecodePaymentMethodTypes);
    Ok(Account(id, livemode, displayName, status, institutionName, last4, created,
               balance, balanceRefresh, category, subcategory, permissions, supportedPaymentMethodTypes))
  }

  function DecodeAccounts(j: Json): Decoded<seq<Account>> { DecodeArray(j, DecodeAccount) }

  function DecodeAccountList(j: Json): (r: Decoded<AccountList>)
    ensures r.Ok? ==> j.JObject?
    ensures r.Ok? ==>
      && Required(j.fields, "data", DecodeAccounts) == Ok(r.value.data)
      && Required(j.fields, "has_more", DecodeBool) == Ok(r.value.hasMore)
  {
    var fields :- ObjectFields(j);
    var data :- Required(fields, "data", DecodeAccounts);
    var hasMore :- Required(fields, "has_more", DecodeBool);
    Ok(AccountList(data, hasMore))
  }

  function DecodeSession(j: Json): (r: Decoded<Session>)
    ensures r.Ok? ==> j.JObject?
    ensures r.Ok? ==>
      && Required(j.fields, "id", DecodeString) == Ok(r.value.id)
      && Required(j.fields, "client_secret", DecodeString) == Ok(r.value.clientSecret)
      && Required(j.fields, "livemode", DecodeBool) == Ok(r.value.livemode)
      && Required(j.fields, "accounts", DecodeAccountList) == Ok(r.value.accounts)
  {
    var fields :- ObjectFields(j);
    var id :- Required(fields, "id", DecodeString);
    var clientSecret :- Required(fields, "client_secret", DecodeString);
    var livemode :- Required(fields, "livemode", DecodeBool);
    var accounts :- Required(fields, "accounts", DecodeAccountList);
    Ok(Session(id, clientSecret, livemode, accounts))
  }
}

=== FILE: session_codec.dfy ===
/** The partner of the Session decoders: an encoder that writes each model
    as the JSON object its `CodingKeys` describe (an absent optional is an
    absent key), and the lemmas relating the two: every model whose integers
    fit in `Int` decodes back from its encoding, removing a required key
    makes decoding fail with that key missing, and removing an optional key
    (or setting it to `null`) only clears that field. */
module SessionCodec {
  import opened Wrappers
  import opened Json
  import opened SessionModel

  // ---------------------------------------------------------------------------
  // Encoding

  function EncodeIntMap(m: map<string, int>): Json {
    JObject(map k | k in m :: JNumber(m[k]))
  }

  function EncodeItems<T>(xs: seq<T>, enc: T -> Json): (r: seq<Json>)
    ensures |r| == |xs|
    ensures forall i :: 0 <= i < |xs| ==> r[i] == enc(xs[i])
  {
    if |xs| == 0 then [] else [enc(xs[0])] + EncodeItems(xs[1..], enc)
  }

  /** `m` with `key` added when the optional is present, unchanged when it
      is absent. */
  function WithOptional<T>(m: map<string, Json>, key: string, o: Option<T>, enc: T -> Json): (r: map<string, Json>)
    ensures key in r <==> key in m || o.Some?
    ensures o.Some? ==> r[key] == enc(o.value)
    ensures o.None? ==> r == m
    ensures forall k :: k != key ==> (k in r <==> k in m) && (k in m ==> r[k] == m[k])
  {
    if o.Some? then m[key := enc(o.value)] else m
  }

  function EncodeBalanceRefresh(b: BalanceRefresh): Json {
    JObject(map[
      "status" := JString(BalanceRefreshStatusRaw(b.status)),
      "last_attempted_at" := JNumber(b.lastAttemptedAt)])
  }

  function EncodeBalance(b: Balance): Json {
    var required := map[
      "as_of" := JNumber(b.asOf),
      "type" := JString(BalanceTypeRaw(b.balanceType)),
      "current" := EncodeIntMap(b.current)];
    JObject(WithOptional(WithOptional(required, "cash", b.cash, EncodeIntMap), "credit", b.credit, EncodeIntMap))
  }

  function EncodePermission(p: Permission): Json { JString(PermissionRaw(p)) }
  function EncodePaymentMethodType(p: PaymentMethodType): Json { JString(PaymentMethodTypeRaw(p)) }
  function EncodePermissions(ps: seq<Permission>): Json { JArray(EncodeItems(ps, EncodePermission)) }
  function EncodeString(s: string): Json { JString(s) }

  function AccountRequiredFields(a: Account): map<string, Json> {
    map[
      "id" := JString(a.id),
      "livemode" := JBool(a.livemode),
      "status" := JString(AccountStatusRaw(a.status)),
      "institution_name" := JString(a.institutionName),
      "created" := JNumber(a.created),
      "category" := JString(CategoryRaw(a.category)),
      "subcategory" := JString(SubcategoryRaw(a.subcategory)),
      "supported_payment_method_types" := JArray(EncodeItems(a.supportedPaymentMethodTypes, EncodePaymentMethodType))]
  }

  /** The keys of the account's optionals that are present. */
  function AccountOptionalFields(a: Account): map<string, Json> {
    var m := WithOptional(map[], "display_name", a.displayName, EncodeString);
    var m := WithOptional(m, "last4", a.last4, EncodeString);
    var m := WithOptional(m, "balance", a.balance, EncodeBalance);
    var m := WithOptional(m, "balance_refresh", a.balanceRefresh, EncodeBalanceRefresh);
    WithOptional(m, "permissions", a.permissions, EncodePermissions)
  }

  function EncodeAccount(a: Account): Json {
    JObject(AccountOptionalFields(a) + AccountRequiredFields(a))
  }

  function EncodeAccountList(l: AccountList): Json {
    JObject(map["data" := JArray(EncodeItems(l.data, EncodeAccount)), "has_more" := JBool(l.hasMore)])
  }

  function EncodeSession(s: Session): Json {
    JObject(map[
      "id" := JString(s.id),
      "client_secret" := JString(s.clientSecret),
      "livemode" := JBool(s.livemode),
      "accounts" := EncodeAccountList(s.accounts)])
  }

  // ---------------------------------------------------------------------------
  // Models whose integers fit in Swift's Int

  predicate IntMapInRange(m: map<string, int>) {
    forall k :: k in m ==> InIntRange(m[k])
  }

  predicate BalanceInRange(b: Balance) {
    && InIntRange(b.asOf)
    && IntMapInRange(b.current)
    && (b.cash.Some? ==> IntMapInRange(b.cash.value))
    && (b.credit.Some? ==> IntMapInRange(b.credit.value))
  }

  predicate AccountInRange(a: Account) {
    && InIntRange(a.created)
    && (a.balance.Some? ==> BalanceInRange(a.balance.value))
    && (a.balanceRefresh.Some? ==> InIntRange(a.balanceRefresh.value.lastAttemptedAt))
  }

  predicate SessionInRange(s: Session) {
    forall i :: 0 <= i < |s.accounts.data| ==> AccountInRange(s.accounts.data[i])
  }

  // ---------------------------------------------------------------------------
  // Round trips

  lemma RawEnumsRoundTrip()
    ensures forall c :: DecodeAccountStatus(JString(AccountStatusRaw(c))) == Ok(c)
    ensures forall c :: DecodeCategory(JString(CategoryRaw(c))) == Ok(c)
    ensures forall c :: DecodeSubcategory(JString(SubcategoryRaw(c))) == Ok(c)
    ensures forall c :: DecodePermission(JString(PermissionRaw(c))) == Ok(c)
    ensures forall c :: DecodePaymentMethodType(JString(PaymentMethodTypeRaw(c))) == Ok(c)
    ensures forall c :: DecodeBalanceType(JString(BalanceTypeRaw(c))) == Ok(c)
    ensures forall c :: DecodeBalanceRefreshStatus(JString(BalanceRefreshStatusRaw(c))) == Ok(c)
  {
  }

  /** Encoded items decode back when each one does and none is `null`. */
  lemma {:induction false} ItemsRoundTrip<T>(xs: seq<T>, enc: T -> Json, dec: Json -> Decoded<T>)
    requires forall i :: 0 <= i < |xs| ==> enc(xs[i]) != JNull && dec(enc(xs[i])) == Ok(xs[i])
    ensures DecodeItems(EncodeItems(xs, enc), dec) == Ok(xs)
    decreases |xs|
  {
    if |xs| > 0 {
      var js := EncodeItems(xs, enc);
      assert js[1..] == EncodeItems(xs[1..], enc);
      ItemsRoundTrip(xs[1..], enc, dec);
      assert xs == [xs[0]] + xs[1..];
    }
  }

  lemma IntMapRoundTrip(m: map<string, int>)
    requires IntMapInRange(m)
    ensures DecodeIntMap(EncodeIntMap(m)) == Ok(m)
  {
    var j := EncodeIntMap(m);
    assert j.fields.Keys == m.Keys;
    assert forall k :: k in j.fields ==> DecodeInt(j.fields[k]) == Ok(m[k]);
    var d := map k | k in j.fields :: DecodeInt(j.fields[k]).value;
    assert DecodeIntMap(j) == Ok(d);
    assert d == m;
  }

  lemma BalanceRefreshRoundTrip(b: BalanceRefresh)
    requires InIntRange(b.lastAttemptedAt)
    ensures DecodeBalanceRefresh(EncodeBalanceRefresh(b)) == Ok(b)
  {
    RawEnumsRoundTrip();
  }

  lemma BalanceRoundTrip(b: Balance)
    requires BalanceInRange(b)
    ensures DecodeBalance(EncodeBalance(b)) == Ok(b)
  {
    var f := EncodeBalance(b).fields;
    assert "cash" in f <==> b.cash.Some?;
    assert "credit" in f <==> b.credit.Some?;
    RawEnumsRoundTrip();
    IntMapRoundTrip(b.current);
    if b.cash.Some? {
      IntMapRoundTrip(b.cash.value);
    }
    if b.credit.Some? {
      IntMapRoundTrip(b.credit.value);
    }
    OptionalRoundTrip(f, "cash", b.cash, EncodeIntMap, DecodeIntMap);
    OptionalRoundTrip(f, "credit", b.credit, EncodeIntMap, DecodeIntMap);
  }

  lemma ArraysRoundTrip(a: Account)
    ensures DecodePaymentMethodTypes(JArray(EncodeItems(a.supportedPaymentMethodTypes, EncodePaymentMethodType)))
         == Ok(a.supportedPaymentMethodTypes)
    ensures a.permissions.Some? ==> DecodePermissions(EncodePermissions(a.permissions.value)) == Ok(a.permissions.value)
  {
    RawEnumsRoundTrip();
    ItemsRoundTrip(a.supportedPaymentMethodTypes, EncodePaymentMethodType, DecodePaymentMethodType);
    if a.permissions.Some? {
      ItemsRoundTrip(a.permissions.value, EncodePermission, DecodePermission);
    }
  }

  /** An optional written as a present-or-absent key decodes back. */
  lemma OptionalRoundTrip<T>(f: map<string, Json>, key: string, o: Option<T>, enc: T -> Json, dec: Json -> Decoded<T>)
    requires key in f <==> o.Some?
    requires o.Some? ==> f[key] == enc(o.value) && enc(o.value) != JNull && dec(enc(o.value)) == Ok(o.value)
    ensures Optional(f, key, dec) == Ok(o)
  {
  }

  /** Looking a key up in a union where the right-hand map has it. */
  lemma UnionRight(m1: map<string, Json>, m2: map<string, Json>, k: string)
    requires k in m2
    ensures k in m1 + m2 && (m1 + m2)[k] == m2[k]
  {
  }

  /** Looking a key up in a union where the right-hand map lacks it. */
  lemma UnionLeft(m1: map<string, Json>, m2: map<string, Json>, k: string)
    requires k !in m2
    ensures k in m1 + m2 <==> k in m1
    ensures k in m1 ==> (m1 + m2)[k] == m1[k]
  {
  }

  lemma RequiredFieldsValues(a: Account)
    ensures var f := AccountRequiredFields(a);
      && "id" in f && f["id"] == JString(a.id)
      && "livemode" in f && f["livemode"] == JBool(a.livemode)
      && "status" in f && f["status"] == JString(AccountStatusRaw(a.status))
      && "institution_name" in f && f["institution_name"] == JString(a.institutionName)
      && "created" in f && f["created"] == JNumber(a.created)
      && "category" in f && f["category"] == JString(CategoryRaw(a.category))
      && "subcategory" in f && f["subcategory"] == JString(SubcategoryRaw(a.subcategory))
      && "supported_payment_method_types" in f
      && f["supported_payment_method_types"] == JArray(EncodeItems(a.supportedPaymentMethodTypes, EncodePaymentMethodType))
  {
  }

  lemma RequiredFieldsLackOptionals(a: Account)
    ensures var f := AccountRequiredFields(a);
      && "display_name" !in f && "last4" !in f && "balance" !in f && "balance_refresh" !in f && "permissions" !in f
  {
  }

  lemma OptionalFieldsValues(a: Account)
    ensures var f := AccountOptionalFields(a);
      && ("display_name" in f <==> a.displayName.Some?)
      && (a.displayName.Some? ==> f["display_name"] == JString(a.displayName.value))
      && ("last4" in f <==> a.last4.Some?)
      && (a.last4.Some? ==> f["last4"] == JString(a.last4.value))
      && ("balance" in f <==> a.balance.Some?)
      && (a.balance.Some? ==> f["balance"] == EncodeBalance(a.balance.value))
      && ("balance_refresh" in f <==> a.balanceRefresh.Some?)
      && (a.balanceRefresh.Some? ==> f["balance_refresh"] == EncodeBalanceRefresh(a.balanceRefresh.value))
      && ("permissions" in f <==> a.permissions.Some?)
      && (a.permissions.Some? ==> f["permissions"] == EncodePermissions(a.permissions.value))
  {
  }


  /** The encoded account's required keys hold the required fields. */
  lemma EncodedRequired(a: Account)
    ensures var f := EncodeAccount(a).fields;
      && "id" in f && f["id"] == JString(a.id)
      && "livemode" in f && f["livemode"] == JBool(a.livemode)
      && "status" in f && f["status"] == JString(AccountStatusRaw(a.status))
      && "institution_name" in f && f["institution_name"] == JString(a.institutionName)
      && "created" in f && f["created"] == JNumber(a.created)
      && "category" in f && f["category"] == JString(CategoryRaw(a.category))
      && "subcategory" in f && f["subcategory"] == JString(SubcategoryRaw(a.subcategory))
      && "supported_payment_method_types" in f
      && f["supported_payment_method_types"] == JArray(EncodeItems(a.supportedPaymentMethodTypes, EncodePaymentMethodType))
  {
    var opt, req := AccountOptionalFields(a), AccountRequiredFields(a);
    RequiredFieldsValues(a);
    UnionRight(opt, req, "id");
    UnionRight(opt, req, "livemode");
    UnionRight(opt, req, "status");
    UnionRight(opt, req, "institution_name");
    UnionRight(opt, req, "created");
    UnionRight(opt, req, "category");
    UnionRight(opt, req, "subcategory");
    UnionRight(opt, req, "supported_payment_method_types");
  }

  /** The encoded account's optional keys are present exactly for the
      present optionals, and hold them. */
  lemma EncodedOptional(a: Account)
    ensures var f := EncodeAccount(a).fields;
      && ("display_name" in f <==> a.displayName.Some?)
      && (a.displayName.Some? ==> f["display_name"] == JString(a.displayName.value))
      && ("last4" in f <==> a.last4.Some?)
      && (a.last4.Some? ==> f["last4"] == JString(a.last4.value))
      && ("balance" in f <==> a.balance.Some?)
      && (a.balance.Some? ==> f["balance"] == EncodeBalance(a.balance.value))
      && ("balance_refresh" in f <==> a.balanceRefresh.Some?)
      && (a.balanceRefresh.Some? ==> f["balance_refresh"] == EncodeBalanceRefresh(a.balanceRefresh.value))
      && ("permissions" in f <==> a.permissions.Some?)
      && (a.permissions.Some? ==> f["permissions"] == EncodePermissions(a.permissions.value))
  {
    var opt, req := AccountOptionalFields(a), AccountRequiredFields(a);
    RequiredFieldsLackOptionals(a);
    OptionalFieldsValues(a);
    UnionLeft(opt, req, "display_name");
    UnionLeft(opt, req, "last4");
    UnionLeft(opt, req, "balance");
    UnionLeft(opt, req, "balance_refresh");
    UnionLeft(opt, req, "permissions");
  }

  /** What each required key of an encoded account decodes to. */
  lemma AccountRequiredDecode(a: Account)
    requires AccountInRange(a)
    ensures var fields := EncodeAccount(a).fields;
      && Required(fields, "id", DecodeString) == Ok(a.id)
      && Required(fields, "livemode", DecodeBool) == Ok(a.livemode)
      && Required(fields, "status", DecodeAccountStatus) == Ok(a.status)
      && Required(fields, "institution_name", DecodeString) == Ok(a.institutionName)
      && Required(fields, "created", DecodeInt) == Ok(a.created)
      && Required(fields, "category", DecodeCategory) == Ok(a.category)
      && Required(fields, "subcategory", DecodeSubcategory) == Ok(a.subcategory)
      && Required(fields, "supported_payment_method_types", DecodePaymentMethodTypes) == Ok(a.supportedPaymentMethodTypes)
  {
    EncodedRequired(a);
    RawEnumsRoundTrip();
    ArraysRoundTrip(a);
  }

  /** What each optional key of an encoded account decodes to. */
  lemma AccountOptionalDecode(a: Account)
    requires AccountInRange(a)
    ensures var fields := EncodeAccount(a).fields;
      && Optional(fields, "display_name", DecodeString) == Ok(a.displayName)
      && Optional(fields, "last4", DecodeString) == Ok(a.last4)
      && Optional(fields, "balance", DecodeBalance) == Ok(a.balance)
      && Optional(fields, "balance_refresh", DecodeBalanceRefresh) == Ok(a.balanceRefresh)
      && Optional(fields, "permissions", DecodePermissions) == Ok(a.permissions)
  {
    var f := EncodeAccount(a).fields;
    EncodedOptional(a);
    ArraysRoundTrip(a);
    if a.balance.Some? {
      BalanceRoundTrip(a.balance.value);
    }
    if a.balanceRefresh.Some? {
      BalanceRefreshRoundTrip(a.balanceRefresh.value);
    }
    OptionalRoundTrip(f, "display_name", a.displayName, EncodeString, DecodeString);
    OptionalRoundTrip(f, "last4", a.last4, EncodeString, DecodeString);
    OptionalRoundTrip(f, "balance", a.balance, EncodeBalance, DecodeBalance);
    OptionalRoundTrip(f, "balance_refresh", a.balanceRefresh, EncodeBalanceRefresh, DecodeBalanceRefresh);
    OptionalRoundTrip(f, "permissions", a.permissions, EncodePermissions, DecodePermissions);
  }

  lemma AccountRoundTrip(a: Account)
    requires AccountInRange(a)
    ensures DecodeAccount(EncodeAccount(a)) == Ok(a)
  {
    AccountRequiredDecode(a);
    AccountOptionalDecode(a);
  }

  lemma AccountsRoundTrip(data: seq<Account>)
    requires forall i :: 0 <= i < |data| ==> AccountInRange(data[i])
    ensures DecodeAccounts(JArray(EncodeItems(data, EncodeAccount))) == Ok(data)
  {
    forall i | 0 <= i < |data|
      ensures EncodeAccount(data[i]) != JNull && DecodeAccount(EncodeAccount(data[i])) == Ok(data[i])
    {
      AccountRoundTrip(data[i]);
    }
    ItemsRoundTrip(data, EncodeAccount, DecodeAccount);
  }

  lemma AccountListRoundTrip(l: AccountList)
    requires forall i :: 0 <= i < |l.data| ==> AccountInRange(l.data[i])
    ensures DecodeAccountList(EncodeAccountList(l)) == Ok(l)
  {
    AccountsRoundTrip(l.data);
  }

  /** A session whose integers fit in `Int` decodes back from its encoding. */
  lemma SessionRoundTrip(s: Session)
    requires SessionInRange(s)
    ensures DecodeSession(EncodeSession(s)) == Ok(s)
  {
    var f := EncodeSession(s).fields;
    assert "accounts" in f && f["accounts"] == EncodeAccountList(s.accounts);
    AccountListRoundTrip(s.accounts);
    assert Required(f, "accounts", DecodeAccountList) == Ok(s.accounts);
  }

  // ---------------------------------------------------------------------------
  // Missing and null keys

  /** Removing any one required key from an encoded session makes decoding
      fail with that key not found: the keys before it still decode, and
      the missing one stops the decoder. */
  lemma SessionMissingKey(s: Session, key: string)
    requires key in ["id", "client_secret", "livemode", "accounts"]
    ensures DecodeSession(JObject(EncodeSession(s).fields - {key})) == Err(KeyNotFound(key))
  {
    SessionFieldsWithout(s, key);
  }

  lemma SessionFieldsWithout(s: Session, key: string)
    ensures var f := EncodeSession(s).fields - {key};
      && key !in f
      && (key != "id" ==> "id" in f && f["id"] == JString(s.id))
      && (key != "client_secret" ==> "client_secret" in f && f["client_secret"] == JString(s.clientSecret))
      && (key != "livemode" ==> "livemode" in f && f["livemode"] == JBool(s.livemode))
  {
  }

  /** Two field maps that agree on a key decode it alike with `decode`. */
  lemma RequiredAgrees<T>(m1: map<string, Json>, m2: map<string, Json>, k: string, dec: Json -> Decoded<T>)
    requires k in m1 <==> k in m2
    requires k in m1 ==> m1[k] == m2[k]
    ensures Required(m1, k, dec) == Required(m2, k, dec)
  {
  }

  /** Two field maps that agree on a key once `null` is read as absent
      decode it alike with `decodeIfPresent`. */
  lemma OptionalAgrees<T>(m1: map<string, Json>, m2: map<string, Json>, k: string, dec: Json -> Decoded<T>)
    requires (k in m1 && m1[k] != JNull) <==> (k in m2 && m2[k] != JNull)
    requires k in m1 && m1[k] != JNull ==> m1[k] == m2[k]
    ensures Optional(m1, k, dec) == Optional(m2, k, dec)
  {
  }

  const AccountRequiredKeys: seq<string> := [
    "id", "livemode", "status", "institution_name", "created",
    "category", "subcategory", "supported_payment_method_types"]

  const AccountOptionalKeys: seq<string> := ["display_name", "last4", "balance", "balance_refresh", "permissions"]

  /** Two field maps agree on the required keys: each is present in both or
      in neither, with the same value. */
  predicate AgreeOnRequired(m1: map<string, Json>, m2: map<string, Json>) {
    forall k :: k in AccountRequiredKeys ==> (k in m1 <==> k in m2) && (k in m1 ==> m1[k] == m2[k])
  }

  /** Two field maps agree on the optional keys once `null` is read as
      absent. */
  predicate AgreeOnOptional(m1: map<string, Json>, m2: map<string, Json>) {
    forall k :: k in AccountOptionalKeys ==>
      && ((k in m1 && m1[k] != JNull) <==> (k in m2 && m2[k] != JNull))
      && (k in m1 && m1[k] != JNull ==> m1[k] == m2[k])
  }

  /** Two accounts' field maps that agree on the eight required keys, and on
      the five optional keys once `null` is read as absent, decode alike,
      whatever other keys either holds. */
  lemma DecodeAccountAgrees(m1: map<string, Json>, m2: map<string, Json>)
    requires AgreeOnRequired(m1, m2)
    requires AgreeOnOptional(m1, m2)
    ensures DecodeAccount(JObject(m1)) == DecodeAccount(JObject(m2))
  {
    RequiredKeysAgree(m1, m2);
    OptionalKeysAgree(m1, m2);
  }

  /** A key the account does not declare, such as the API's `object`, is
      ignored, whatever its value. */
  lemma AccountIgnoresUnknownKeys(m: map<string, Json>, key: string, v: Json)
    requires key !in AccountRequiredKeys && key !in AccountOptionalKeys
    ensures DecodeAccount(JObject(m[key := v])) == DecodeAccount(JObject(m))
    ensures DecodeAccount(JObject(m - {key})) == DecodeAccount(JObject(m))
  {
    DecodeAccountAgrees(m[key := v], m);
    DecodeAccountAgrees(m - {key}, m);
  }

  lemma RequiredKeysAgree(m1: map<string, Json>, m2: map<string, Json>)
    requires AgreeOnRequired(m1, m2)
    ensures Required(m1, "id", DecodeString) == Required(m2, "id", DecodeString)
    ensures Required(m1, "livemode", DecodeBool) == Required(m2, "livemode", DecodeBool)
    ensures Required(m1, "status", DecodeAccountStatus) == Required(m2, "status", DecodeAccountStatus)
    ensures Required(m1, "institution_name", DecodeString) == Required(m2, "institution_name", DecodeString)
    ensures Required(m1, "created", DecodeInt) == Required(m2, "created", DecodeInt)
    ensures Required(m1, "category", DecodeCategory) == Required(m2, "category", DecodeCategory)
    ensures Required(m1, "subcategory", DecodeSubcategory) == Required(m2, "subcategory", DecodeSubcategory)
    ensures Required(m1, "supported_payment_method_types", DecodePaymentMethodTypes)
         == Required(m2, "supported_payment_method_types", DecodePaymentMethodTypes)
  {
    RequiredAgrees(m1, m2, "id", DecodeString);
    RequiredAgrees(m1, m2, "livemode", DecodeBool);
    RequiredAgrees(m1, m2, "status", DecodeAccountStatus);
    RequiredAgrees(m1, m2, "institution_name", DecodeString);
    RequiredAgrees(m1, m2, "created", DecodeInt);
    RequiredAgrees(m1, m2, "category", DecodeCategory);
    RequiredAgrees(m1, m2, "subcategory", DecodeSubcategory);
    RequiredAgrees(m1, m2, "supported_payment_method_types", DecodePaymentMethodTypes);
  }

  lemma OptionalKeysAgree(m1: map<string, Json>, m2: map<string, Json>)
    requires AgreeOnOptional(m1, m2)
    ensures Optional(m1, "display_name", DecodeString) == Optional(m2, "display_name", DecodeString)
    ensures Optional(m1, "last4", DecodeString) == Optional(m2, "last4", DecodeString)
    ensures Optional(m1, "balance", DecodeBalance) == Optional(m2, "balance", DecodeBalance)
    ensures Optional(m1, "balance_refresh", DecodeBalanceRefresh) == Optional(m2, "balance_refresh", DecodeBalanceRefresh)
    ensures Optional(m1, "permissions", DecodePermissions) == Optional(m2, "permissions", DecodePermissions)
  {
    OptionalAgrees(m1, m2, "display_name", DecodeString);
    OptionalAgrees(m1, m2, "last4", DecodeString);
    OptionalAgrees(m1, m2, "balance", DecodeBalance);
    OptionalAgrees(m1, m2, "balance_refresh", DecodeBalanceRefresh);
    OptionalAgrees(m1, m2, "permissions", DecodePermissions);
  }

  /** For an account, an optional key set to `null` reads exactly as the
      key left out, whatever else the object holds. */
  lemma AccountNullIsAbsent(m: map<string, Json>, key: string)
    requires key in AccountOptionalKeys
    ensures DecodeAccount(JObject(m - {key})) == DecodeAccount(JObject(m[key := JNull]))
  {
    DecodeAccountAgrees(m - {key}, m[key := JNull]);
  }

  lemma OptionalFieldsWithoutBalance(a: Account)
    ensures AccountOptionalFields(a.(balance := None)) == AccountOptionalFields(a) - {"balance"}
  {
  }

  lemma UnionMinus(m1: map<string, Json>, m2: map<string, Json>, k: string)
    requires k !in m2
    ensures (m1 - {k}) + m2 == (m1 + m2) - {k}
  {
  }

  lemma EncodedWithoutBalance(a: Account)
    ensures EncodeAccount(a.(balance := None)).fields == EncodeAccount(a).fields - {"balance"}
  {
    OptionalFieldsWithoutBalance(a);
    RequiredFieldsLackOptionals(a);
    UnionMinus(AccountOptionalFields(a), AccountRequiredFields(a), "balance");
  }

  /** Leaving the balance out of an encoded account, or writing it as
      `null`, decodes to the same account without a balance. */
  lemma AccountWithoutBalance(a: Account)
    requires AccountInRange(a)
    ensures DecodeAccount(JObject(EncodeAccount(a).fields - {"balance"})) == Ok(a.(balance := None))
    ensures DecodeAccount(JObject(EncodeAccount(a).fields["balance" := JNull])) == Ok(a.(balance := None))
  {
    EncodedWithoutBalance(a);
    AccountRoundTrip(a.(balance := None));
    AccountNullIsAbsent(EncodeAccount(a).fields, "balance");
  }
}

=== FILE: url_encoder.dfy ===
/** `URLEncoder` (Helpers/URLEncoder.swift): flattening of a nested
    parameter dictionary into bracket-path keys, rendering of scalars, and
    the `&`-joined, percent-escaped query string built from the result.

    A Swift `[String: Any]` is modelled as the sequence of its entries in
    the order the dictionary enumerates them; Swift does not specify that
    order, so every result below is stated for an arbitrary one. */
module URLEncoder {
  import opened Wrappers
  import opened Sequences
  import Decimal
  import Urls
  import PercentEncoding

  /** The values a parameter dictionary holds. `Number` is an integral
      `NSNumber` (an `Int` literal such as `30`). */
  datatype Value =
    | Str(s: string)
    | Boolean(b: bool)
    | Number(n: int)
    | Link(url: Urls.Url)
    | Dict(entries: seq<Entry>)
    | Array(items: seq<Value>)

  datatype Entry = Entry(key: string, value: Value)

  /** Foundation behaviour the model leaves abstract: the text `"\(value)"`
      gives for a value that is none of the recognised scalars (reachable
      only for an array nested in an array), and the `.urlQueryAllowed`
      character set. */
  datatype Platform = Platform(describe: Value -> string, urlQueryAllowed: set<char>)

  predicate IsContainer(v: Value) {
    v.Dict? || v.Array?
  }

  /** `stringFromValue`: `Bool` is tested before `NSNumber`, then `URL`;
      everything else goes through string interpolation, which is the
      identity on a `String`. */
  function StringFromValue(v: Value, describe: Value -> string): (r: string)
    ensures v.Boolean? ==> (r == "true" <==> v.b) && (r == "false" <==> !v.b)
    ensures v.Number? ==> r == Decimal.IntToDecimal(v.n)
    ensures v.Link? ==> r == v.url.absoluteString
    ensures v.Str? ==> r == v.s
    ensures IsContainer(v) ==> r == describe(v)
  {
    match v
    case Boolean(b) => if b then "true" else "false"
    case Number(n) => Decimal.IntToDecimal(n)
    case Link(url) => url.absoluteString
    case Str(s) => s
    case Dict(_) => describe(v)
    case Array(_) => describe(v)
  }

  /** An integral number renders as decimal text that reads back as the
      same number. */
  lemma NumberTextReadsBack(n: int, describe: Value -> string)
    ensures Decimal.ParseInt(StringFromValue(Number(n), describe)) == Some(n)
    ensures Decimal.AllDigits(StringFromValue(Number(n), describe)) <==> n >= 0
  {
    Decimal.ParseIntToDecimal(n);
    var r := StringFromValue(Number(n), describe);
    if n < 0 {
      assert !Decimal.IsDigit(r[0]);
    }
  }

  /** `keyPath`: a key at top level (empty prefix) stands for itself;
      below a prefix `p` it becomes `p[key]`. */
  function KeyPath(prefix: string, key: string): string {
    if prefix == "" then key else prefix + "[" + key + "]"
  }

  /** `arrayKeyPath`: element `index` under `keyPath` is `keyPath[index]`. */
  function IndexPath(keyPath: string, index: nat): string {
    keyPath + "[" + Decimal.NatToDecimal(index) + "]"
  }

  /** `flattenParameters(parameters, prefix:)`: the entries are visited in
      enumeration order and each one's contribution is merged over what
      earlier ones produced. */
  function FlattenEntries(es: seq<Entry>, prefix: string, describe: Value -> string): map<string, string>
  {
    if |es| == 0 then map[]
    else FlattenEntries(es[..|es| - 1], prefix, describe) + FlattenEntry(es[|es| - 1], prefix, describe)
  }

  /** What one entry contributes: a dictionary recurses under the entry's
      key path, an array contributes its elements, a scalar one string. */
  function FlattenEntry(e: Entry, prefix: string, describe: Value -> string): map<string, string>
  {
    var keyPath := KeyPath(prefix, e.key);
    match e.value
    case Dict(d) => FlattenEntries(d, keyPath, describe)
    case Array(items) => FlattenItems(items, keyPath, describe)
    case _ => map[keyPath := StringFromValue(e.value, describe)]
  }

  /** The elements of an array under `keyPath`, in index order. */
  function FlattenItems(items: seq<Value>, keyPath: string, describe: Value -> string): map<string, string>
  {
    if |items| == 0 then map[]
    else
      var last := |items| - 1;
      FlattenItems(items[..last], keyPath, describe) + FlattenItem(items[last], IndexPath(keyPath, last), describe)
  }

  /** A dictionary element recurses under its index path; any other
      element, a nested array included, is one stringified entry. */
  function FlattenItem(item: Value, itemPath: string, describe: Value -> string): map<string, string>
  {
    match item
    case Dict(d) => FlattenEntries(d, itemPath, describe)
    case _ => map[itemPath := StringFromValue(item, describe)]
  }

  function Flatten(params: seq<Entry>, describe: Value -> string): map<string, string> {
    FlattenEntries(params, "", describe)
  }

  // ---------------------------------------------------------------------------
  // Query string

  /** `order` lists every key of `keys` exactly once. */
  predicate Enumerates(order: seq<string>, keys: set<string>) {
    && Distinct(order)
    && (forall k :: k in order ==> k in keys)
    && (forall k :: k in keys ==> k in order)
  }

  /** The parts with `sep` between neighbours; the first part leads. */
  function Join(parts: seq<string>, sep: string): (r: string)
    ensures |parts| > 0 ==> parts[0] <= r
    ensures |parts| == 0 ==> r == ""
  {
    if |parts| == 0 then ""
    else if |parts| == 1 then parts[0]
    else parts[0] + sep + Join(parts[1..], sep)
  }

  /** `escapedKey=escapedValue` for one flattened entry. */
  function EncodePair(key: string, value: string, allowed: set<char>): string {
    PercentEncoding.Escape(key, allowed) + "=" + PercentEncoding.Escape(value, allowed)
  }

  /** The encoded pairs of `flat`, in the order `order` visits its keys. */
  function EncodedPairs(flat: map<string, string>, order: seq<string>, allowed: set<char>): (r: seq<string>)
    requires forall k :: k in order ==> k in flat
    ensures |r| == |order|
    ensures forall i :: 0 <= i < |order| ==> r[i] == EncodePair(order[i], flat[order[i]], allowed)
  {
    if |order| == 0 then [] else [EncodePair(order[0], flat[order[0]], allowed)] + EncodedPairs(flat, order[1..], allowed)
  }

  /** `queryString(from:)`, with the flattened dictionary enumerated in `order`. */
  function QueryString(params: seq<Entry>, platform: Platform, order: seq<string>): (r: string)
    requires Enumerates(order, Flatten(params, platform.describe).Keys)
  {
    var flat := Flatten(params, platform.describe);
    Join(EncodedPairs(flat, order, platform.urlQueryAllowed), "&")
  }
}

=== FILE: urls.dfy ===
/** Foundation `URL` values, reduced to their absolute string and the
    scheme read off it (the part before the first `:`, when that part is a
    scheme in the sense of section 3.1 of RFC 3986). */
module Urls {
  import opened Wrappers
  import opened Sequences

  datatype Url = Url(absoluteString: string)

  predicate IsAsciiLetter(c: char) {
    ('a' <= c <= 'z') || ('A' <= c <= 'Z')
  }

  /** ALPHA *( ALPHA / DIGIT / "+" / "-" / "." ) */
  predicate IsSchemeName(s: string) {
    && |s| >= 1
    && IsAsciiLetter(s[0])
    && forall i :: 1 <= i < |s| ==> IsAsciiLetter(s[i]) || ('0' <= s[i] <= '9') || s[i] in {'+', '-', '.'}
  }

  /** `URL.scheme`: absent for a relative reference. */
  function Scheme(u: Url): (r: Option<string>)
    ensures r.Some? ==> IsSchemeName(r.value) && |r.value| < |u.absoluteString|
    ensures r.Some? ==> u.absoluteString == r.value + [':'] + u.absoluteString[|r.value| + 1..]
  {
    match FirstIndexOf(u.absoluteString, ':')
    case None => None
    case Some(i) =>
      var candidate := u.absoluteString[..i];
      if IsSchemeName(candidate) then Some(candidate) else None
  }

  /** The scheme of `scheme:rest` is `scheme`, whatever follows the colon. */
  lemma SchemeOfComposed(scheme: string, rest: string)
    requires IsSchemeName(scheme)
    ensures Scheme(Url(scheme + ":" + rest)) == Some(scheme)
  {
    var s := scheme + ":" + rest;
    assert forall j :: 0 <= j < |scheme| ==> s[j] == scheme[j] && s[j] != ':';
    assert s[|scheme|] == ':';
    assert s[..|scheme|] == scheme;
  }
}

=== FILE: utf8.dfy ===
/** UTF-8 encoding of Unicode scalar values: what `String.data(using: .utf8)`
    produces and what percent-encoding escapes byte by byte. */
module Utf8 {

  type Byte = b: int | 0 <= b < 256

  predicate IsAscii(c: char) {
    c as int < 0x80
  }

  /** The one to four bytes that encode `c`. */
  function EncodeChar(c: char): (bs: seq<Byte>)
    ensures 1 <= |bs| <= 4
    ensures |bs| == 1 <==> IsAscii(c)
    ensures IsAscii(c) ==> bs[0] == c as int
    ensures !IsAscii(c) ==> bs[0] >= 0xC0
    ensures forall i :: 1 <= i < |bs| ==> 0x80 <= bs[i] < 0xC0
  {
    var n := c as int;
    if n < 0x80 then [n]
    else if n < 0x800 then [0xC0 + n / 0x40, 0x80 + n % 0x40]
    else if n < 0x1_0000 then [0xE0 + n / 0x1000, 0x80 + (n / 0x40) % 0x40, 0x80 + n % 0x40]
    else [0xF0 + n / 0x4_0000, 0x80 + (n / 0x1000) % 0x40, 0x80 + (n / 0x40) % 0x40, 0x80 + n % 0x40]
  }

  /** The UTF-8 bytes of a string: its characters' encodings, in order. */
  function Encode(s: string): seq<Byte> {
    if |s| == 0 then [] else EncodeChar(s[0]) + Encode(s[1..])
  }

  lemma {:induction false} EncodeConcat(s: string, t: string)
    ensures Encode(s + t) == Encode(s) + Encode(t)
    decreases |s|
  {
    if |s| > 0 {
      assert (s + t)[1..] == s[1..] + t;
      EncodeConcat(s[1..], t);
    } else {
      assert s + t == t;
    }
  }

  /** An all-ASCII string takes exactly one byte per character. */
  lemma {:induction false} AsciiByteCount(s: string)
    requires forall i :: 0 <= i < |s| ==> IsAscii(s[i])
    ensures |Encode(s)| == |s|
    ensures forall i :: 0 <= i < |s| ==> Encode(s)[i] == s[i] as int
    decreases |s|
  {
    if |s| > 0 {
      AsciiByteCount(s[1..]);
    }
  }
}

=== FILE: wrappers.dfy ===
/** Failure-compatible wrappers shared by every module of the model: `Option`
    stands for Swift optionals, `Result` for a call that either returns a
    value or throws an error. Both may be used with `:-`. */
module Wrappers {

  datatype Option<+T> = None | Some(value: T) {

    predicate IsFailure() {
      None?
    }

    function PropagateFailure<U>(): Option<U>
      requires None?
    {
      None
    }

    function Extract(): T
      requires Some?
    {
      value
    }

    /** Swift's `??`: the wrapped value, or `default` when there is none. */
    function GetOr(default: T): T {
      match this
      case Some(v) => v
      case None => default
    }
  }

  datatype Result<+T, +E> = Ok(value: T) | Err(error: E) {

    predicate IsFailure() {
      Err?
    }

    function PropagateFailure<U>(): Result<U, E>
      requires Err?
    {
      Err(error)
    }

    function Extract(): T
      requires Ok?
    {
      value
    }
  }
}
